=== FILE: README.md ===
# Personal organiser: data handlers and dual-backend services

This project models the data core of a desktop organiser built with Wails: a Go
back end and a TypeScript front end. It covers these modules:

- a step list (passos);
- a kanban board (planejamento);
- an ideas canvas with image files (ideias);
- a calendar (calendario);
- saved links (links);
- goals (objetivos);
- backups of all data files (backup).

The Go handlers keep each module in one JSON file. Every handler method does
three things:

1. load the file;
2. apply one list or board operation;
3. save the result.

The TypeScript services follow a dual-backend protocol. When the Go bridge is
present they call it. When it is absent, or when the call fails, they fall back
to `localStorage`: they load the key, apply the same operation, and write the key
back.

The model is purely functional:

- Files, keys and bridge replies are values passed in.
- Each handler or service call returns the new file or key, its result, and the
  bridge calls it made (a trace).

Modules:

- `Common`, `Seqs`, `Lex`, `Stamps`, `Js`:
  - `Common` and `Seqs` hold results and keyed list operations: find first,
    replace first, and remove all.
  - `Lex` holds Go string order and sorting.
  - `Stamps` holds the backup timestamp layout.
  - `Js` holds JavaScript values and truthiness.
- `GoFiles`: nil slices, the four states of a data file, and the
  load–transform–save shape of every Go list mutation.
- `Passos`, `Planejamento`, `Calendario`, `Links`, `Objetivos`, `Ideias`,
  `Backup`: the Go handlers.
- `Dual`: the TypeScript protocol. It covers key states, bridge replies, the
  shared save, the checked load and the fallback mutation.
- `PassosService`, `CalendarioService`, `LinksService`, `ObjetivosService`,
  `PlanejamentoService`, `CanvasService`: the TypeScript services.
  - `CanvasService` models `services/wails.ts`.
  - Some lemmas relate a fallback to the Go handler it stands in for.
- `Modulos`: the front end's module registry.

Behaviour of the code that is easy to miss:

- The passos and calendario loads only test `Array.isArray`.
  - Before that test they log `.length`.
  - A non-empty string answer therefore passes their `&&` guard and is mirrored
    as `[]`.
- The links load has the same guard but no `Array.isArray`.
  - A non-empty string answer is mirrored and returned as it is.
  - The stored value is returned unchecked, and its `JSON.parse` is not caught.
- The canvas load replaces a falsy `nodes`/`edges` with `[]`.
  - It never mirrors the bridge's answer into the key.
- `DeletarObjetivo` in Go starts from an empty slice, not a nil one.
  - Deleting the last goal therefore writes `[]`, not `null`.

## Model

| member | source | states |
|---|---|---|
| GoFiles.Collect | internal/handlers/passos.go:119-125 | A slice built by appending to a nil slice stays nil exactly when nothing was appended, and holds the appended items in order. |
| GoFiles.LoadList | internal/handlers/passos.go:46-71 | A data-file load succeeds exactly when the file is missing (empty list) or decodes. An unreadable or corrupt file is an error with an empty list. A decoded `null` loads as the empty list. |
| GoFiles.Mutate | internal/handlers/passos.go:74-94 | A handler mutation fails and leaves the file alone exactly when the load fails or the save's marshal or write fails. Otherwise it saves the transformed list, and the next load returns that list. |
| GoFiles.LoadAfterSave | internal/handlers/passos.go:74-80 | Whatever a handler saves, nil slice or not, the next load returns it. |
| Seqs.FirstMatchUnique | frontend/src/lib/services/passos.ts:119 | The first record with a given ID is unique, so `findIndex` and a `for … break` loop pick the same record. |
| Seqs.FirstIndex | frontend/src/lib/services/passos.ts:119 | `findIndex` returns the first position with the ID, or nothing exactly when no record has it. |
| Seqs.ReplaceFirst | internal/handlers/passos.go:103-108 | Replacing by ID changes only the first record with that ID, keeps the length, and changes nothing when the ID is absent. |
| Seqs.RemoveAll | internal/handlers/passos.go:120-125 | Filtering by ID keeps exactly the records with other IDs (their order is stated by Seqs.RemoveAllCons and Seqs.RemoveAllAppend). The list shrinks exactly when the ID was present. |
| Seqs.RemoveAllCons | internal/handlers/passos.go:120-125 | Survivors keep their order: a head with another ID stays in front of the filtered rest, and a matching head is dropped. |
| Seqs.RemoveAllAppend | internal/handlers/passos.go:120-125 | Filtering distributes over concatenation, so survivors keep their relative order. |
| Seqs.RemoveAllIdempotent | internal/handlers/passos.go:120-125 | Filtering twice by the same ID is filtering once. |
| Seqs.RemoveAllCount | internal/handlers/passos.go:120-125 | The filter removes exactly as many records as carry the ID. |
| Seqs.Swap | internal/handlers/passos.go:151-157 | The two positions trade their records, every other position keeps its record, and the list is a permutation of the original. |
| Passos.Renumber | internal/handlers/passos.go:128-130 | After renumbering, `Ordem` is exactly 1..n in list order, and nothing else in any step changes. |
| Passos.RenumberDense | internal/handlers/passos.go:128-130 | Renumbering an already dense list changes nothing. |
| Passos.Adicionar | internal/handlers/passos.go:89-91 | The new step goes last with `Ordem` = old length + 1, and the existing steps are untouched. A dense list stays dense. |
| Passos.Atualizar | internal/handlers/passos.go:103-108 | The first step with the ID becomes the caller's record, `Ordem` included. An unknown ID changes nothing. |
| Passos.Deletar | internal/handlers/passos.go:114-133 | No step with the ID is left, the others keep their order, and `Ordem` is dense again. |
| Passos.GoIndex | internal/handlers/passos.go:143-149 | The index is the first match. For an unknown ID it is Go's zero value 0. |
| Passos.Swapped | internal/handlers/passos.go:143-157 | For the first step with the ID, "cima" exchanges it with the previous step when it is not first, "baixo" with the next step when it is not last, all other positions are untouched, and otherwise nothing moves. The result is a permutation. |
| Passos.ForgetSwap | internal/handlers/passos.go:151-162 | Ignoring `Ordem` commutes with the exchange. |
| Passos.SwappedPermutes | internal/handlers/passos.go:151-157 | Apart from `Ordem`, the exchange only permutes the steps. |
| Passos.Mover | internal/handlers/passos.go:136-165 | A move keeps the length and leaves `Ordem` dense. Apart from `Ordem`, the result is the list with the first matching step exchanged with its previous ("cima") or next ("baixo") neighbour, or the list unchanged at the edges. |
| Passos.Toggle | internal/handlers/passos.go:174-179 | Only `Concluido` of the first step with the ID flips. An unknown ID changes nothing. |
| Passos.MoverBoundary | internal/handlers/passos.go:151-157 | Moving the first step up, or the last one down, exchanges nothing and only renumbers. |
| Passos.MoverUpThenDown | internal/handlers/passos.go:136-165 | Moving a step up and then down restores the original order. |
| Passos.RenumberForget | internal/handlers/passos.go:128-130 | Two lists that differ only in `Ordem` renumber to the same list. |
| Passos.MoverUnknown | internal/handlers/passos.go:143-157 | With an unknown ID, "cima" only renumbers, while "baixo" exchanges the first two steps (the zero index). |
| Passos.ToggleTwice | internal/handlers/passos.go:168-182 | Toggling keeps `Ordem` dense, and toggling twice is the identity. |
| Passos.OpsKeepDense | internal/handlers/passos.go:83-182 | After any sequence of add, delete, move and toggle, `Ordem` is still 1..n. |
| Passos.AdicionarPasso | internal/handlers/passos.go:83-94 | Fails and leaves the file alone exactly when the load or the save fails. Otherwise the file then holds the list with the step appended. |
| Passos.AtualizarPasso | internal/handlers/passos.go:97-111 | Fails and leaves the file alone exactly when the load or the save fails. Otherwise the file holds the list with the first match replaced. |
| Passos.DeletarPasso | internal/handlers/passos.go:114-133 | Fails and leaves the file alone exactly when the load or the save fails. Otherwise the file holds the filtered, renumbered list, and `null` when that list is empty. |
| Passos.MoverPasso | internal/handlers/passos.go:136-165 | Fails and leaves the file alone exactly when the load or the save fails. Otherwise the file holds the moved, renumbered list. |
| Passos.ToggleConcluido | internal/handlers/passos.go:168-182 | Fails and leaves the file alone exactly when the load or the save fails. Otherwise the file holds the list with the step toggled. |
| Calendario.Adicionar | internal/handlers/calendario.go:90 | The event is appended and the earlier events are untouched. |
| Calendario.Atualizar | internal/handlers/calendario.go:101-106 | Only the first event with the ID is replaced, by the whole record. |
| Calendario.Deletar | internal/handlers/calendario.go:118-123 | No event with the ID remains, and every other event does. |
| Calendario.AdicionarEvento | internal/handlers/calendario.go:85-92 | Fails and leaves the file alone exactly when the load or the save fails. Otherwise the next load returns the list with the event appended. |
| Calendario.AtualizarEvento | internal/handlers/calendario.go:95-109 | Fails and leaves the file alone exactly when the load or the save fails. Otherwise the next load returns the updated list. |
| Calendario.DeletarEvento | internal/handlers/calendario.go:112-126 | Fails and leaves the file alone exactly when the load or the save fails. Otherwise the next load returns the filtered list. Deleting the last event writes `null`. |
| Links.Encode | internal/handlers/links.go:18-24 | The written object has `description` exactly when it is non-empty, and always the other four keys. |
| Links.DecodeEncode | internal/handlers/links.go:22 | Leaving out an empty description loses nothing: decoding the written object gives back the link. |
| Links.Adicionar | internal/handlers/links.go:88 | The link is appended and the earlier links are untouched. |
| Links.Atualizar | internal/handlers/links.go:116-121 | Only the first link with the ID is replaced. |
| Links.Deletar | internal/handlers/links.go:99-104 | No link with the ID remains, and every other link does. |
| Links.AdicionarLink | internal/handlers/links.go:83-90 | Fails and leaves the file alone exactly when the load or the save fails. Otherwise the next load returns the list with the link appended. |
| Links.AtualizarLink | internal/handlers/links.go:110-124 | Fails and leaves the file alone exactly when the load or the save fails. Otherwise the next load returns the updated list. |
| Links.DeletarLink | internal/handlers/links.go:93-107 | Fails and leaves the file alone exactly when the load or the save fails. Otherwise the next load returns the filtered list. Deleting the last link writes `null`. |
| Objetivos.Adicionar | internal/handlers/objetivos.go:89 | The goal is appended and the earlier goals are untouched. |
| Objetivos.Atualizar | internal/handlers/objetivos.go:116-121 | Only the first goal with the ID is replaced. |
| Objetivos.Deletar | internal/handlers/objetivos.go:100-105 | No goal with the ID remains, and every other goal does. |
| Objetivos.AdicionarObjetivo | internal/handlers/objetivos.go:84-91 | Fails and leaves the file alone exactly when the load or the save fails. Otherwise the next load returns the list with the goal appended. |
| Objetivos.AtualizarObjetivo | internal/handlers/objetivos.go:110-123 | Fails and leaves the file alone exactly when the load or the save fails. Otherwise the next load returns the updated list. |
| Objetivos.DeletarObjetivo | internal/handlers/objetivos.go:94-107 | Fails and leaves the file alone exactly when the load or the save fails. Otherwise the file holds a non-nil list, so `[]` is written and never `null`, and the next load returns the filtered list. |
| Planejamento.ColunaDe | internal/handlers/planejamento.go:120-127 | The `switch` on a status selects the column of that name. No column is selected exactly when the status names none. |
| Planejamento.ColunaDeNome | internal/handlers/planejamento.go:120-127 | Each column's own name selects it. |
| Planejamento.Put | internal/handlers/planejamento.go:201 | Replacing one column leaves the other two unchanged. |
| Planejamento.TotalPut | internal/handlers/planejamento.go:201 | Replacing a column changes the task count by the difference in that column's size. |
| Planejamento.GarantirColunas | internal/handlers/planejamento.go:101-111 | No column is nil afterwards. Every column keeps its tasks, and a non-nil column is untouched. |
| Planejamento.GarantirColunasIdempotent | internal/handlers/planejamento.go:101-111 | Filling nil columns twice is filling once, and a board without nil columns is unchanged. |
| Planejamento.Adicionar | internal/handlers/planejamento.go:120-127 | The task is appended to the column its status names, and the other columns are untouched. A status naming no column changes nothing. |
| Planejamento.Mover | internal/handlers/planejamento.go:139-173 | The move fails to find exactly when the origin has no task with the ID. If the destination is a column, the task count is kept; otherwise the task is lost, the origin keeps every other task in order, and the count drops by one. Columns other than origin and destination are untouched. |
| Planejamento.MoverMoves | internal/handlers/planejamento.go:152-172 | The found task leaves its position in the origin and is appended to the destination with the destination as its status. |
| Planejamento.Deletar | internal/handlers/planejamento.go:185-201 | The named column is filtered by ID, and the other columns are untouched. |
| Planejamento.Atualizar | internal/handlers/planejamento.go:213-228 | The first match in the named column is replaced, and the other columns are untouched. |
| Planejamento.CarregarQuadro | internal/handlers/planejamento.go:55-80 | The loaded board never has a nil column. It succeeds exactly when the file is missing or decodes. A decoded board keeps its tasks; every other case gives the empty board. |
| Planejamento.SalvarQuadro | internal/handlers/planejamento.go:48-52 | Succeeds exactly when the marshal and write succeed, and otherwise leaves the file alone. The written board has no nil column and the same tasks in every column. |
| Planejamento.LoadAfterSaveQuadro | internal/handlers/planejamento.go:48-80 | A saved board loads back with the same tasks in every column. |
| Planejamento.AdicionarTarefa | internal/handlers/planejamento.go:114-130 | Fails and leaves the file alone exactly when the load or the save fails. Otherwise the saved board has no nil column and holds the tasks with the new one appended to its column. |
| Planejamento.MoverTarefa | internal/handlers/planejamento.go:133-176 | Fails and leaves the file alone exactly when the load fails, or when a found task's save fails. A task not found leaves the file untouched and reports success without saving. Otherwise the moved board is saved. |
| Planejamento.DeletarTarefa | internal/handlers/planejamento.go:179-204 | Fails and leaves the file alone exactly when the load or the save fails. Otherwise the saved board has no nil column, even when the filter emptied one, and holds the filtered tasks. |
| Planejamento.AtualizarTarefa | internal/handlers/planejamento.go:207-231 | Fails and leaves the file alone exactly when the load or the save fails. Otherwise the updated board is saved. |
| Ideias.FillBoth | internal/handlers/ideias.go:128-136 | After the loop body, `Parent` and `ParentId` are both set or both empty, each filled from the other. A node whose fields already agree is unchanged. |
| Ideias.NormalizarCampos | internal/handlers/ideias.go:127-137 | Each node goes through the loop body `FillBoth`, so every node's parent fields agree afterwards. IDs are kept, and nodes that already agreed are unchanged. |
| Ideias.NormalizarCamposIdempotent | internal/handlers/ideias.go:127-137 | Normalising twice is normalising once. |
| Ideias.FillParentId | internal/handlers/ideias.go:68-73 | The save fills an empty `ParentId` from `Parent`. It changes no other field of the node. |
| Ideias.SalvarCanvas | internal/handlers/ideias.go:66-80 | Succeeds exactly when the marshal and write succeed, and otherwise leaves the file alone. The written canvas keeps nil-ness, length and edges. Each written node is its input node after `FillParentId`. |
| Ideias.CarregarCanvas | internal/handlers/ideias.go:83-115 | Both lists are non-nil after a load. It succeeds exactly when the file is missing or decodes. A decoded canvas is normalised; every other case gives the empty canvas. |
| Ideias.LoadAfterSave | internal/handlers/ideias.go:66-115 | The save's one-sided fill never changes what the next load returns: the nodes come back fully normalised and the edges unchanged. |
| Ideias.Ext | internal/handlers/ideias.go:148 | The extension is a suffix of the path: empty, or a dot followed by no dot or `/`. |
| Ideias.ExtAppend | internal/handlers/ideias.go:148 | A non-empty extension of a tail is the extension of the whole path. |
| Ideias.ExtOfExt | internal/handlers/ideias.go:148 | An extension is its own extension. |
| Ideias.LowerChar | internal/handlers/ideias.go:202 | Lowers a character as Go's `strings.ToLower` does wherever the result can be ASCII: the ASCII capitals, dotted capital I to `i` and the Kelvin sign to `k`. No result is an ASCII capital. |
| Ideias.Lower | internal/handlers/ideias.go:202 | Lower-casing works character by character and keeps the length. |
| Ideias.LowerIdempotent | internal/handlers/ideias.go:202 | Lowering twice is lowering once, and a lower-case ASCII extension is its own lowering. |
| Ideias.DottedCapitalIsImage | internal/handlers/ideias.go:202-203 | A name whose extension is `.G` + dotted capital I + `F` counts as a `.gif` image. |
| Ideias.UploadName | internal/handlers/ideias.go:147-149 | The stored name is the node ID, `_`, eight characters, then the upload's extension. |
| Ideias.UploadKeepsExt | internal/handlers/ideias.go:147-149 | The stored name keeps the upload's extension, so an image upload stays an image name. |
| Ideias.UploadImagem | internal/handlers/ideias.go:140-159 | A name is returned exactly when the file was written, and it starts with the node ID and `_` and ends with the extension. |
| Ideias.Orphans | internal/handlers/ideias.go:195-217 | A listed entry is deleted exactly when it is an orphan: a file with an image extension (any case) that no image node names and that no listed node ID followed by `_` starts. |
| Ideias.LimparImagensOrfas | internal/handlers/ideias.go:169-222 | Fails exactly when the canvas load fails, and then deletes nothing. An unreadable image folder deletes nothing and succeeds. Otherwise exactly the orphans are deleted. |
| Ideias.UploadSurvivesCleanup | internal/handlers/ideias.go:147-149 | A file uploaded for a node whose ID the cleanup is given is never deleted. |
| Ideias.OnlyImageNodesReference | internal/handlers/ideias.go:178-184 | Only image nodes protect a file: the same `imageFile` on a node of another type does not. |
| Lex.BelowIrreflexive | internal/handlers/backup.go:184 | Go's string `<` is irreflexive. |
| Lex.BelowTransitive | internal/handlers/backup.go:184 | Go's string `<` is transitive. |
| Lex.BelowTotal | internal/handlers/backup.go:184 | Go's string `<` is total on distinct strings. |
| Lex.BelowAsymmetric | internal/handlers/backup.go:184 | Go's string `<` is asymmetric. |
| Lex.AtMostTransitive | internal/handlers/backup.go:184 | Go's string `<=` is transitive. |
| Lex.BelowConcat | internal/handlers/backup.go:127 | For equally long heads, comparison decides on the heads first. |
| Lex.ConsSorted | internal/handlers/backup.go:184 | A lower bound put in front of a sorted list keeps it sorted. |
| Lex.HeadBound | internal/handlers/backup.go:184 | A bound on a sorted list's head bounds the whole list. |
| Lex.InsertBound | internal/handlers/backup.go:184 | Insertion keeps an existing lower bound. |
| Lex.NotAtMost | internal/handlers/backup.go:184 | Two strings are always comparable. |
| Lex.Insert | internal/handlers/backup.go:184 | Insertion into a sorted list gives a sorted list with one more copy of the element. |
| Lex.SortBy | internal/handlers/backup.go:184 | The result is sorted by key and is a permutation of the input. |
| Lex.Reverse | internal/handlers/backup.go:76-78 | Reversal mirrors positions and is a permutation. |
| Stamps.Pad | internal/handlers/backup.go:126 | A zero-padded field has the fixed width and only digits. |
| Stamps.PadOrder | internal/handlers/backup.go:126 | Fixed-width numerals compare and match like the numbers they write. |
| Stamps.Triple | internal/handlers/backup.go:126 | Three fixed-width fields joined by one separator compare field by field. |
| Stamps.DatePart | internal/handlers/backup.go:126 | The date part is ten characters. |
| Stamps.ClockPart | internal/handlers/backup.go:126 | The clock part is eight characters. |
| Stamps.Format | internal/handlers/backup.go:126 | The timestamp is 19 characters with its separators at fixed places. |
| Stamps.DateOrder | internal/handlers/backup.go:126 | Date text order is calendar order, and equal text means the same day. |
| Stamps.ClockOrder | internal/handlers/backup.go:126 | Clock text order is time-of-day order, and equal text means the same second. |
| Stamps.FormatOrder | internal/handlers/backup.go:126 | String order of formatted stamps is chronological order, and formatting is injective. |
| Backup.BackupNames | internal/handlers/backup.go:176-181 | The collected names are exactly the names of the `backup_` directories. |
| Backup.BackupNamesDistinct | internal/handlers/backup.go:176-181 | A directory without repeated names yields distinct backup names. |
| Backup.DistinctCount | internal/handlers/backup.go:176-181 | A list without duplicates holds each name at most once. |
| Backup.Without | internal/handlers/backup.go:187 | Removing by name leaves exactly the entries with other names. |
| Backup.LimparAntigos | internal/handlers/backup.go:170-190 | The deleted and the kept names together are exactly the backup names. It keeps min(n, 10) names and deletes nothing when there are at most 10. Every deleted name sorts at or before every kept one. |
| Backup.SameLength | internal/handlers/backup.go:186-189 | Permutations have equal length. |
| Backup.SplitSorted | internal/handlers/backup.go:184-189 | Cutting the sorted names puts every removed name at or before every kept one. |
| Backup.WithoutBackupNames | internal/handlers/backup.go:186-189 | Deleting directories by name removes exactly those backup names. |
| Backup.DisjointParts | internal/handlers/backup.go:186-189 | A name is either removed or kept, never both. |
| Backup.LimparAntigosLeavesKept | internal/handlers/backup.go:170-190 | The backups left on disk are exactly the kept names. |
| Backup.NewestSurvives | internal/handlers/backup.go:170-190 | A backup named later than every other one is never pruned. |
| Backup.EarlierBelow | internal/handlers/backup.go:126-127 | A backup taken at an earlier second has the smaller directory name. |
| Backup.InfoOf | internal/handlers/backup.go:65-71 | A listed backup's `Nome` is its directory name, its `Data` is the name without `backup_`, and its label is `formatLabel` of that. |
| Backup.Infos | internal/handlers/backup.go:63-73 | The infos are exactly those of the backup directories. |
| Backup.NewestFirst | internal/handlers/backup.go:75-78 | The listed infos are a permutation of the collected ones, newest `Data` first. |
| Backup.ListarBackups | internal/handlers/backup.go:53-81 | Succeeds exactly when the directory is readable. It lists every backup directory once, newest `Data` first, and is nil when there are none. |
| Backup.Resolve | internal/handlers/backup.go:90 | A name without separators resolves to a child directory unless it is "", "." or "..", which resolve to the backups folder or its parent. |
| Backup.DataFiles | internal/handlers/backup.go:109-110 | The copied names are exactly the non-directory `_data.json` entries. |
| Backup.CopyAll | internal/handlers/backup.go:109-120 | The restore copies every data file in listing order, or stops at the first failed copy after copying only earlier ones. |
| Backup.RestaurarAsWritten | internal/handlers/backup.go:84-121 | Only names containing `/` or `\` are rejected. Any other name restores from wherever it resolves. |
| Backup.DotDotEscapes | internal/handlers/backup.go:86-90 | The name ".." passes the check and resolves to the assets folder, so whatever `*_data.json` files sit there are copied into `init/`. |
| Backup.DotDotRestoresNothing | internal/handlers/backup.go:92-121 | In the layout the application creates, the assets folder holds only the `backups`, `img` and `init` folders, so restoring ".." copies nothing and reports success. |
| Backup.ValidNameStaysInside | internal/handlers/backup.go:86-90 | A valid name always resolves to a directory inside the backups folder. |
| Backup.RestaurarBackup | internal/handlers/backup.go:84-121 | An invalid name is rejected. A valid name is restored from its own directory, and agrees with the code as written on every valid name. |
| Backup.Saved | internal/handlers/backup.go:144-153 | The counted copies are exactly the data files whose copy succeeded. |
| Backup.FazerBackupInterno | internal/handlers/backup.go:125-168 | Four outcomes: (1) creating the directory fails exactly when a file has its name; (2) a backup is created exactly when something was copied; (3) a missing init folder leaves no directory; (4) an empty copy removes it again. |
| Backup.AppendNewest | internal/handlers/backup.go:125-168 | Adding a directory named later than all others keeps names distinct and makes it the newest. |
| Backup.PruneAfterNewest | internal/handlers/backup.go:161 | Pruning right after adding the newest backup keeps it. |
| Backup.BackupKeepsNewest | internal/handlers/backup.go:125-190 | A backup created when every earlier one is older survives its own pruning. |
| Dual.HostCall | frontend/src/lib/services/passos.ts:41-48 | The bridge is called exactly when it is present, and the key is not written. |
| Dual.SaveList | frontend/src/lib/services/passos.ts:35-49 | A save always writes the key first, then calls the bridge only when present, and always resolves. |
| Dual.LocalList | frontend/src/lib/services/passos.ts:70-81 | A stored key yields its array, or `[]`. |
| Dual.Accepted | frontend/src/lib/services/passos.ts:56-63 | An array answer is accepted as it is. A non-array is accepted, as `[]`, exactly when it is a non-empty string. |
| Dual.LoadChecked | frontend/src/lib/services/passos.ts:51-82 | The load always resolves. It writes the key only with the array it returns. Without a bridge answer it returns the key's list and leaves the key alone. |
| Dual.ReloadOffline | frontend/src/lib/services/passos.ts:51-82 | What a bridge load mirrors, an offline load returns. |
| Dual.LoadAfterSave | frontend/src/lib/services/passos.ts:35-82 | What a save wrote, an offline load returns. |
| Dual.Mutation | frontend/src/lib/services/passos.ts:84-102 | A working bridge call touches no key. Otherwise the fallback loads, edits and saves through the bridge's save method. |
| PassosService.AdicionarPasso | frontend/src/lib/services/passos.ts:84-102 | Always resolves. The fallback saves the loaded list with the step appended and numbered after the last one. |
| PassosService.UpdateEdit | frontend/src/lib/services/passos.ts:118-123 | The fallback saves exactly when a step has the ID, and then saves what the Go handler would. |
| PassosService.AtualizarPasso | frontend/src/lib/services/passos.ts:104-124 | Always resolves. The fallback replaces the first match, and leaves the key alone when no step has the ID. |
| PassosService.DeletarPasso | frontend/src/lib/services/passos.ts:126-145 | Always resolves. The fallback saves the Go handler's filtered, renumbered list. |
| PassosService.MoverEdit | frontend/src/lib/services/passos.ts:161-172 | The fallback crashes with a TypeError exactly when moving an unknown ID down in a non-empty list. |
| PassosService.MoverAgrees | frontend/src/lib/services/passos.ts:161-172 | In every other case the fallback saves exactly the Go handler's move. |
| PassosService.MoverPasso | frontend/src/lib/services/passos.ts:147-173 | Rejects with a TypeError, before saving, exactly in that crash case. Otherwise it saves the Go handler's move. |
| PassosService.FallbackMoverAgrees | frontend/src/lib/services/passos.ts:147-173 | Outside the crash case the offline move stores what the Go handler stores. |
| PassosService.ToggleEdit | frontend/src/lib/services/passos.ts:189-194 | The fallback saves exactly when a step has the ID, and then saves the Go handler's toggle. |
| PassosService.ToggleConcluido | frontend/src/lib/services/passos.ts:175-195 | Always resolves. The fallback toggles the first match, and leaves the key alone for an unknown ID. |
| CalendarioService.AdicionarEvento | frontend/src/lib/services/calendario.ts:83-100 | Always resolves. The fallback saves the loaded list with the event appended. |
| CalendarioService.UpdateEdit | frontend/src/lib/services/calendario.ts:116-121 | The fallback saves exactly when an event has the ID, and then saves the Go handler's update. |
| CalendarioService.AtualizarEvento | frontend/src/lib/services/calendario.ts:102-122 | Always resolves. It replaces the first match, and leaves the key alone when none matches. |
| CalendarioService.DeletarEvento | frontend/src/lib/services/calendario.ts:124-141 | Always resolves. The fallback always saves the filtered list. |
| CalendarioService.OfflineAddThenDelete | frontend/src/lib/services/calendario.ts:83-141 | Offline, adding an event with a fresh ID and deleting it again restores the list read. |
| LinksService.Carregar | frontend/src/lib/services/links.ts:49-74 | An answer that is an array or a non-empty string is mirrored and returned as it is. Otherwise the key is returned as it is, and unparsable text rejects the load. |
| LinksService.Fallback | frontend/src/lib/services/links.ts:76-93 | A working bridge touches no key. Otherwise a failed load rejects, and a loaded non-array rejects with a TypeError. |
| LinksService.AdicionarLink | frontend/src/lib/services/links.ts:76-93 | The fallback succeeds exactly when the load yields an array, and then saves it with the link appended. |
| LinksService.DeletarLink | frontend/src/lib/services/links.ts:95-112 | The fallback succeeds exactly when the load yields an array, and then saves the Go handler's filtered list. |
| LinksService.UpdateEdit | frontend/src/lib/services/links.ts:128-133 | The fallback saves exactly when a link has the ID, and then saves the Go handler's update. |
| LinksService.AtualizarLink | frontend/src/lib/services/links.ts:114-134 | The fallback succeeds exactly when the load yields an array. It saves the update only when a link has the ID. |
| LinksService.FirstLinkOffline | frontend/src/lib/services/links.ts:49-93 | Offline with an empty key, adding a link and loading gives exactly that link. |
| LinksService.StringAnswerPoisons | frontend/src/lib/services/links.ts:49-112 | A non-empty string from the bridge is mirrored into the key. Every later offline add or delete then rejects with a TypeError and saves nothing. |
| ObjetivosService.Converter | frontend/src/lib/services/objetivos.ts:19-28 | The conversion always gives the normal shape. A normal goal is a fixed point, and a truthy ID is kept. A non-object becomes a goal with ID "", not done, at progress 0. |
| ObjetivosService.ConverterIdempotent | frontend/src/lib/services/objetivos.ts:19-28 | Converting twice is converting once, whatever the second clock reading. |
| ObjetivosService.ConvertNormal | frontend/src/lib/services/objetivos.ts:19-28 | Mapping the conversion over normal goals changes nothing. |
| ObjetivosService.Stored | frontend/src/lib/services/objetivos.ts:83-84 | The refetch mirrors the bridge's raw answer into the key; `undefined` becomes text that does not parse, every other value is stored as it is. |
| ObjetivosService.FromLocal | frontend/src/lib/services/objetivos.ts:55-64 | A stored array is converted element-wise. Anything else, including unparsable text, gives `[]`. |
| ObjetivosService.Carregar | frontend/src/lib/services/objetivos.ts:43-65 | The load always resolves, and every goal returned is in normal shape. A bridge answer is mirrored and a non-array reads as `[]`. Without an answer the key is left alone. |
| ObjetivosService.ReloadOffline | frontend/src/lib/services/objetivos.ts:43-65 | The mirror a bridge load writes reads back offline as the same goals. |
| ObjetivosService.Fallback | frontend/src/lib/services/objetivos.ts:67-77 | The fallback always resolves and writes the edited goals to the key. It calls the bridge's save exactly when the bridge is present or a save was already made. |
| ObjetivosService.AdicionarAsWritten | frontend/src/lib/services/objetivos.ts:79-94 | As written: a failed refetch after a successful bridge add falls into the fallback, which adds the goal a second time. |
| ObjetivosService.AddedTwice | frontend/src/lib/services/objetivos.ts:79-94 | With a bridge that has already stored the goal and a refetch that fails, the key ends up holding the goal twice, and the duplicate list is sent to `SalvarObjetivos`. |
| ObjetivosService.AdicionarObjetivo | frontend/src/lib/services/objetivos.ts:79-94 | Once the bridge has accepted the goal, it is never added again locally. Otherwise the fallback appends it once. |
| ObjetivosService.DeletarObjetivo | frontend/src/lib/services/objetivos.ts:96-110 | Always resolves. A successful refetch is mirrored; otherwise the fallback stores the filtered goals. |
| ObjetivosService.AtualizarObjetivo | frontend/src/lib/services/objetivos.ts:112-128 | Always resolves. A successful refetch is mirrored; otherwise the fallback stores the goals with the first match replaced. |
| ObjetivosService.OfflineAddReads | frontend/src/lib/services/objetivos.ts:79-94 | Offline, an added goal is read back after the goals read before. |
| ObjetivosService.OfflineAddThenDelete | frontend/src/lib/services/objetivos.ts:79-110 | Offline, adding a goal with a fresh ID and deleting it restores the goals read. |
| PlanejamentoService.Converter | frontend/src/lib/services/planejamento.ts:27-40 | The conversion always gives the normal shape, and a normal task is a fixed point. A valid status is kept; any other status becomes "objetivo". |
| PlanejamentoService.ConverterIdempotent | frontend/src/lib/services/planejamento.ts:27-40 | Converting twice is converting once. |
| PlanejamentoService.ConvertNormal | frontend/src/lib/services/planejamento.ts:27-40 | Mapping the conversion over normal tasks changes nothing. |
| PlanejamentoService.WithCol | frontend/src/lib/services/planejamento.ts:226 | Replacing one column leaves the other two unchanged. |
| PlanejamentoService.DocOf | frontend/src/lib/services/planejamento.ts:57-95 | The written board has each column as an array of its tasks. |
| PlanejamentoService.Normalize | frontend/src/lib/services/planejamento.ts:114-118 | Each array column is converted element-wise, and a missing or non-array column becomes `[]`. The result is a normal board. |
| PlanejamentoService.NormalizeDocOf | frontend/src/lib/services/planejamento.ts:57-147 | A normal board survives being written and normalised again. |
| PlanejamentoService.FromLocal | frontend/src/lib/services/planejamento.ts:128-147 | A stored board is normalised. Unparsable text and an absent key give the empty board. |
| PlanejamentoService.Carregar | frontend/src/lib/services/planejamento.ts:97-148 | The load always resolves with a normal board. An object answer is normalised and mirrored; otherwise the key is read and left alone. |
| PlanejamentoService.ReloadOffline | frontend/src/lib/services/planejamento.ts:97-148 | The mirror a bridge load writes reads back offline as the same board. |
| PlanejamentoService.SalvarQuadro | frontend/src/lib/services/planejamento.ts:57-95 | A save writes the key first, calls the bridge only when present, and always resolves. |
| PlanejamentoService.LoadAfterSave | frontend/src/lib/services/planejamento.ts:57-148 | A saved normal board is what the next offline load returns. |
| PlanejamentoService.ColunaOf | frontend/src/lib/services/planejamento.ts:173 | A property key selects a column exactly when it is one of the three column names. |
| PlanejamentoService.Mutation | frontend/src/lib/services/planejamento.ts:150-175 | A working bridge call touches no key. Otherwise the fallback loads, edits, and saves or rejects. |
| PlanejamentoService.AddEdit | frontend/src/lib/services/planejamento.ts:172-174 | The offline add throws a TypeError exactly when the status names no column. Otherwise it appends to that column only. |
| PlanejamentoService.MoveEdit | frontend/src/lib/services/planejamento.ts:191-206 | An unknown origin throws. A task not found saves nothing. A found task moves to the destination with its new status. |
| PlanejamentoService.DeleteEdit | frontend/src/lib/services/planejamento.ts:223-227 | The offline delete throws exactly when the status names no column. Otherwise it filters that column and saves. |
| PlanejamentoService.UpdateEdit | frontend/src/lib/services/planejamento.ts:252-259 | The offline update throws exactly when the status names no column. It saves only when the column has the ID. |
| PlanejamentoService.AdicionarTarefa | frontend/src/lib/services/planejamento.ts:150-175 | A working bridge touches no key. The fallback rejects exactly when the status names no column, and otherwise stores the board with the task appended. |
| PlanejamentoService.MoverTarefa | frontend/src/lib/services/planejamento.ts:177-207 | A working bridge touches no key. The fallback applies the offline move to the loaded board. |
| PlanejamentoService.DeletarTarefa | frontend/src/lib/services/planejamento.ts:209-228 | A working bridge touches no key. The fallback rejects exactly when the status names no column, and otherwise stores the filtered board. |
| PlanejamentoService.AtualizarTarefa | frontend/src/lib/services/planejamento.ts:230-260 | A working bridge touches no key. The fallback applies the offline update to the loaded board. |
| PlanejamentoService.Lift | internal/handlers/planejamento.go:18-24 | A Go task seen by the page keeps its ID and status as strings. |
| PlanejamentoService.LiftBoard | internal/handlers/planejamento.go:27-30 | A Go board seen by the page has the same tasks in every column. |
| PlanejamentoService.BoardExt | frontend/src/lib/services/planejamento.ts:20-24 | Boards with the same three columns are equal. |
| PlanejamentoService.LiftsAppend | internal/handlers/planejamento.go:122-126 | Appending commutes with the page's view of the tasks. |
| PlanejamentoService.LiftsHas | internal/handlers/planejamento.go:152-158 | The page finds an ID in a column exactly when the handler does. |
| PlanejamentoService.LiftsFirstIndex | internal/handlers/planejamento.go:152-158 | The page's `findIndex` and the handler's loop pick the same position. |
| PlanejamentoService.LiftsRemoveAll | internal/handlers/planejamento.go:195-200 | The page's filter and the handler's filter keep the same tasks. |
| PlanejamentoService.LiftsRemoveAllCons | internal/handlers/planejamento.go:195-200 | The head is kept or dropped by both filters alike. |
| PlanejamentoService.LiftsReplaceFirst | internal/handlers/planejamento.go:223-228 | The page's replacement and the handler's replacement agree. |
| PlanejamentoService.AddAgrees | frontend/src/lib/services/planejamento.ts:172-174 | For a status naming a column, the offline add saves exactly the board the Go handler saves. |
| PlanejamentoService.DeleteAgrees | frontend/src/lib/services/planejamento.ts:223-227 | For a column name, the offline delete saves exactly the board the Go handler saves. |
| PlanejamentoService.UpdateAgrees | frontend/src/lib/services/planejamento.ts:252-259 | For a column name, the offline update saves the Go handler's board when the ID is found, and saves nothing otherwise. |
| PlanejamentoService.MoveEditMoves | frontend/src/lib/services/planejamento.ts:194-203 | A found task leaves its origin position and is appended to the destination with the destination as status. |
| PlanejamentoService.SameMoveBoard | frontend/src/lib/services/planejamento.ts:194-205 | Two boards that agree column by column after a move are the same board. |
| PlanejamentoService.MoveAgreesFound | frontend/src/lib/services/planejamento.ts:177-207 | For a found task and two column names, both sides put it in the same place. |
| PlanejamentoService.MoveAgrees | frontend/src/lib/services/planejamento.ts:177-207 | With two column names, the offline move does what the handler does: nothing for an unknown task, the same board otherwise. |
| PlanejamentoService.MoveUnknownDestination | frontend/src/lib/services/planejamento.ts:203 | For a destination naming no column the two sides part ways. The fallback throws, while the Go handler drops the task. |
| CanvasService.NullImage | frontend/src/lib/services/wails.ts:33-38 | An image node without a truthy file gets `imageFile: null`, and every other node is unchanged. |
| CanvasService.NullImages | frontend/src/lib/services/wails.ts:33-38 | The saved nodes keep IDs and types. Afterwards every image node has a truthy file or `null`. |
| CanvasService.NullImagesIdempotent | frontend/src/lib/services/wails.ts:33-38 | Normalising saved nodes twice is normalising once. |
| CanvasService.SalvarCanvas | frontend/src/lib/services/wails.ts:29-51 | The save writes the normalised canvas to the key first, calls the bridge only when present, and always resolves. |
| CanvasService.OrEmpty | frontend/src/lib/services/wails.ts:62-63 | `x \|\| []` keeps an array or a truthy value and replaces a falsy one by `[]`. |
| CanvasService.FromAnswer | frontend/src/lib/services/wails.ts:58-64 | A canvas answer has a falsy list replaced by `[]`. Any other value gives the empty canvas. |
| CanvasService.CarregarCanvas | frontend/src/lib/services/wails.ts:53-78 | The load never writes the key. A usable bridge answer is returned. Otherwise unparsable text rejects, a stored canvas is returned as stored, and an absent key gives the empty canvas. |
| CanvasService.LoadAfterSaveOffline | frontend/src/lib/services/wails.ts:29-78 | Without the bridge, a load returns what the last save wrote. |
| CanvasService.BridgeIgnoresKey | frontend/src/lib/services/wails.ts:53-78 | With a usable bridge answer the key plays no part. |
| CanvasService.UploadImagem | frontend/src/lib/services/wails.ts:80-95 | An upload rejects without the bridge and rethrows a bridge error. Otherwise it returns the bridge's name. |
| CanvasService.BestEffort | frontend/src/lib/services/wails.ts:97-121 | A best-effort call reaches the bridge exactly when present and never writes the key. |
| CanvasService.DeletarImagem | frontend/src/lib/services/wails.ts:97-108 | Deleting an image is one bridge call when the bridge is present, and nothing otherwise. |
| CanvasService.LimparImagensOrfas | frontend/src/lib/services/wails.ts:110-121 | The cleanup is one bridge call when the bridge is present, and nothing otherwise. |
| Modulos.Registrar | frontend/src/lib/stores/modulos.ts:9-16 | Registering keeps IDs unique and adds only the new module. A module whose ID is already present leaves the registry unchanged. |
| Modulos.Remover | frontend/src/lib/stores/modulos.ts:17-19 | Exactly the modules with other IDs remain. |
| Modulos.Reset | frontend/src/lib/stores/modulos.ts:21 | After a reset no ID is registered. |
| Modulos.RegistrarIdempotent | frontend/src/lib/stores/modulos.ts:9-16 | Registering the same module twice registers it once. |
| Modulos.RemoverRegistrar | frontend/src/lib/stores/modulos.ts:9-19 | Registering a new module and removing it restores the registry. |
| Modulos.FirstRegistrationWins | frontend/src/lib/stores/modulos.ts:9-16 | Of two modules with one ID, the first registered stays. |

## Left out

- File and key I/O, JSON encoding and decoding:
  - These are not modelled as bytes.
  - A file or key holds decoded values, and decoding what was encoded is taken as given.
  - `Links.DecodeEncode` is the one place where a field's `omitempty` matters.
- Go `json.Unmarshal` partially fills a value when a later element has the wrong type. A corrupt file is modelled as an empty result. Every handler discards that result with the error.
- GoFiles.Mutate: a failed save leaves the model's file as it was. An `os.WriteFile` that fails after truncating the file, or part-way through, is not modelled. The same holds for `Planejamento.SalvarQuadro` and `Ideias.SalvarCanvas`.
- Dual.Accepted: the `x && x.length >= 0` guard also passes a non-array object with a numeric `length`, such as `{length: 0}`. The Go bridge answers only arrays or `null`, so every `Compound` answer is treated as failing the guard.
- Concurrency between handler calls, and the async interleaving of service calls: each call is modelled as atomic.
- The `checkWails` probe, console logging and the handlers' `Startup` context: the probe's outcome is the `available` parameter.
- Inputs taken as parameters:
  - The clock: `time.Now()` and `new Date().toISOString()`.
  - `uuid.New()`.
  - Whether each copy, write or bridge call succeeds. Every Go save takes a `written` flag for its `json.MarshalIndent` and `os.WriteFile`.
  - `formatLabel`: only its use as `Label` is modelled. Its parse-and-reformat is left abstract.
- JavaScript numbers and Go float64 (`progresso`) are opaque values: they are stored and compared, never computed with.
- Go panics:
  - A nil-pointer dereference in `MoverTarefa`, `DeletarTarefa` or `AtualizarTarefa` when the status names no column.
  - Slicing a UUID shorter than 8 characters.
  - These appear as preconditions: `Planejamento.Mover`, `Planejamento.MoverTarefa`, `Planejamento.Deletar`, `Planejamento.DeletarTarefa`, `Planejamento.Atualizar`, `Planejamento.AtualizarTarefa`, `Ideias.UploadName`, `Ideias.UploadImagem`.
  - Go's `uuid.New().String()` is always 36 characters, so the last precondition always holds there.
- Ideias.LowerChar: other non-ASCII letters keep their case. `strings.ToLower` lowers them too, but their lower case is never ASCII, so they decide the comparison with the image extensions the same way.
- `Ideias.Ext` treats only `/` as a path separator. Windows separators in upload names are not modelled.
- `IdeiasHandler.DeletarImagem` is a single `os.Remove` of a joined path. No outcome is modelled for it beyond the bridge call in `CanvasService.DeletarImagem`.
- Canvas nodes: their `data`, `style` and `position` are carried and not modelled. Only ID, type, `imageFile` and the parent fields are.
- Backups:
  - Two backups in the same second share a directory: the second writes into the first.
  - A partial copy before `NothingCopied`.
  - `MkdirAll`/`ReadDir` failures are folded into `None` listings.
  - `copiarArquivo` is a per-file success flag.
- `sort.Slice` is not stable. This makes no difference here because backup names in one directory are distinct.
- `Stamps.Valid` bounds each field but does not check days per month. Only the layout's fixed width matters to the order.
- ObjetivosService.AtualizarObjetivo: requires a string ID, the declared TypeScript type. A non-string ID is not modelled.
- PlanejamentoService.AtualizarTarefa: requires a string ID, the declared TypeScript type.
- The canvas, goals and board services assume a non-empty `toISOString()` result. Their "normal shape" contracts are stated under `now != ""`.
- `CORES_EVENTO` (calendario.ts:144-153) is a constant table with no behaviour: `CalendarioService.Cores` only records it.
- `moduloAtivo` is only the initial module name `"ideias"`, kept as a constant in `Modulos`.

## Findings

| source | as written | input that shows it | evidently intended | confidence | as-written member | corrected member |
|---|---|---|---|---|---|---|
| internal/handlers/backup.go:86-90 | Only names containing `/` or `\` are rejected, so `..` joins to the assets folder itself and any `*_data.json` file there is copied into `init/`. The assets folder the application creates holds no such file, so the call reports a successful restore that restored nothing | `RestaurarBackup("..")` | Only a name denoting a directory inside the backups folder is restored | high; not executed | Backup.RestaurarAsWritten (shown by Backup.DotDotEscapes and Backup.DotDotRestoresNothing) | Backup.RestaurarBackup (with Backup.ValidNameStaysInside) |
| frontend/src/lib/services/objetivos.ts:79-94 | The refetch after a successful bridge add sits in the same `try`, so its failure runs the fallback. The fallback adds the goal again and saves the duplicate list through `SalvarObjetivos` | Bridge present; the bridge add succeeds; the refetch rejects once; the fallback's load then gets the bridge's list, which already holds the goal | A goal the bridge accepted is not added a second time | medium; not executed | ObjetivosService.AdicionarAsWritten (shown by ObjetivosService.AddedTwice) | ObjetivosService.AdicionarObjetivo |

=== FILE: backup.dfy ===
/** The Go backup handler (`BackupHandler`): snapshots of the `*_data.json` files of
    `assets/init/` into `assets/backups/backup_<timestamp>/`, at most ten kept,
    listed newest first and restorable by name.

    The backups directory and the data directories are given as their listings;
    the clock reading, whether each file copy succeeds and `formatLabel` are
    parameters. */
module Backup {
  import opened Common
  import opened Lex
  import opened Stamps
  import opened GoFiles

  const MaxBackups: nat := 10
  const Prefix := "backup_"
  const DataSuffix := "_data.json"

  /** `BackupInfo`: the directory name, its timestamp and a human-readable label. */
  datatype Info = Info(nome: string, data: string, caption: string)

  function Ident(s: string): string
  {
    s
  }

  function Data(i: Info): string
  {
    i.data
  }

  predicate IsBackupDir(e: Entry)
  {
    e.isDir && HasPrefix(e.name, Prefix)
  }

  /** A file that backup and restore copy. */
  predicate IsDataFile(e: Entry)
  {
    !e.isDir && HasSuffix(e.name, DataSuffix)
  }

  /** A directory never lists the same name twice. */
  predicate DistinctNames(es: seq<Entry>)
  {
    forall i, j :: 0 <= i < j < |es| ==> es[i].name != es[j].name
  }

  predicate Distinct(s: seq<string>)
  {
    forall i, j :: 0 <= i < j < |s| ==> s[i] != s[j]
  }

  /** The names of the backup directories, in listing order. */
  function BackupNames(es: seq<Entry>): (r: seq<string>)
    ensures forall n :: n in r <==> exists k :: 0 <= k < |es| && IsBackupDir(es[k]) && es[k].name == n
  {
    if |es| == 0 then []
    else
      var rest := BackupNames(es[1..]);
      assert forall n :: n in rest <==> exists k :: 1 <= k < |es| && IsBackupDir(es[k]) && es[k].name == n by {
        forall n | n in rest ensures exists k :: 1 <= k < |es| && IsBackupDir(es[k]) && es[k].name == n {
          var k :| 0 <= k < |es[1..]| && IsBackupDir(es[1..][k]) && es[1..][k].name == n;
          assert es[k + 1] == es[1..][k];
        }
        forall n | exists k :: 1 <= k < |es| && IsBackupDir(es[k]) && es[k].name == n ensures n in rest {
          var k :| 1 <= k < |es| && IsBackupDir(es[k]) && es[k].name == n;
          assert es[1..][k - 1] == es[k];
        }
      }
      (if IsBackupDir(es[0]) then [es[0].name] else []) + rest
  }

  lemma {:induction false} BackupNamesDistinct(es: seq<Entry>)
    requires DistinctNames(es)
    ensures Distinct(BackupNames(es))
  {
    if |es| > 0 {
      BackupNamesDistinct(es[1..]);
      if IsBackupDir(es[0]) {
        assert es[0].name !in BackupNames(es[1..]);
      }
    }
  }

  lemma {:induction false} DistinctCount(s: seq<string>, x: string)
    requires Distinct(s)
    ensures multiset(s)[x] <= 1
  {
    if |s| > 0 {
      assert s == [s[0]] + s[1..];
      DistinctCount(s[1..], x);
      if x == s[0] {
        assert x !in s[1..];
      }
    }
  }

  /** The entries left after deleting the named ones. */
  function Without(es: seq<Entry>, names: seq<string>): (r: seq<Entry>)
    ensures forall e :: e in r <==> e in es && e.name !in names
  {
    if |es| == 0 then []
    else
      assert es == [es[0]] + es[1..];
      (if es[0].name in names then [] else [es[0]]) + Without(es[1..], names)
  }

  /** What `limparAntigos` deletes and what it leaves. */
  datatype Pruned = Pruned(removed: seq<string>, kept: seq<string>)

  /** limparAntigos: sort the backup directory names (oldest first, since the
      names embed a fixed-width timestamp) and delete from the front until ten
      are left. */
  function LimparAntigos(es: seq<Entry>): (r: Pruned)
    ensures multiset(r.removed + r.kept) == multiset(BackupNames(es))
    ensures |r.kept| == if |BackupNames(es)| <= MaxBackups then |BackupNames(es)| else MaxBackups
    ensures |BackupNames(es)| <= MaxBackups ==> r.removed == []
    ensures forall i, j :: 0 <= i < |r.removed| && 0 <= j < |r.kept| ==> AtMost(r.removed[i], r.kept[j])
  {
    var sorted := SortBy(BackupNames(es), Ident);
    SameLength(sorted, BackupNames(es));
    var cut := if |sorted| > MaxBackups then |sorted| - MaxBackups else 0;
    SplitSorted(sorted, cut);
    Pruned(sorted[..cut], sorted[cut..])
  }

  lemma SameLength<T>(a: seq<T>, b: seq<T>)
    requires multiset(a) == multiset(b)
    ensures |a| == |b|
  {
    assert |multiset(a)| == |multiset(b)|;
  }

  /** Cutting a sorted list leaves every element of the front at most every
      element of the back. */
  lemma SplitSorted(s: seq<string>, cut: nat)
    requires SortedBy(s, Ident) && cut <= |s|
    ensures s == s[..cut] + s[cut..]
    ensures forall i, j :: 0 <= i < |s[..cut]| && 0 <= j < |s[cut..]| ==> AtMost(s[..cut][i], s[cut..][j])
  {
    forall i, j | 0 <= i < |s[..cut]| && 0 <= j < |s[cut..]| ensures AtMost(s[..cut][i], s[cut..][j]) {
      assert s[..cut][i] == Ident(s[i]) && s[cut..][j] == Ident(s[cut + j]);
    }
  }

  /** Deleting entries by name deletes exactly those backup names. */
  lemma WithoutBackupNames(es: seq<Entry>, names: seq<string>)
    ensures forall n :: n in BackupNames(Without(es, names)) <==> n in BackupNames(es) && n !in names
  {
    var after := Without(es, names);
    forall n | n in BackupNames(after) ensures n in BackupNames(es) {
      var k :| 0 <= k < |after| && IsBackupDir(after[k]) && after[k].name == n;
      assert after[k] in es;
      var k' :| 0 <= k' < |es| && es[k'] == after[k];
    }
    forall n | n in BackupNames(es) && n !in names ensures n in BackupNames(after) {
      var k :| 0 <= k < |es| && IsBackupDir(es[k]) && es[k].name == n;
      assert es[k] in after;
      var k' :| 0 <= k' < |after| && after[k'] == es[k];
    }
  }

  /** Splitting a list without duplicates puts every element on exactly one side. */
  lemma DisjointParts(a: seq<string>, b: seq<string>, all: seq<string>)
    requires Distinct(all) && multiset(a + b) == multiset(all)
    ensures forall n :: n in all <==> n in a || n in b
    ensures forall n :: n in b ==> n !in a
  {
    forall n | n in b ensures n !in a {
      DistinctCount(all, n);
      assert multiset(a + b)[n] == multiset(a)[n] + multiset(b)[n];
    }
    forall n ensures n in all <==> n in a || n in b {
      assert n in all <==> n in multiset(a + b);
    }
  }

  /** The backups directory after `limparAntigos`. */
  function Prune(es: seq<Entry>): seq<Entry>
  {
    Without(es, LimparAntigos(es).removed)
  }

  /** In a directory without duplicate names the backups left after pruning are
      exactly the kept ones. */
  lemma LimparAntigosLeavesKept(es: seq<Entry>)
    requires DistinctNames(es)
    ensures forall n :: n in BackupNames(Prune(es)) <==> n in LimparAntigos(es).kept
  {
    var r := LimparAntigos(es);
    WithoutBackupNames(es, r.removed);
    BackupNamesDistinct(es);
    DisjointParts(r.removed, r.kept, BackupNames(es));
  }

  /** A backup name later than every other one is never pruned. */
  lemma NewestSurvives(es: seq<Entry>, nome: string)
    requires nome in BackupNames(es)
    requires forall m :: m in BackupNames(es) && m != nome ==> Below(m, nome)
    ensures nome in LimparAntigos(es).kept
  {
    var r := LimparAntigos(es);
    assert nome in multiset(r.removed + r.kept);
    if nome in r.removed {
      var i :| 0 <= i < |r.removed| && r.removed[i] == nome;
      assert r.kept[0] in multiset(r.removed + r.kept);
      assert AtMost(nome, r.kept[0]);
    }
  }

  /** A backup taken at an earlier second has the smaller name. */
  lemma EarlierBelow(t: Stamp, now: Stamp)
    requires Valid(t) && Valid(now) && Earlier(t, now)
    ensures Below(Prefix + Format(t), Prefix + Format(now))
  {
    FormatOrder(t, now);
    BelowIrreflexive(Prefix);
    BelowConcat(Prefix, Format(t), Prefix, Format(now));
  }

  function InfoOf(e: Entry, formatLabel: string -> string): (r: Info)
    requires IsBackupDir(e)
    ensures r.nome == e.name && r.nome == Prefix + r.data && r.caption == formatLabel(r.data)
  {
    var ts := e.name[|Prefix|..];
    assert e.name == e.name[..|Prefix|] + ts;
    Info(e.name, ts, formatLabel(ts))
  }

  /** The `BackupInfo`s of the backup directories, in listing order. */
  function Infos(es: seq<Entry>, formatLabel: string -> string): (r: seq<Info>)
    ensures forall x :: x in r <==> exists k :: 0 <= k < |es| && IsBackupDir(es[k]) && x == InfoOf(es[k], formatLabel)
  {
    if |es| == 0 then []
    else
      var rest := Infos(es[1..], formatLabel);
      assert forall x :: x in rest <==> exists k :: 1 <= k < |es| && IsBackupDir(es[k]) && x == InfoOf(es[k], formatLabel) by {
        forall x | x in rest ensures exists k :: 1 <= k < |es| && IsBackupDir(es[k]) && x == InfoOf(es[k], formatLabel) {
          var k :| 0 <= k < |es[1..]| && IsBackupDir(es[1..][k]) && x == InfoOf(es[1..][k], formatLabel);
          assert es[k + 1] == es[1..][k];
        }
        forall x | exists k :: 1 <= k < |es| && IsBackupDir(es[k]) && x == InfoOf(es[k], formatLabel) ensures x in rest {
          var k :| 1 <= k < |es| && IsBackupDir(es[k]) && x == InfoOf(es[k], formatLabel);
          assert es[1..][k - 1] == es[k];
        }
      }
      (if IsBackupDir(es[0]) then [InfoOf(es[0], formatLabel)] else []) + rest
  }

  /** The list ListarBackups returns, before the nil check: sorted by
      timestamp, then reversed. */
  function NewestFirst(infos: seq<Info>): (r: seq<Info>)
    ensures |r| == |infos|
    ensures multiset(r) == multiset(infos)
    ensures forall x :: x in r ==> x in infos
    ensures forall i, j :: 0 <= i < j < |r| ==> AtMost(r[j].data, r[i].data)
  {
    var sorted := SortBy(infos, Data);
    var r := Reverse(sorted);
    assert |r| == |infos| by {
      assert |multiset(r)| == |multiset(infos)|;
    }
    assert forall x :: x in r ==> x in infos by {
      forall x | x in r ensures x in infos {
        assert x in multiset(r);
      }
    }
    assert forall i, j :: 0 <= i < j < |r| ==> AtMost(r[j].data, r[i].data) by {
      forall i, j | 0 <= i < j < |r| ensures AtMost(r[j].data, r[i].data) {
        assert r[j] == sorted[|sorted| - 1 - j] && r[i] == sorted[|sorted| - 1 - i];
      }
    }
    r
  }

  /** ListarBackups on a readable backups directory: every backup directory once,
      newest timestamp first; `nil` (JSON `null`) when there is none. A directory
      that cannot be created or read gives the empty, non-nil list and an error. */
  function ListarBackups(listing: Option<seq<Entry>>, formatLabel: string -> string): (r: Loaded<Slice<Info>>)
    ensures r.ok <==> listing.Some?
    ensures !r.ok ==> r.value == Items([])
    ensures r.ok ==> multiset(Elems(r.value)) == multiset(Infos(listing.value, formatLabel))
    ensures r.ok ==> (r.value.Nil? <==> |Infos(listing.value, formatLabel)| == 0)
    ensures forall i, j :: 0 <= i < j < |Elems(r.value)| ==> AtMost(Elems(r.value)[j].data, Elems(r.value)[i].data)
    ensures forall x :: x in Elems(r.value) ==> x.nome == Prefix + x.data && x.caption == formatLabel(x.data)
  {
    match listing
    case None => Loaded(Items([]), false)
    case Some(es) => Loaded(Collect(NewestFirst(Infos(es, formatLabel))), true)
  }

  // ---------------------------------------------------------------- restore

  predicate HasSeparator(nome: string)
  {
    exists i :: 0 <= i < |nome| && (nome[i] == '/' || nome[i] == '\\')
  }

  /** The directory `filepath.Join(backupDir, nome)` names when `nome` has no
      separator: `Join` cleans the path, so "" and "." stay in the backups
      directory and ".." climbs to `assets/`. */
  datatype Target = BackupsDir | AssetsDir | Child(name: string)

  function Resolve(nome: string): (r: Target)
    requires !HasSeparator(nome)
    ensures r.Child? <==> nome !in {"", ".", ".."}
    ensures r.Child? ==> r.name == nome
  {
    if nome == "" || nome == "." then BackupsDir
    else if nome == ".." then AssetsDir
    else Child(nome)
  }

  /** RestaurarBackup's outcome. Copies run in listing order and stop at the first
      failure; files already copied stay overwritten. */
  datatype Restored =
    | InvalidName
    | NotFound
    | Copied(files: seq<string>)
    | CopyFailed(copied: seq<string>, failed: string)

  /** The names of the data files of a directory, in listing order. */
  function DataFiles(es: seq<Entry>): (r: seq<string>)
    ensures forall n :: n in r <==> exists k :: 0 <= k < |es| && IsDataFile(es[k]) && es[k].name == n
  {
    if |es| == 0 then []
    else
      var rest := DataFiles(es[1..]);
      assert forall n :: n in rest <==> exists k :: 1 <= k < |es| && IsDataFile(es[k]) && es[k].name == n by {
        forall n | n in rest ensures exists k :: 1 <= k < |es| && IsDataFile(es[k]) && es[k].name == n {
          var k :| 0 <= k < |es[1..]| && IsDataFile(es[1..][k]) && es[1..][k].name == n;
          assert es[k + 1] == es[1..][k];
        }
        forall n | exists k :: 1 <= k < |es| && IsDataFile(es[k]) && es[k].name == n ensures n in rest {
          var k :| 1 <= k < |es| && IsDataFile(es[k]) && es[k].name == n;
          assert es[1..][k - 1] == es[k];
        }
      }
      (if IsDataFile(es[0]) then [es[0].name] else []) + rest
  }

  /** The restore loop over a backup directory. */
  function CopyAll(es: seq<Entry>, copyOk: string -> bool): (r: Restored)
    ensures r.Copied? || r.CopyFailed?
    ensures r.Copied? <==> forall n :: n in DataFiles(es) ==> copyOk(n)
    ensures r.Copied? ==> r.files == DataFiles(es)
    ensures r.CopyFailed? ==> r.copied + [r.failed] <= DataFiles(es) && !copyOk(r.failed)
    ensures r.CopyFailed? ==> forall n :: n in r.copied ==> copyOk(n)
  {
    if |es| == 0 then Copied([])
    else
      var rest := CopyAll(es[1..], copyOk);
      if !IsDataFile(es[0]) then rest
      else if !copyOk(es[0].name) then CopyFailed([], es[0].name)
      else match rest
        case Copied(fs) => Copied([es[0].name] + fs)
        case CopyFailed(cs, f) => CopyFailed([es[0].name] + cs, f)
  }

  /** RestaurarBackup as written: only names containing a separator are rejected.
      `dirAt` lists a directory, `None` when it does not exist or is not a
      directory. */
  function RestaurarAsWritten(nome: string, dirAt: Target -> Option<seq<Entry>>, copyOk: string -> bool): (r: Restored)
    ensures r.InvalidName? <==> HasSeparator(nome)
    ensures !HasSeparator(nome) ==> (r.NotFound? <==> dirAt(Resolve(nome)).None?)
    ensures !HasSeparator(nome) && dirAt(Resolve(nome)).Some? ==> r == CopyAll(dirAt(Resolve(nome)).value, copyOk)
  {
    if HasSeparator(nome) then InvalidName
    else match dirAt(Resolve(nome))
      case None => NotFound
      case Some(es) => CopyAll(es, copyOk)
  }

  /** The name ".." passes the separator check and restores from `assets/`, which
      is not a backup: whatever `*_data.json` file sits there is copied into
      `init/`. */
  lemma DotDotEscapes()
    ensures !HasSeparator("..") && Resolve("..") == AssetsDir
    ensures RestaurarAsWritten("..", t => if t == AssetsDir then Some([Entry("passos_data.json", false)]) else None, n => true)
         == Copied(["passos_data.json"])
  {
    var dirAt: Target -> Option<seq<Entry>> := t => if t == AssetsDir then Some([Entry("passos_data.json", false)]) else None;
    assert IsDataFile(Entry("passos_data.json", false)) by {
      assert "passos_data.json"[6..] == DataSuffix;
    }
    assert DataFiles([Entry("passos_data.json", false)]) == ["passos_data.json"] by {
      assert DataFiles([Entry("passos_data.json", false)][1..]) == [];
    }
  }

  /** In the layout the application creates, `assets/` holds only the folders
      `backups`, `img` and `init`, so restoring ".." copies nothing and still
      reports success. */
  lemma DotDotRestoresNothing()
    ensures RestaurarAsWritten("..",
              t => if t == AssetsDir then Some([Entry("backups", true), Entry("img", true), Entry("init", true)]) else None,
              n => true)
         == Copied([])
  {
    var es := [Entry("backups", true), Entry("img", true), Entry("init", true)];
    assert DataFiles(es) == [] by {
      assert DataFiles(es[2..]) == [] by {
        assert es[2..][1..] == [];
      }
      assert es[1..][1..] == es[2..];
    }
  }

  /** The check the separator test stands for: the name must denote a
      directory inside the backups directory. */
  predicate ValidName(nome: string)
  {
    !HasSeparator(nome) && nome != "" && nome != "." && nome != ".."
  }

  lemma ValidNameStaysInside(nome: string)
    requires ValidName(nome)
    ensures Resolve(nome) == Child(nome)
  {
  }

  /** RestaurarBackup with the intended check: files are only ever read from the
      named child of the backups directory. */
  function RestaurarBackup(nome: string, dirAt: Target -> Option<seq<Entry>>, copyOk: string -> bool): (r: Restored)
    ensures r.InvalidName? <==> !ValidName(nome)
    ensures ValidName(nome) ==> (r.NotFound? <==> dirAt(Child(nome)).None?)
    ensures ValidName(nome) && dirAt(Child(nome)).Some? ==> r == CopyAll(dirAt(Child(nome)).value, copyOk)
    ensures ValidName(nome) ==> r == RestaurarAsWritten(nome, dirAt, copyOk)
  {
    if !ValidName(nome) then InvalidName
    else match dirAt(Child(nome))
      case None => NotFound
      case Some(es) => CopyAll(es, copyOk)
  }

  // ---------------------------------------------------------------- create

  /** fazerBackupInterno's result: the backup made, "no init directory" (no
      error, empty info), "nothing copied" (an error) or a failed MkdirAll. */
  datatype Outcome = Created(info: Info) | Skipped | NothingCopied | MkdirFailed

  /** The outcome and the backups directory afterwards. */
  datatype Made = Made(outcome: Outcome, backups: seq<Entry>)

  /** The data files whose copy succeeded; the loop counts them and goes on after
      a failure. */
  function Saved(es: seq<Entry>, copyOk: string -> bool): (r: seq<string>)
    ensures forall n :: n in r <==> n in DataFiles(es) && copyOk(n)
  {
    if |es| == 0 then []
    else
      (if IsDataFile(es[0]) && copyOk(es[0].name) then [es[0].name] else []) + Saved(es[1..], copyOk)
  }

  predicate Holds(es: seq<Entry>, name: string, isDir: bool)
  {
    exists k :: 0 <= k < |es| && es[k].name == name && es[k].isDir == isDir
  }

  /** fazerBackupInterno (CriarBackup, and the silent backup at start-up), taking a
      snapshot of the init directory listing `init` at clock reading `now`. */
  function FazerBackupInterno(
    now: Stamp, backups: seq<Entry>, init: Option<seq<Entry>>,
    copyOk: string -> bool, formatLabel: string -> string): (r: Made)
    requires Valid(now)
    ensures r.outcome.MkdirFailed? <==> Holds(backups, Prefix + Format(now), false)
    ensures r.outcome.Created? <==>
      !Holds(backups, Prefix + Format(now), false) && init.Some? && |Saved(init.value, copyOk)| > 0
    ensures r.outcome.Created? ==>
      r.outcome.info == Info(Prefix + Format(now), Format(now), formatLabel(Format(now)))
    ensures r.outcome.Skipped? ==> Prefix + Format(now) !in BackupNames(r.backups)
    ensures r.outcome.NothingCopied? && !Holds(backups, Prefix + Format(now), true) ==> r.backups == backups
    ensures r.outcome.Created? && !Holds(backups, Prefix + Format(now), true) ==>
      r.backups == Prune(backups + [Entry(Prefix + Format(now), true)])
  {
    var ts := Format(now);
    var nome := Prefix + ts;
    if Holds(backups, nome, false) then Made(MkdirFailed, backups)
    else
      var existed := Holds(backups, nome, true);
      var created := if existed then backups else backups + [Entry(nome, true)];
      match init
      case None =>
        Made(Skipped, Without(created, [nome]))
      case Some(files) =>
        if |Saved(files, copyOk)| == 0 then Made(NothingCopied, if existed then created else backups)
        else Made(Created(Info(nome, ts, formatLabel(ts))), Prune(created))
  }

  /** Adding a directory named later than every existing one. */
  lemma AppendNewest(backups: seq<Entry>, nome: string)
    requires DistinctNames(backups) && HasPrefix(nome, Prefix)
    requires forall k :: 0 <= k < |backups| ==> Below(backups[k].name, nome)
    ensures DistinctNames(backups + [Entry(nome, true)])
    ensures nome in BackupNames(backups + [Entry(nome, true)])
    ensures forall m :: m in BackupNames(backups + [Entry(nome, true)]) ==> m == nome || (m in BackupNames(backups) && Below(m, nome))
  {
    var created := backups + [Entry(nome, true)];
    forall k | 0 <= k < |backups| ensures backups[k].name != nome {
      BelowIrreflexive(nome);
    }
    assert created[|backups|] == Entry(nome, true);
    forall m | m in BackupNames(created) ensures m == nome || (m in BackupNames(backups) && Below(m, nome)) {
      var k :| 0 <= k < |created| && IsBackupDir(created[k]) && created[k].name == m;
      if k < |backups| {
        assert created[k] == backups[k];
      }
    }
  }

  /** Pruning after adding a directory named later than every existing one. */
  lemma PruneAfterNewest(backups: seq<Entry>, nome: string)
    requires DistinctNames(backups) && HasPrefix(nome, Prefix)
    requires forall k :: 0 <= k < |backups| ==> Below(backups[k].name, nome)
    ensures var created := backups + [Entry(nome, true)];
      nome in BackupNames(Prune(created))
      && (forall n :: n in BackupNames(Prune(created)) ==> n == nome || n in BackupNames(backups))
      && (forall n :: n in BackupNames(Prune(created)) <==> n in LimparAntigos(created).kept)
      && |LimparAntigos(created).kept| <= MaxBackups
  {
    var created := backups + [Entry(nome, true)];
    AppendNewest(backups, nome);
    NewestSurvives(created, nome);
    LimparAntigosLeavesKept(created);
  }

  /** When every earlier backup is older than the new one, the new backup survives
      pruning, every surviving backup was there before or is the new one, and the
      survivors are exactly the (at most ten) kept names. */
  lemma BackupKeepsNewest(
    now: Stamp, backups: seq<Entry>, init: Option<seq<Entry>>,
    copyOk: string -> bool, formatLabel: string -> string)
    requires Valid(now) && DistinctNames(backups)
    requires FazerBackupInterno(now, backups, init, copyOk, formatLabel).outcome.Created?
    requires forall k :: 0 <= k < |backups| ==> Below(backups[k].name, Prefix + Format(now))
    ensures var after := FazerBackupInterno(now, backups, init, copyOk, formatLabel).backups;
      Prefix + Format(now) in BackupNames(after)
      && (forall n :: n in BackupNames(after) ==> n == Prefix + Format(now) || n in BackupNames(backups))
      && |LimparAntigos(backups + [Entry(Prefix + Format(now), true)]).kept| <= MaxBackups
  {
    var nome := Prefix + Format(now);
    assert HasPrefix(nome, Prefix);
    assert !Holds(backups, nome, true) by {
      forall k | 0 <= k < |backups| ensures backups[k].name != nome {
        BelowIrreflexive(nome);
      }
    }
    PruneAfterNewest(backups, nome);
  }
}

=== FILE: calendario.dfy ===
/** The Go handler of the calendar (`CalendarioHandler`): a flat list of events. */
module Calendario {
  import opened Seqs
  import opened GoFiles

  datatype Evento = Evento(
    id: string, titulo: string, data: string, hora: string,
    descricao: string, cor: string, createdAt: string)

  function Id(e: Evento): string
  {
    e.id
  }

  /** AdicionarEvento's list step: the event goes last, nothing else moves. */
  function Adicionar(es: seq<Evento>, e: Evento): (r: seq<Evento>)
    ensures |r| == |es| + 1
    ensures r[..|es|] == es && r[|es|] == e
  {
    es + [e]
  }

  /** AtualizarEvento's list step: whole-record replacement of the first match. */
  function Atualizar(es: seq<Evento>, e: Evento): (r: seq<Evento>)
    ensures |r| == |es|
    ensures forall i :: IsFirstMatch(es, Id, e.id, i) ==> r == es[i := e]
    ensures !Has(es, Id, e.id) ==> r == es
  {
    ReplaceFirst(es, Id, e)
  }

  /** DeletarEvento's list step: every event with the ID goes, the rest keep their
      order (see Seqs.RemoveAllAppend). */
  function Deletar(es: seq<Evento>, id: string): (r: seq<Evento>)
    ensures !Has(r, Id, id)
    ensures forall j :: 0 <= j < |es| && es[j].id != id ==> es[j] in r
    ensures !Has(es, Id, id) ==> r == es
  {
    RemoveAll(es, Id, id)
  }

  function AdicionarEvento(f: File<Slice<Evento>>, e: Evento, written: bool): (r: Handled<Slice<Evento>>)
    ensures r.ok <==> LoadList(f).ok && written
    ensures !r.ok ==> r.file == f
    ensures r.ok ==> LoadList(r.file).value == Adicionar(LoadList(f).value, e)
  {
    Mutate(f, es => Items(Adicionar(es, e)), written)
  }

  function AtualizarEvento(f: File<Slice<Evento>>, e: Evento, written: bool): (r: Handled<Slice<Evento>>)
    ensures r.ok <==> LoadList(f).ok && written
    ensures !r.ok ==> r.file == f
    ensures r.ok ==> LoadList(r.file).value == Atualizar(LoadList(f).value, e)
  {
    Mutate(f, es => Items(Atualizar(es, e)), written)
  }

  /** The filtered slice starts nil: deleting the last event writes `null`, which
      loads back as the empty list. */
  function DeletarEvento(f: File<Slice<Evento>>, id: string, written: bool): (r: Handled<Slice<Evento>>)
    ensures r.ok <==> LoadList(f).ok && written
    ensures !r.ok ==> r.file == f
    ensures r.ok ==> LoadList(r.file).value == Deletar(LoadList(f).value, id)
    ensures r.ok && |Deletar(LoadList(f).value, id)| == 0 ==> r.file == Holds(Nil)
  {
    Mutate(f, es => Collect(Deletar(es, id)), written)
  }
}

=== FILE: calendario_service.dfy ===
/** The TypeScript service of the calendar (`services/calendario.ts`), key
    `calendario_data`. Same protocol and load check as the step list; the
    fallbacks compute the Go handler's list steps. */
module CalendarioService {
  import opened Common
  import opened Seqs
  import opened Dual
  import Calendario

  type Evento = Calendario.Evento
  type Slot = Dual.Slot<Payload<Evento>>
  type Outcome = Run<(), Payload<Evento>>

  /** The colours offered for events: name and CSS hex colour. */
  const Cores: seq<(string, string)> := [
    ("Rosa", "#ec4899"), ("Roxo", "#8b5cf6"), ("Azul", "#3b82f6"), ("Verde", "#10b981"),
    ("Amarelo", "#f59e0b"), ("Vermelho", "#ef4444"), ("Ciano", "#06b6d4"), ("Laranja", "#f97316")]

  function Carregar(available: bool, reply: Reply<Payload<Evento>>, slot: Slot): Run<seq<Evento>, Payload<Evento>>
  {
    LoadChecked(available, "CarregarEventos", reply, slot)
  }

  function Loaded(available: bool, reply: Reply<Payload<Evento>>, slot: Slot): seq<Evento>
  {
    Carregar(available, reply, slot).result.value
  }

  /** AdicionarEvento: the fallback appends. */
  function AdicionarEvento(available: bool, hostOk: bool, reply: Reply<Payload<Evento>>, slot: Slot, e: Evento): (r: Outcome)
    ensures r.result.Ok?
    ensures available && hostOk ==> r.slot == slot && r.trace == [CallHost("AdicionarEvento")]
    ensures !(available && hostOk) ==>
      r.slot == Json(Arr(Calendario.Adicionar(Loaded(available, reply, slot), e)))
  {
    Mutation(available, hostOk, "AdicionarEvento", "CarregarEventos", "SalvarEventos", reply, slot,
      es => Write(es + [e]))
  }

  function UpdateEdit(es: seq<Evento>, e: Evento): (r: Edit<Evento>)
    ensures r.Keep? <==> !Has(es, Calendario.Id, e.id)
    ensures r.Write? ==> r.xs == Calendario.Atualizar(es, e)
  {
    match FirstIndex(es, Calendario.Id, e.id)
    case None => Keep
    case Some(i) => Write(es[i := e])
  }

  /** AtualizarEvento: the fallback saves only when an event has the ID. */
  function AtualizarEvento(available: bool, hostOk: bool, reply: Reply<Payload<Evento>>, slot: Slot, e: Evento): (r: Outcome)
    ensures r.result.Ok?
    ensures available && hostOk ==> r.slot == slot
    ensures !(available && hostOk) && Has(Loaded(available, reply, slot), Calendario.Id, e.id) ==>
      r.slot == Json(Arr(Calendario.Atualizar(Loaded(available, reply, slot), e)))
    ensures !(available && hostOk) && !Has(Loaded(available, reply, slot), Calendario.Id, e.id) ==>
      r.slot == Carregar(available, reply, slot).slot
  {
    Mutation(available, hostOk, "AtualizarEvento", "CarregarEventos", "SalvarEventos", reply, slot,
      es => UpdateEdit(es, e))
  }

  /** DeletarEvento: the fallback filters and always saves. */
  function DeletarEvento(available: bool, hostOk: bool, reply: Reply<Payload<Evento>>, slot: Slot, id: string): (r: Outcome)
    ensures r.result.Ok?
    ensures available && hostOk ==> r.slot == slot
    ensures !(available && hostOk) ==>
      r.slot == Json(Arr(Calendario.Deletar(Loaded(available, reply, slot), id)))
  {
    Mutation(available, hostOk, "DeletarEvento", "CarregarEventos", "SalvarEventos", reply, slot,
      es => Write(RemoveAll(es, Calendario.Id, id)))
  }

  /** Offline, adding an event and deleting its (fresh) ID restores the list read. */
  lemma OfflineAddThenDelete(reply: Reply<Payload<Evento>>, slot: Slot, e: Evento)
    requires !Has(LocalList(slot), Calendario.Id, e.id)
    ensures LocalList(DeletarEvento(false, false, reply, AdicionarEvento(false, false, reply, slot, e).slot, e.id).slot)
         == LocalList(slot)
  {
    var es := LocalList(slot);
    RemoveAllAppend(es, [e], Calendario.Id, e.id);
    assert RemoveAll([e], Calendario.Id, e.id) == [];
  }
}

=== FILE: canvas_service.dfy ===
/** The TypeScript service of the ideas canvas (`services/wails.ts`), key
    `ideias_canvas`. Unlike the list services, a working bridge load is not
    mirrored, a stored value that does not parse rejects the load, and image
    upload has no local fallback. */
module CanvasService {
  import opened Common
  import opened Js
  import opened Dual

  /** A canvas node as the page holds it, reduced to what the save inspects:
      `type` and `data?.imageFile`. The other properties are carried unchanged
      and not modelled. */
  datatype NodeJs = NodeJs(id: Prim, kind: Prim, imageFile: Prim)

  /** An image node without a truthy `imageFile`. */
  predicate LacksFile(n: NodeJs)
  {
    n.kind == Str("image") && !Truthy(n.imageFile)
  }

  /** The map of SalvarCanvas: such a node gets `imageFile: null`. */
  function NullImage(n: NodeJs): (r: NodeJs)
    ensures LacksFile(n) ==> r == n.(imageFile := Null)
    ensures !LacksFile(n) ==> r == n
  {
    if LacksFile(n) then n.(imageFile := Null) else n
  }

  function NullImages(ns: seq<NodeJs>): (r: seq<NodeJs>)
    ensures |r| == |ns|
    ensures forall i :: 0 <= i < |ns| ==> r[i].id == ns[i].id && r[i].kind == ns[i].kind
    ensures forall i :: 0 <= i < |ns| && !LacksFile(ns[i]) ==> r[i] == ns[i]
    ensures forall i :: 0 <= i < |ns| && LacksFile(ns[i]) ==> r[i].imageFile == Null
    ensures forall i :: 0 <= i < |r| && r[i].kind == Str("image") ==> Truthy(r[i].imageFile) || r[i].imageFile == Null
  {
    seq(|ns|, i requires 0 <= i < |ns| => NullImage(ns[i]))
  }

  lemma NullImagesIdempotent(ns: seq<NodeJs>)
    ensures NullImages(NullImages(ns)) == NullImages(ns)
  {
  }

  /** The canvas value stored or answered: `{nodes, edges}` whose properties
      may hold anything, or another value. */
  datatype Doc<E> = Canvas(nodes: Payload<NodeJs>, edges: Payload<E>) | Plain(p: Prim)

  type Slot<E> = Dual.Slot<Doc<E>>

  /** SalvarCanvas: the normalised canvas goes to the key first, then to the
      bridge; a bridge error is swallowed. */
  function SalvarCanvas<E>(nodes: seq<NodeJs>, edges: seq<E>, available: bool): (r: Run<(), Doc<E>>)
    ensures r.result.Ok?
    ensures r.slot == Json(Canvas(Arr(NullImages(nodes)), Arr(edges)))
    ensures |r.trace| > 0 && r.trace[0] == WriteLocal
    ensures CallHost("SalvarCanvas") in r.trace <==> available
  {
    Run(Ok(()), Json(Canvas(Arr(NullImages(nodes)), Arr(edges))), [WriteLocal] + HostCall(available, "SalvarCanvas"))
  }

  /** `x || []` on a property. */
  function OrEmpty<T>(p: Payload<T>): (r: Payload<T>)
    ensures p.Arr? || Truthy(p.p) ==> r == p
    ensures !(p.Arr? || Truthy(p.p)) ==> r == Arr([])
  {
    if p.Arr? || Truthy(p.p) then p else Arr([])
  }

  /** A bridge answer the load returns from: `data.nodes` throws on `null` and
      `undefined` (caught, falling back to the key); on any other value it reads
      a property. */
  predicate FromBridge<E>(available: bool, reply: Reply<Doc<E>>)
  {
    available && reply.Answer? && !(reply.value.Plain? && (reply.value.p == Null || reply.value.p == Undefined))
  }

  /** `{nodes: data.nodes || [], edges: data.edges || []}`; a value other than a
      canvas object has neither property. */
  function FromAnswer<E>(d: Doc<E>): (r: Doc<E>)
    ensures r.Canvas?
    ensures d.Canvas? ==> r.nodes == OrEmpty(d.nodes) && r.edges == OrEmpty(d.edges)
    ensures d.Plain? ==> r.nodes == Arr([]) && r.edges == Arr([])
  {
    match d
    case Canvas(nodes, edges) => Canvas(OrEmpty(nodes), OrEmpty(edges))
    case Plain(_) => Canvas(Arr([]), Arr([]))
  }

  /** CarregarCanvas: a working bridge's canvas is returned (a falsy list
      becomes `[]`) and the key is left alone; otherwise the key is parsed and
      returned as it is, and text that does not parse rejects the load. */
  function CarregarCanvas<E>(available: bool, reply: Reply<Doc<E>>, slot: Slot<E>): (r: Run<Doc<E>, Doc<E>>)
    ensures r.slot == slot && WriteLocal !in r.trace
    ensures CallHost("CarregarCanvas") in r.trace <==> available
    ensures FromBridge(available, reply) ==> r.result == Ok(FromAnswer(reply.value))
    ensures !FromBridge(available, reply) ==>
      (r.result == Err(ParseError) <==> slot.Garbage?)
      && (slot.Json? ==> r.result == Ok(slot.value))
      && (!Present(slot) ==> r.result == Ok(Canvas(Arr([]), Arr([]))))
  {
    if FromBridge(available, reply) then
      Run(Ok(FromAnswer(reply.value)), slot, [CallHost("CarregarCanvas")])
    else
      var result := match slot
        case Json(v) => Ok(v)
        case Garbage => Err(ParseError)
        case _ => Ok(Canvas(Arr([]), Arr([])));
      Run(result, slot, HostCall(available, "CarregarCanvas"))
  }

  /** Without the bridge, a load returns what the last save wrote. */
  lemma LoadAfterSaveOffline<E>(nodes: seq<NodeJs>, edges: seq<E>, available: bool, later: Reply<Doc<E>>)
    ensures CarregarCanvas(false, later, SalvarCanvas(nodes, edges, available).slot).result
         == Ok(Canvas(Arr(NullImages(nodes)), Arr(edges)))
  {
  }

  /** With a working bridge the key plays no part: two different keys give the
      same canvas. */
  lemma BridgeIgnoresKey<E>(reply: Reply<Doc<E>>, a: Slot<E>, b: Slot<E>)
    requires FromBridge(true, reply)
    ensures CarregarCanvas(true, reply, a).result == CarregarCanvas(true, reply, b).result
  {
  }

  /** UploadImagem: rejects without the bridge, rethrows a bridge error, and
      otherwise returns the name the bridge chose. */
  function UploadImagem(available: bool, reply: Reply<string>): (r: Result<string>)
    ensures r.Ok? <==> available && reply.Answer?
    ensures r.Ok? ==> r.value == reply.value
    ensures !available ==> r == Err(Unavailable)
    ensures available && reply.Fail? ==> r == Err(HostRejected)
  {
    if !available then Err(Unavailable)
    else match reply
      case Answer(name) => Ok(name)
      case Fail => Err(HostRejected)
  }

  /** DeletarImagem / LimparImagensOrfas: a bridge call when there is a bridge,
      whose failure is logged; the call always resolves and touches no key, so
      only the steps taken are returned. */
  function BestEffort(available: bool, host: string): (trace: seq<Step>)
    ensures WriteLocal !in trace
    ensures CallHost(host) in trace <==> available
  {
    HostCall(available, host)
  }

  function DeletarImagem(available: bool): (trace: seq<Step>)
    ensures available ==> trace == [CallHost("DeletarImagem")]
    ensures !available ==> trace == []
  {
    BestEffort(available, "DeletarImagem")
  }

  function LimparImagensOrfas(available: bool): (trace: seq<Step>)
    ensures available ==> trace == [CallHost("LimparImagensOrfas")]
    ensures !available ==> trace == []
  {
    BestEffort(available, "LimparImagensOrfas")
  }
}

=== FILE: common.dfy ===
/** Small failure-compatible wrappers shared by every module of the model. */
module Common {

  datatype Option<+T> = None | Some(value: T)

  /** Why a TypeScript call rejects instead of returning normally. */
  datatype Failure =
    | TypeError       // a property access or call on undefined/null/non-array
    | ParseError      // JSON.parse threw and nobody caught it
    | HostRejected    // the desktop bridge call failed and the error was rethrown
    | Unavailable     // the desktop bridge is absent and the operation has no fallback

  datatype Result<+R> = Ok(value: R) | Err(failure: Failure)

  /** `s` starts with `p` (Go's strings.HasPrefix). */
  predicate HasPrefix(s: string, p: string)
  {
    |p| <= |s| && s[..|p|] == p
  }

  /** `s` ends with `p` (Go's strings.HasSuffix). */
  predicate HasSuffix(s: string, p: string)
  {
    |p| <= |s| && s[|s| - |p|..] == p
  }
}

=== FILE: dual.dfy ===
/** The dual-backend protocol every TypeScript service follows. When the desktop
    bridge is present (`wailsAvailable`) the Go handler is the source of truth and
    a copy is mirrored into one `localStorage` key; without it, or when a bridge
    call fails, the service falls back to that key.

    The bridge is an oracle: `available` says whether it was detected at start-up
    and each call's reply is a parameter. Only the service's own key is modelled,
    since no service touches another's. A `trace` records local writes and bridge
    calls in the order they happen. */
module Dual {
  import opened Common
  import opened Js

  /** The service's `localStorage` entry: absent, the empty string, text that
      `JSON.parse` accepts (held as its parsed value), or text it rejects. */
  datatype Slot<V> = Absent | Blank | Json(value: V) | Garbage

  /** `if (data)`: an absent key and the empty string are both skipped. */
  predicate Present<V>(s: Slot<V>)
  {
    s.Json? || s.Garbage?
  }

  /** A bridge call's outcome: the value the promise resolved to, or a rejection. */
  datatype Reply<V> = Answer(value: V) | Fail

  datatype Step = WriteLocal | CallHost(name: string)

  /** A service call's outcome: what the promise settles to, the key afterwards and
      what happened on the way. */
  datatype Run<R, V> = Run(result: Result<R>, slot: Slot<V>, trace: seq<Step>)

  /** A value where a list is expected: an array, or any other JavaScript value
      (`null`, a number, a string, a non-array object ...). */
  datatype Payload<T> = Arr(items: seq<T>) | Other(p: Prim)

  /** The bridge call made only when the bridge is present. */
  function HostCall(available: bool, name: string): (r: seq<Step>)
    ensures CallHost(name) in r <==> available
    ensures WriteLocal !in r
  {
    if available then [CallHost(name)] else []
  }

  /** SalvarPassos / SalvarEventos / SalvarLinks / SalvarObjetivos: always write
      the key first, then hand the list to the bridge; a bridge error is logged and
      swallowed. */
  function SaveList<T>(xs: seq<T>, available: bool, host: string): (r: Run<(), Payload<T>>)
    ensures r.result.Ok? && r.slot == Json(Arr(xs))
    ensures |r.trace| > 0 && r.trace[0] == WriteLocal
    ensures CallHost(host) in r.trace <==> available
  {
    Run(Ok(()), Json(Arr(xs)), [WriteLocal] + HostCall(available, host))
  }

  /** The list a stored key yields after `Array.isArray(parsed) ? parsed : []`;
      text that does not parse is caught and gives the empty list. */
  function LocalList<T>(slot: Slot<Payload<T>>): (r: seq<T>)
    ensures slot == Json(Arr(r)) || r == []
  {
    if slot.Json? && slot.value.Arr? then slot.value.items else []
  }

  /** The array a bridge answer becomes in CarregarPassos / CarregarEventos, or None
      when the service falls back to the key. Logging `x.length` throws on `null`
      and `undefined` (caught); `x && x.length >= 0` holds for arrays and non-empty
      strings; a non-empty string is then replaced by `[]`. */
  function Accepted<T>(v: Payload<T>): (r: Option<seq<T>>)
    ensures v.Arr? ==> r == Some(v.items)
    ensures v.Other? ==> (r.Some? <==> v.p.Str? && v.p.s != "")
    ensures v.Other? && r.Some? ==> r.value == []
  {
    match v
    case Arr(xs) => Some(xs)
    case Other(Str(s)) => if s != "" then Some([]) else None
    case Other(_) => None
  }

  /** CarregarPassos / CarregarEventos: the bridge's array when it gives one, and
      then mirrored into the key; otherwise the key's array. Never rejects. */
  function LoadChecked<T>(available: bool, host: string, reply: Reply<Payload<T>>, slot: Slot<Payload<T>>): (r: Run<seq<T>, Payload<T>>)
    ensures r.result.Ok?
    ensures CallHost(host) in r.trace <==> available
    ensures WriteLocal in r.trace ==> r.slot == Json(Arr(r.result.value))
    ensures WriteLocal !in r.trace ==> r.slot == slot && r.result.value == LocalList(slot)
    ensures available && reply.Answer? && reply.value.Arr? ==>
      r.result.value == reply.value.items && WriteLocal in r.trace
    ensures !available || reply.Fail? ==> r.trace == HostCall(available, host) && r.slot == slot
  {
    var fromHost := if available && reply.Answer? then Accepted(reply.value) else None;
    match fromHost
    case Some(xs) => Run(Ok(xs), Json(Arr(xs)), [CallHost(host), WriteLocal])
    case None => Run(Ok(LocalList(slot)), slot, HostCall(available, host))
  }

  /** A load that wrote the key leaves it so that an offline load returns the same
      list; a load that did not write it read it. Either way the next offline load
      agrees. */
  lemma ReloadOffline<T>(available: bool, host: string, reply: Reply<Payload<T>>, slot: Slot<Payload<T>>, later: Reply<Payload<T>>)
    ensures LoadChecked(false, host, later, LoadChecked(available, host, reply, slot).slot).result
         == LoadChecked(available, host, reply, slot).result
  {
  }

  /** What a save wrote, an offline load reads back. */
  lemma LoadAfterSave<T>(xs: seq<T>, available: bool, host: string, later: Reply<Payload<T>>)
    ensures LoadChecked(false, host, later, SaveList(xs, available, host).slot).result == Ok(xs)
  {
  }

  /** What a fallback does with the loaded list: nothing to save, save a new
      list, or throw before saving. */
  datatype Edit<T> = Keep | Write(xs: seq<T>) | Crash(failure: Failure)

  /** The shape of every list mutation of passos and calendario: call the bridge;
      when it succeeds, return without touching the key; when it is absent or
      fails, load (bridge again, then key), edit, and save. */
  function Mutation<T>(
    available: bool, hostOk: bool, host: string, loadName: string, saveName: string,
    reply: Reply<Payload<T>>, slot: Slot<Payload<T>>, edit: seq<T> -> Edit<T>): (r: Run<(), Payload<T>>)
    ensures available && hostOk ==> r == Run(Ok(()), slot, [CallHost(host)])
    ensures !(available && hostOk) ==>
      var loaded := LoadChecked(available, loadName, reply, slot);
      match edit(loaded.result.value)
      case Keep => r.result.Ok? && r.slot == loaded.slot
      case Write(xs) => r.result.Ok? && r.slot == Json(Arr(xs))
        && (CallHost(saveName) in r.trace <==> available)
      case Crash(f) => r.result == Err(f) && r.slot == loaded.slot
  {
    if available && hostOk then Run(Ok(()), slot, [CallHost(host)])
    else
      var loaded := LoadChecked(available, loadName, reply, slot);
      var before := HostCall(available, host) + loaded.trace;
      match edit(loaded.result.value)
      case Keep => Run(Ok(()), loaded.slot, before)
      case Write(xs) =>
        var saved := SaveList(xs, available, saveName);
        Run(Ok(()), saved.slot, before + saved.trace)
      case Crash(f) => Run(Err(f), loaded.slot, before)
  }
}

=== FILE: gofiles.dfy ===
/** The Go side's storage shape: every handler keeps one JSON file under
    `assets/init/`, loads it whole, changes it in memory and writes it back whole.
    JSON encoding is modelled by its decoded value (decode(encode(x)) == x is
    assumed), and file-system failures are one `Unreadable` state. */
module GoFiles {

  /** A Go slice: nil or a sequence (possibly empty). `encoding/json` writes nil
      as `null` and reads `null` back as nil, so the difference is observable. */
  datatype Slice<T> = Nil | Items(items: seq<T>)

  function Elems<T>(s: Slice<T>): seq<T>
  {
    if s.Nil? then [] else s.items
  }

  /** The slice built by `var out []T` followed by `append`s: nil when nothing was
      appended. */
  function Collect<T>(s: seq<T>): (r: Slice<T>)
    ensures Elems(r) == s
    ensures r.Nil? <==> |s| == 0
  {
    if |s| == 0 then Nil else Items(s)
  }

  /** A handler's data file: absent, unreadable (MkdirAll/ReadFile failed), not
      decodable as JSON of the expected shape, or holding the encoding of `content`. */
  datatype File<C> = Missing | Unreadable | Corrupt | Holds(content: C)

  /** A directory entry as `os.ReadDir` reports it. */
  datatype Entry = Entry(name: string, isDir: bool)

  /** Go's `(value, err)` pair with `ok` standing for `err == nil`. */
  datatype Loaded<V> = Loaded(value: V, ok: bool)

  /** CarregarEventos / CarregarLinks / CarregarObjetivos / CarregarPassos: a missing
      file is the empty list, a decoded `null` becomes the empty list, and on any
      error the returned list is empty. */
  function LoadList<T>(f: File<Slice<T>>): (r: Loaded<seq<T>>)
    ensures r.ok <==> (f.Missing? || f.Holds?)
    ensures !f.Holds? ==> r.value == []
    ensures f.Holds? ==> r.value == Elems(f.content)
  {
    match f
    case Missing => Loaded([], true)
    case Unreadable => Loaded([], false)
    case Corrupt => Loaded([], false)
    case Holds(s) => Loaded(Elems(s), true)
  }

  /** A handler call's outcome: the file afterwards and whether the call returned nil. */
  datatype Handled<C> = Handled(file: File<C>, ok: bool)

  /** The shape of every Go list mutation: load, transform, save. A load error is
      returned before anything is written; `written` says whether the save's
      `json.MarshalIndent` and `os.WriteFile` succeeded, and a failed save is
      returned as the call's error. */
  function Mutate<T>(f: File<Slice<T>>, op: seq<T> -> Slice<T>, written: bool): (r: Handled<Slice<T>>)
    ensures r.ok <==> LoadList(f).ok && written
    ensures !r.ok ==> r.file == f
    ensures r.ok ==> r.file == Holds(op(LoadList(f).value))
    ensures r.ok ==> LoadList(r.file) == Loaded(Elems(op(LoadList(f).value)), true)
  {
    var loaded := LoadList(f);
    if loaded.ok && written then Handled(Holds(op(loaded.value)), true) else Handled(f, false)
  }

  /** Whatever list a handler saves, the next load returns it, nil or not. */
  lemma LoadAfterSave<T>(s: seq<T>)
    ensures LoadList(Holds(Collect(s))) == Loaded(s, true)
    ensures LoadList(Holds(Items(s))) == Loaded(s, true)
  {
  }
}

=== FILE: ideias.dfy ===
/** The Go handler of the ideas canvas (`IdeiasHandler`): nodes and edges saved
    whole to one file, image files named after their node, and a cleanup that
    deletes image files no node claims. */
module Ideias {
  import opened Common
  import opened GoFiles

  /** `Data["imageFile"]` of a node: absent or null, a string, or another JSON
      value. */
  datatype ImageFile = NoFile | FileName(name: string) | NotText

  /** `NodeData`, reduced to the fields the handler reads: ID, Type, the image
      entry of Data, Parent and ParentId. Position, size and the rest of Data
      are carried unchanged and not modelled. */
  datatype Node = Node(id: string, kind: string, imageFile: ImageFile, parent: string, parentId: string)

  /** `EdgeData`: carried unchanged, never inspected. */
  datatype Edge = Edge(id: string, source: string, target: string)

  datatype Canvas = Canvas(nodes: Slice<Node>, edges: Slice<Edge>)

  /** `Parent` and `ParentId` are both set or both empty. */
  predicate ParentsAgree(n: Node)
  {
    (n.parent == "") <==> (n.parentId == "")
  }

  /** The loop body of normalizarCampos: an empty side is filled from the other. */
  function FillBoth(n: Node): (r: Node)
    ensures ParentsAgree(r)
    ensures ParentsAgree(n) ==> r == n
    ensures r.id == n.id && r.kind == n.kind && r.imageFile == n.imageFile
    ensures n.parent == "" && n.parentId != "" ==> r.parent == n.parentId && r.parentId == n.parentId
    ensures n.parentId == "" && n.parent != "" ==> r.parent == n.parent && r.parentId == n.parent
  {
    var m := if n.parent == "" && n.parentId != "" then n.(parent := n.parentId) else n;
    if m.parentId == "" && m.parent != "" then m.(parentId := m.parent) else m
  }

  /** normalizarCampos over the node list. */
  function NormalizarCampos(ns: seq<Node>): (r: seq<Node>)
    ensures |r| == |ns|
    ensures forall i :: 0 <= i < |r| ==> ParentsAgree(r[i]) && r[i].id == ns[i].id
    ensures forall i :: 0 <= i < |ns| && ParentsAgree(ns[i]) ==> r[i] == ns[i]
    ensures forall i :: 0 <= i < |ns| ==> r[i] == FillBoth(ns[i])
  {
    seq(|ns|, i requires 0 <= i < |ns| => FillBoth(ns[i]))
  }

  lemma NormalizarCamposIdempotent(ns: seq<Node>)
    ensures NormalizarCampos(NormalizarCampos(ns)) == NormalizarCampos(ns)
  {
  }

  /** The loop of SalvarCanvas: only `ParentId` is filled, from `Parent`. */
  function FillParentId(n: Node): (r: Node)
    ensures r.parent == n.parent
    ensures n.parentId == "" && n.parent != "" ==> r.parentId == n.parent
    ensures !(n.parentId == "" && n.parent != "") ==> r == n
    ensures r == n.(parentId := r.parentId)
  {
    if n.parentId == "" && n.parent != "" then n.(parentId := n.parent) else n
  }

  /** SalvarCanvas: only `ParentId` is filled before the canvas is written, and a
      nil node or edge list stays nil. `written` says whether `json.MarshalIndent`
      and `os.WriteFile` succeeded; a failed write is returned as the error and
      the file is left as it was. */
  function SalvarCanvas(f: File<Canvas>, nodes: Slice<Node>, edges: Slice<Edge>, written: bool): (r: Handled<Canvas>)
    ensures r.ok <==> written
    ensures !r.ok ==> r.file == f
    ensures r.ok ==> r.file.Holds?
    ensures r.ok ==> (r.file.content.nodes.Nil? <==> nodes.Nil?)
    ensures r.ok ==> r.file.content.edges == edges
    ensures r.ok ==> |Elems(r.file.content.nodes)| == |Elems(nodes)|
    ensures r.ok ==> forall i :: 0 <= i < |Elems(nodes)| ==>
      Elems(r.file.content.nodes)[i].parent == Elems(nodes)[i].parent
      && (Elems(r.file.content.nodes)[i].parent != "" ==> Elems(r.file.content.nodes)[i].parentId != "")
    ensures r.ok ==> forall i :: 0 <= i < |Elems(nodes)| ==> Elems(r.file.content.nodes)[i] == FillParentId(Elems(nodes)[i])
  {
    if !written then Handled(f, false)
    else match nodes
      case Nil => Handled(Holds(Canvas(Nil, edges)), true)
      case Items(ns) => Handled(Holds(Canvas(Items(seq(|ns|, i requires 0 <= i < |ns| => FillParentId(ns[i]))), edges)), true)
  }

  const Empty := Canvas(Items([]), Items([]))

  /** CarregarCanvas: a missing file is the empty canvas; otherwise the decoded
      lists, made non-nil and normalised. A failed read or decode returns the
      empty canvas with the error, and every caller discards it. */
  function CarregarCanvas(f: File<Canvas>): (r: Loaded<Canvas>)
    ensures r.value.nodes.Items? && r.value.edges.Items?
    ensures r.ok <==> f.Missing? || f.Holds?
    ensures !f.Holds? ==> r.value == Empty
    ensures f.Holds? ==>
      Elems(r.value.nodes) == NormalizarCampos(Elems(f.content.nodes))
      && Elems(r.value.edges) == Elems(f.content.edges)
  {
    match f
    case Holds(c) => Loaded(Canvas(Items(NormalizarCampos(Elems(c.nodes))), Items(Elems(c.edges))), true)
    case Missing => Loaded(Empty, true)
    case _ => Loaded(Empty, false)
  }

  /** The partial fill of a save never changes what the next load returns: it
      is what normalising the nodes as given yields. */
  lemma LoadAfterSave(f: File<Canvas>, nodes: Slice<Node>, edges: Slice<Edge>)
    ensures CarregarCanvas(SalvarCanvas(f, nodes, edges, true).file).ok
    ensures Elems(CarregarCanvas(SalvarCanvas(f, nodes, edges, true).file).value.nodes) == NormalizarCampos(Elems(nodes))
    ensures Elems(CarregarCanvas(SalvarCanvas(f, nodes, edges, true).file).value.edges) == Elems(edges)
  {
    var saved := Elems(SalvarCanvas(f, nodes, edges, true).file.content.nodes);
    forall i | 0 <= i < |saved|
      ensures FillBoth(saved[i]) == FillBoth(Elems(nodes)[i])
    {
    }
  }

  // ---- image files ----

  /** filepath.Ext with `/` as the separator: the suffix from the last `.` of
      the last path element, or "" when that element has no `.`. */
  function Ext(path: string): (r: string)
    ensures HasSuffix(path, r)
    ensures r != "" ==> r[0] == '.' && forall k :: 1 <= k < |r| ==> r[k] != '.' && r[k] != '/'
    decreases |path|
  {
    if |path| == 0 || path[|path| - 1] == '/' then ""
    else if path[|path| - 1] == '.' then "."
    else
      var e := Ext(path[..|path| - 1]);
      if e == "" then "" else e + [path[|path| - 1]]
  }

  /** A non-empty extension of the tail is the extension of the whole. */
  lemma {:induction false} ExtAppend(a: string, b: string)
    requires Ext(b) != ""
    ensures Ext(a + b) == Ext(b)
    decreases |b|
  {
    var s := a + b;
    assert s[|s| - 1] == b[|b| - 1];
    if b[|b| - 1] != '.' {
      assert s[..|s| - 1] == a + b[..|b| - 1];
      ExtAppend(a, b[..|b| - 1]);
    }
  }

  /** strings.ToLower as far as the extension test can tell: the ASCII capitals,
      U+0130 (capital I with dot above) and U+212A (Kelvin sign) are the only
      characters whose lower case is ASCII; every other character is kept, which
      decides the comparison with the ASCII extensions below the same way. */
  function LowerChar(c: char): (r: char)
    ensures 'A' <= c <= 'Z' ==> r as int == c as int + 32
    ensures c == '\U{0130}' ==> r == 'i'
    ensures c == '\U{212A}' ==> r == 'k'
    ensures !('A' <= c <= 'Z') && c != '\U{0130}' && c != '\U{212A}' ==> r == c
    ensures !('A' <= r <= 'Z')
  {
    if 'A' <= c <= 'Z' then (c as int + 32) as char
    else if c == '\U{0130}' then 'i'
    else if c == '\U{212A}' then 'k'
    else c
  }

  function Lower(s: string): (r: string)
    ensures |r| == |s|
    ensures forall i :: 0 <= i < |s| ==> r[i] == LowerChar(s[i])
  {
    seq(|s|, i requires 0 <= i < |s| => LowerChar(s[i]))
  }

  /** Lowering is idempotent, and an extension written in lower-case ASCII is
      its own lowering. */
  lemma LowerIdempotent(s: string)
    ensures Lower(Lower(s)) == Lower(s)
    ensures (forall k :: 0 <= k < |s| ==> !('A' <= s[k] <= 'Z') && s[k] != '\U{0130}' && s[k] != '\U{212A}') ==> Lower(s) == s
  {
  }

  /** A name whose extension is written with a dotted capital I is an image to
      the cleanup, as it is to Go. */
  lemma DottedCapitalIsImage()
    ensures IsImageName("photo.G\U{0130}F")
  {
    var e := ".G\U{0130}F";
    ExtOfExt(e);
    ExtAppend("photo", e);
    assert "photo" + e == "photo.G\U{0130}F";
    assert Lower(".G\U{0130}F") == ".gif";
  }

  const ImageExts: seq<string> := [".jpg", ".jpeg", ".png", ".gif", ".webp"]

  predicate IsImageName(name: string)
  {
    Lower(Ext(name)) in ImageExts
  }

  /** The file name UploadImagem gives: node ID, `_`, the first eight
      characters of a fresh UUID, and the original extension. */
  function UploadName(nodeID: string, uuid: string, filename: string): (r: string)
    requires |uuid| >= 8
    ensures HasPrefix(r, nodeID + "_")
    ensures |r| == |nodeID| + 9 + |Ext(filename)|
    ensures HasSuffix(r, Ext(filename))
  {
    var r := nodeID + "_" + uuid[..8] + Ext(filename);
    assert r[..|nodeID| + 1] == nodeID + "_";
    r
  }

  /** An uploaded file keeps the upload's extension, so an image stays an image. */
  lemma UploadKeepsExt(nodeID: string, uuid: string, filename: string)
    requires |uuid| >= 8 && Ext(filename) != ""
    ensures Ext(UploadName(nodeID, uuid, filename)) == Ext(filename)
    ensures IsImageName(filename) ==> IsImageName(UploadName(nodeID, uuid, filename))
  {
    ExtOfExt(Ext(filename));
    assert UploadName(nodeID, uuid, filename) == (nodeID + "_" + uuid[..8]) + Ext(filename);
    ExtAppend(nodeID + "_" + uuid[..8], Ext(filename));
  }

  /** An extension is its own extension. */
  lemma {:induction false} ExtOfExt(e: string)
    requires e != "" && e[0] == '.' && forall k :: 1 <= k < |e| ==> e[k] != '.' && e[k] != '/'
    ensures Ext(e) == e
    decreases |e|
  {
    if |e| > 1 {
      ExtOfExt(e[..|e| - 1]);
    }
  }

  /** UploadImagem: None stands for a failed MkdirAll or WriteFile. */
  function UploadImagem(stored: bool, filename: string, nodeID: string, uuid: string): (r: Option<string>)
    requires |uuid| >= 8
    ensures r.Some? <==> stored
    ensures r.Some? ==> HasPrefix(r.value, nodeID + "_") && HasSuffix(r.value, Ext(filename))
  {
    if stored then Some(UploadName(nodeID, uuid, filename)) else None
  }

  /** A node of type "image" names the file with a string `imageFile`. */
  predicate Referenced(nodes: seq<Node>, name: string)
  {
    exists i :: 0 <= i < |nodes| && nodes[i].kind == "image" && nodes[i].imageFile == FileName(name)
  }

  /** Some listed node ID followed by `_` starts the name. */
  predicate Owned(name: string, nodeIDs: seq<string>)
  {
    exists k :: 0 <= k < |nodeIDs| && HasPrefix(name, nodeIDs[k] + "_")
  }

  /** The cleanup deletes an entry exactly when it is a file with an image
      extension that no image node references and no listed node owns. */
  predicate IsOrphan(e: Entry, nodes: seq<Node>, nodeIDs: seq<string>)
  {
    !e.isDir && IsImageName(e.name) && !Referenced(nodes, e.name) && !Owned(e.name, nodeIDs)
  }

  /** The names deleted from a listing, in listing order. */
  function Orphans(es: seq<Entry>, nodes: seq<Node>, nodeIDs: seq<string>): (r: seq<string>)
    ensures forall n :: n in r ==> exists e :: e in es && e.name == n && IsOrphan(e, nodes, nodeIDs)
    ensures forall e :: e in es && IsOrphan(e, nodes, nodeIDs) ==> e.name in r
  {
    if |es| == 0 then []
    else
      var rest := Orphans(es[1..], nodes, nodeIDs);
      assert es == [es[0]] + es[1..];
      if IsOrphan(es[0], nodes, nodeIDs) then [es[0].name] + rest else rest
  }

  /** The cleanup's outcome: the names removed and whether it returned nil. */
  datatype Cleanup = Cleanup(removed: seq<string>, ok: bool)

  /** LimparImagensOrfas: a canvas load error is returned before anything is
      deleted; a missing image folder is nothing to clean; otherwise every
      orphan is removed, and removal errors are ignored. */
  function LimparImagensOrfas(f: File<Canvas>, listing: Option<seq<Entry>>, nodeIDs: seq<string>): (r: Cleanup)
    ensures r.ok <==> CarregarCanvas(f).ok
    ensures !r.ok || listing.None? ==> r.removed == []
    ensures r.ok && listing.Some? ==>
      var nodes := Elems(CarregarCanvas(f).value.nodes);
      (forall e :: e in listing.value && IsOrphan(e, nodes, nodeIDs) ==> e.name in r.removed)
      && (forall n :: n in r.removed ==> exists e :: e in listing.value && e.name == n && IsOrphan(e, nodes, nodeIDs))
  {
    var loaded := CarregarCanvas(f);
    if !loaded.ok then Cleanup([], false)
    else match listing
      case None => Cleanup([], true)
      case Some(es) => Cleanup(Orphans(es, Elems(loaded.value.nodes), nodeIDs), true)
  }

  /** A file UploadImagem named for a node whose ID the cleanup is given is
      never deleted, whatever the canvas says. */
  lemma UploadSurvivesCleanup(nodeID: string, uuid: string, filename: string, nodes: seq<Node>, nodeIDs: seq<string>)
    requires |uuid| >= 8 && nodeID in nodeIDs
    ensures !IsOrphan(Entry(UploadName(nodeID, uuid, filename), false), nodes, nodeIDs)
  {
    var k :| 0 <= k < |nodeIDs| && nodeIDs[k] == nodeID;
    assert HasPrefix(UploadName(nodeID, uuid, filename), nodeIDs[k] + "_");
  }

  /** Only image nodes reference files: a node of another type naming the same
      file does not protect it. */
  lemma OnlyImageNodesReference(name: string, nodeIDs: seq<string>)
    requires IsImageName(name) && !Owned(name, nodeIDs)
    ensures IsOrphan(Entry(name, false), [Node("n", "text", FileName(name), "", "")], nodeIDs)
    ensures !IsOrphan(Entry(name, false), [Node("n", "image", FileName(name), "", "")], nodeIDs)
  {
    var image := [Node("n", "image", FileName(name), "", "")];
    assert image[0].kind == "image" && image[0].imageFile == FileName(name);
  }
}

=== FILE: js.dfy ===
/** The JavaScript values the TypeScript normalisers inspect, with JavaScript's
    truthiness, which decides every `x || default` in them. */
module Js {

  newtype Bits64 = x: int | 0 <= x < 0x1_0000_0000_0000_0000

  /** An IEEE-754 double carried as its bit pattern. Numbers are only stored and
      tested for truthiness, so no arithmetic is modelled. */
  datatype Float = Float(bits: Bits64)

  const Zero: Float := Float(0)

  predicate IsNaN(f: Float)
  {
    (f.bits as int / 0x10_0000_0000_0000) % 0x800 == 0x7FF && f.bits as int % 0x10_0000_0000_0000 != 0
  }

  /** +0, -0 and NaN are the falsy numbers. */
  predicate FalsyNumber(f: Float)
  {
    f.bits == 0 || f.bits == 0x8000_0000_0000_0000 || IsNaN(f)
  }

  /** A field of a record that crossed the JSON boundary. `Compound` stands for any
      object or array value, which is always truthy. */
  datatype Prim = Undefined | Null | Bool(b: bool) | Num(n: Float) | Str(s: string) | Compound

  predicate Truthy(p: Prim)
  {
    match p
    case Undefined => false
    case Null => false
    case Bool(b) => b
    case Num(n) => !FalsyNumber(n)
    case Str(s) => s != ""
    case Compound => true
  }

  /** `p || d`. */
  function Or(p: Prim, d: Prim): Prim
  {
    if Truthy(p) then p else d
  }
}

=== FILE: lex.dfy ===
/** Go's ordering of strings and `sort.Strings`/`sort.Slice` as an insertion sort
    by a string key. Go compares strings byte by byte; for UTF-8 that is the order
    of code points, which is the order of Dafny's `char`. */
module Lex {

  /** `a < b` on Go strings. */
  predicate Below(a: string, b: string)
    decreases |a|
  {
    |b| > 0 && (|a| == 0 || a[0] < b[0] || (a[0] == b[0] && Below(a[1..], b[1..])))
  }

  /** `a <= b` on Go strings. */
  predicate AtMost(a: string, b: string)
  {
    !Below(b, a)
  }

  lemma {:induction false} BelowIrreflexive(a: string)
    ensures !Below(a, a)
    decreases |a|
  {
    if |a| > 0 {
      BelowIrreflexive(a[1..]);
    }
  }

  lemma {:induction false} BelowTransitive(a: string, b: string, c: string)
    requires Below(a, b) && Below(b, c)
    ensures Below(a, c)
    decreases |a|
  {
    if |a| > 0 && a[0] == b[0] && b[0] == c[0] {
      BelowTransitive(a[1..], b[1..], c[1..]);
    }
  }

  lemma {:induction false} BelowTotal(a: string, b: string)
    ensures a == b || Below(a, b) || Below(b, a)
    decreases |a|
  {
    if |a| > 0 && |b| > 0 && a[0] == b[0] {
      BelowTotal(a[1..], b[1..]);
      if a[1..] == b[1..] {
        assert a == [a[0]] + a[1..] && b == [b[0]] + b[1..];
      }
    }
  }

  lemma BelowAsymmetric(a: string, b: string)
    requires Below(a, b)
    ensures !Below(b, a)
  {
    if Below(b, a) {
      BelowTransitive(a, b, a);
      BelowIrreflexive(a);
    }
  }

  lemma AtMostTransitive(a: string, b: string, c: string)
    requires AtMost(a, b) && AtMost(b, c)
    ensures AtMost(a, c)
  {
    if Below(c, a) {
      BelowTotal(a, b);
      if a != b {
        BelowTransitive(c, a, b);
      }
    }
  }

  /** For equally long heads, comparison decides on the heads first and on the
      tails only when the heads are equal. */
  lemma {:induction false} BelowConcat(x1: string, y1: string, x2: string, y2: string)
    requires |x1| == |x2|
    ensures Below(x1 + y1, x2 + y2) <==> Below(x1, x2) || (x1 == x2 && Below(y1, y2))
    decreases |x1|
  {
    if |x1| > 0 {
      assert (x1 + y1)[1..] == x1[1..] + y1;
      assert (x2 + y2)[1..] == x2[1..] + y2;
      BelowConcat(x1[1..], y1, x2[1..], y2);
      if x1[0] == x2[0] && x1[1..] == x2[1..] {
        assert x1 == [x1[0]] + x1[1..] && x2 == [x2[0]] + x2[1..];
      }
    } else {
      assert x1 + y1 == y1 && x2 + y2 == y2;
    }
  }

  /** Keys are in non-decreasing order. */
  predicate SortedBy<T>(s: seq<T>, key: T -> string)
  {
    forall i, j :: 0 <= i < j < |s| ==> AtMost(key(s[i]), key(s[j]))
  }

  /** Every key in `s` is at least `key(y)`. */
  predicate LowerBound<T>(y: T, s: seq<T>, key: T -> string)
  {
    forall j :: 0 <= j < |s| ==> AtMost(key(y), key(s[j]))
  }

  lemma ConsSorted<T>(y: T, s: seq<T>, key: T -> string)
    requires SortedBy(s, key) && LowerBound(y, s, key)
    ensures SortedBy([y] + s, key)
  {
    var r := [y] + s;
    forall i, j | 0 <= i < j < |r| ensures AtMost(key(r[i]), key(r[j])) {
      if i > 0 {
        assert r[i] == s[i - 1] && r[j] == s[j - 1];
      }
    }
  }

  /** A lower bound of a sorted list's head bounds the whole list. */
  lemma HeadBound<T>(y: T, s: seq<T>, key: T -> string)
    requires SortedBy(s, key) && |s| > 0 && AtMost(key(y), key(s[0]))
    ensures LowerBound(y, s, key)
  {
    forall j | 0 <= j < |s| ensures AtMost(key(y), key(s[j])) {
      if j > 0 {
        AtMostTransitive(key(y), key(s[0]), key(s[j]));
      }
    }
  }

  /** Insertion keeps a strict lower bound below the inserted element. */
  lemma InsertBound<T>(y: T, x: T, s: seq<T>, r: seq<T>, key: T -> string)
    requires LowerBound(y, s, key) && AtMost(key(y), key(x))
    requires multiset(r) == multiset(s) + multiset{x}
    ensures LowerBound(y, r, key)
  {
    forall j | 0 <= j < |r| ensures AtMost(key(y), key(r[j])) {
      assert r[j] in multiset(r);
      if r[j] != x {
        assert r[j] in multiset(s);
        var k :| 0 <= k < |s| && s[k] == r[j];
      }
    }
  }

  lemma NotAtMost(a: string, b: string)
    requires !AtMost(a, b)
    ensures AtMost(b, a)
  {
    BelowAsymmetric(b, a);
  }

  /** Insert `x` into a sorted list before the first element it does not exceed. */
  function Insert<T>(x: T, s: seq<T>, key: T -> string): (r: seq<T>)
    requires SortedBy(s, key)
    ensures SortedBy(r, key)
    ensures multiset(r) == multiset(s) + multiset{x}
    decreases |s|
  {
    if |s| == 0 then [x]
    else if AtMost(key(x), key(s[0])) then
      HeadBound(x, s, key);
      ConsSorted(x, s, key);
      [x] + s
    else
      var rest := Insert(x, s[1..], key);
      assert s == [s[0]] + s[1..];
      BelowIrreflexive(key(s[0]));
      HeadBound(s[0], s, key);
      assert LowerBound(s[0], s[1..], key);
      NotAtMost(key(x), key(s[0]));
      InsertBound(s[0], x, s[1..], rest, key);
      ConsSorted(s[0], rest, key);
      [s[0]] + rest
  }

  /** Sort by key (insertion sort). */
  function SortBy<T>(s: seq<T>, key: T -> string): (r: seq<T>)
    ensures SortedBy(r, key)
    ensures multiset(r) == multiset(s)
    decreases |s|
  {
    if |s| == 0 then []
    else
      assert s == [s[0]] + s[1..];
      Insert(s[0], SortBy(s[1..], key), key)
  }

  function Reverse<T>(s: seq<T>): (r: seq<T>)
    ensures |r| == |s|
    ensures forall i :: 0 <= i < |s| ==> r[i] == s[|s| - 1 - i]
    ensures multiset(r) == multiset(s)
    decreases |s|
  {
    if |s| == 0 then []
    else
      assert s == s[..|s| - 1] + [s[|s| - 1]];
      [s[|s| - 1]] + Reverse(s[..|s| - 1])
  }
}

=== FILE: links.dfy ===
/** The Go handler of saved links (`LinksHandler`): a flat list of links. */
module Links {
  import opened Seqs
  import opened GoFiles

  datatype Link = Link(id: string, title: string, url: string, description: string, createdAt: string)

  function Id(l: Link): string
  {
    l.id
  }

  /** The JSON object written for a link: `description` carries `omitempty`, so an
      empty description is left out. */
  function Encode(l: Link): (m: map<string, string>)
    ensures "description" in m <==> l.description != ""
    ensures m.Keys >= {"id", "title", "url", "createdAt"}
  {
    map["id" := l.id, "title" := l.title, "url" := l.url, "createdAt" := l.createdAt]
    + (if l.description == "" then map[] else map["description" := l.description])
  }

  /** Decoding fills an absent key with the zero value "". */
  function Decode(m: map<string, string>): Link
  {
    Link(Field(m, "id"), Field(m, "title"), Field(m, "url"), Field(m, "description"), Field(m, "createdAt"))
  }

  function Field(m: map<string, string>, k: string): string
  {
    if k in m then m[k] else ""
  }

  /** Leaving out the empty description loses nothing. */
  lemma DecodeEncode(l: Link)
    ensures Decode(Encode(l)) == l
  {
  }

  /** AdicionarLink's list step. */
  function Adicionar(ls: seq<Link>, l: Link): (r: seq<Link>)
    ensures |r| == |ls| + 1
    ensures r[..|ls|] == ls && r[|ls|] == l
  {
    ls + [l]
  }

  /** AtualizarLink's list step. */
  function Atualizar(ls: seq<Link>, l: Link): (r: seq<Link>)
    ensures |r| == |ls|
    ensures forall i :: IsFirstMatch(ls, Id, l.id, i) ==> r == ls[i := l]
    ensures !Has(ls, Id, l.id) ==> r == ls
  {
    ReplaceFirst(ls, Id, l)
  }

  /** DeletarLink's list step. */
  function Deletar(ls: seq<Link>, id: string): (r: seq<Link>)
    ensures !Has(r, Id, id)
    ensures forall j :: 0 <= j < |ls| && ls[j].id != id ==> ls[j] in r
    ensures !Has(ls, Id, id) ==> r == ls
  {
    RemoveAll(ls, Id, id)
  }

  function AdicionarLink(f: File<Slice<Link>>, l: Link, written: bool): (r: Handled<Slice<Link>>)
    ensures r.ok <==> LoadList(f).ok && written
    ensures !r.ok ==> r.file == f
    ensures r.ok ==> LoadList(r.file).value == Adicionar(LoadList(f).value, l)
  {
    Mutate(f, ls => Items(Adicionar(ls, l)), written)
  }

  function AtualizarLink(f: File<Slice<Link>>, l: Link, written: bool): (r: Handled<Slice<Link>>)
    ensures r.ok <==> LoadList(f).ok && written
    ensures !r.ok ==> r.file == f
    ensures r.ok ==> LoadList(r.file).value == Atualizar(LoadList(f).value, l)
  {
    Mutate(f, ls => Items(Atualizar(ls, l)), written)
  }

  /** As for events, deleting the last link writes `null`. */
  function DeletarLink(f: File<Slice<Link>>, id: string, written: bool): (r: Handled<Slice<Link>>)
    ensures r.ok <==> LoadList(f).ok && written
    ensures !r.ok ==> r.file == f
    ensures r.ok ==> LoadList(r.file).value == Deletar(LoadList(f).value, id)
    ensures r.ok && |Deletar(LoadList(f).value, id)| == 0 ==> r.file == Holds(Nil)
  {
    Mutate(f, ls => Collect(Deletar(ls, id)), written)
  }
}

=== FILE: links_service.dfy ===
/** The TypeScript service of saved links (`services/links.ts`), key `links_data`.
    Unlike the other list services its load checks neither the bridge's answer
    nor the stored value for being an array, and does not catch `JSON.parse`. */
module LinksService {
  import opened Common
  import opened Js
  import opened Seqs
  import opened Dual
  import Links

  type Link = Links.Link
  type Slot = Dual.Slot<Payload<Link>>
  type Outcome = Run<(), Payload<Link>>

  /** `links && links.length >= 0` after logging `links.length`: arrays and
      non-empty strings pass; `null`/`undefined` throw (caught); the rest fail
      the test. */
  predicate PassesCheck(v: Payload<Link>)
  {
    v.Arr? || (v.p.Str? && v.p.s != "")
  }

  /** CarregarLinks: a bridge answer that passes the check is mirrored and
      returned as it is, array or not; otherwise the stored value is returned as
      it is, and stored text that does not parse rejects the call. */
  function Carregar(available: bool, reply: Reply<Payload<Link>>, slot: Slot): (r: Run<Payload<Link>, Payload<Link>>)
    ensures CallHost("CarregarLinks") in r.trace <==> available
    ensures available && reply.Answer? && PassesCheck(reply.value) ==>
      r.result == Ok(reply.value) && r.slot == Json(reply.value)
    ensures !(available && reply.Answer? && PassesCheck(reply.value)) ==>
      r.slot == slot && WriteLocal !in r.trace
      && (r.result == Err(ParseError) <==> slot.Garbage?)
      && (slot.Json? ==> r.result == Ok(slot.value))
      && (!Present(slot) ==> r.result == Ok(Arr([])))
    ensures r.result.Ok? && r.slot.Json? ==> r.slot.value == r.result.value
  {
    if available && reply.Answer? && PassesCheck(reply.value) then
      Run(Ok(reply.value), Json(reply.value), [CallHost("CarregarLinks"), WriteLocal])
    else
      var result := match slot
        case Json(v) => Ok(v)
        case Garbage => Err(ParseError)
        case _ => Ok(Arr([]));
      Run(result, slot, HostCall(available, "CarregarLinks"))
  }

  /** The fallback of every link mutation: load, then edit the array; `push`,
      `filter` and `findIndex` throw on anything that is not an array. */
  function Fallback(
    available: bool, hostOk: bool, host: string,
    reply: Reply<Payload<Link>>, slot: Slot, edit: seq<Link> -> Edit<Link>): (r: Outcome)
    ensures available && hostOk ==> r == Run(Ok(()), slot, [CallHost(host)])
    ensures !(available && hostOk) ==>
      var loaded := Carregar(available, reply, slot);
      (loaded.result.Err? ==> r.result == Err(loaded.result.failure) && r.slot == loaded.slot)
      && (loaded.result.Ok? && loaded.result.value.Other? ==> r.result == Err(TypeError) && r.slot == loaded.slot)
  {
    if available && hostOk then Run(Ok(()), slot, [CallHost(host)])
    else
      var loaded := Carregar(available, reply, slot);
      var before := HostCall(available, host) + loaded.trace;
      match loaded.result
      case Err(f) => Run(Err(f), loaded.slot, before)
      case Ok(Other(_)) => Run(Err(TypeError), loaded.slot, before)
      case Ok(Arr(ls)) =>
        match edit(ls)
        case Keep => Run(Ok(()), loaded.slot, before)
        case Write(xs) =>
          var saved := SaveList(xs, available, "SalvarLinks");
          Run(Ok(()), saved.slot, before + saved.trace)
        case Crash(f) => Run(Err(f), loaded.slot, before)
  }

  /** The array a successful fallback starts from. */
  predicate LoadsArray(available: bool, reply: Reply<Payload<Link>>, slot: Slot)
  {
    var loaded := Carregar(available, reply, slot);
    loaded.result.Ok? && loaded.result.value.Arr?
  }

  function Loaded(available: bool, reply: Reply<Payload<Link>>, slot: Slot): seq<Link>
    requires LoadsArray(available, reply, slot)
  {
    Carregar(available, reply, slot).result.value.items
  }

  /** AdicionarLink: the fallback succeeds exactly when the load yields an array,
      and then appends. */
  function AdicionarLink(available: bool, hostOk: bool, reply: Reply<Payload<Link>>, slot: Slot, l: Link): (r: Outcome)
    ensures available && hostOk ==> r.result.Ok? && r.slot == slot
    ensures !(available && hostOk) ==> (r.result.Ok? <==> LoadsArray(available, reply, slot))
    ensures !(available && hostOk) && LoadsArray(available, reply, slot) ==>
      r.slot == Json(Arr(Links.Adicionar(Loaded(available, reply, slot), l)))
  {
    Fallback(available, hostOk, "AdicionarLink", reply, slot, ls => Write(ls + [l]))
  }

  /** DeletarLink: filter and save. */
  function DeletarLink(available: bool, hostOk: bool, reply: Reply<Payload<Link>>, slot: Slot, id: string): (r: Outcome)
    ensures available && hostOk ==> r.result.Ok? && r.slot == slot
    ensures !(available && hostOk) ==> (r.result.Ok? <==> LoadsArray(available, reply, slot))
    ensures !(available && hostOk) && LoadsArray(available, reply, slot) ==>
      r.slot == Json(Arr(Links.Deletar(Loaded(available, reply, slot), id)))
  {
    Fallback(available, hostOk, "DeletarLink", reply, slot, ls => Write(RemoveAll(ls, Links.Id, id)))
  }

  function UpdateEdit(ls: seq<Link>, l: Link): (r: Edit<Link>)
    ensures r.Keep? <==> !Has(ls, Links.Id, l.id)
    ensures r.Write? ==> r.xs == Links.Atualizar(ls, l)
  {
    match FirstIndex(ls, Links.Id, l.id)
    case None => Keep
    case Some(i) => Write(ls[i := l])
  }

  /** AtualizarLink: the fallback saves only when a link has the ID. */
  function AtualizarLink(available: bool, hostOk: bool, reply: Reply<Payload<Link>>, slot: Slot, l: Link): (r: Outcome)
    ensures available && hostOk ==> r.result.Ok? && r.slot == slot
    ensures !(available && hostOk) ==> (r.result.Ok? <==> LoadsArray(available, reply, slot))
    ensures !(available && hostOk) && LoadsArray(available, reply, slot) ==>
      (Has(Loaded(available, reply, slot), Links.Id, l.id) ==>
        r.slot == Json(Arr(Links.Atualizar(Loaded(available, reply, slot), l))))
      && (!Has(Loaded(available, reply, slot), Links.Id, l.id) ==> r.slot == Carregar(available, reply, slot).slot)
  {
    Fallback(available, hostOk, "AtualizarLink", reply, slot, ls => UpdateEdit(ls, l))
  }

  /** Without the bridge and with nothing stored, adding a link and loading gives
      exactly that link. */
  lemma FirstLinkOffline(reply: Reply<Payload<Link>>, l: Link)
    ensures Carregar(false, reply, AdicionarLink(false, false, reply, Absent, l).slot).result == Ok(Arr([l]))
  {
  }

  /** A non-empty string from the bridge is mirrored as it is; from then on
      every offline mutation rejects with a TypeError and saves nothing. */
  lemma StringAnswerPoisons(s: string, slot: Slot, later: Reply<Payload<Link>>, l: Link)
    requires s != ""
    ensures var poisoned := Carregar(true, Answer(Other(Str(s))), slot).slot;
      poisoned == Json(Other(Str(s)))
      && AdicionarLink(false, false, later, poisoned, l) == Run(Err(TypeError), poisoned, [])
      && DeletarLink(false, false, later, poisoned, l.id) == Run(Err(TypeError), poisoned, [])
  {
  }
}

=== FILE: modulos.dfy ===
/** The front end's registry of feature modules (`modulosStore`) and the name of
    the module shown at start-up (`moduloAtivo`). The store is a list of modules
    kept free of duplicate IDs by `registrarModulo`. */
module Modulos {
  import opened Seqs

  /** `component` is an opaque reference to the UI component, compared by
      identity and never inspected. */
  datatype Modulo = Modulo(id: string, nome: string, icone: string, descricao: string, component: nat)

  function Id(m: Modulo): string
  {
    m.id
  }

  /** The module active when the app opens. */
  const Ativo: string := "ideias"

  /** registrarModulo: a module whose ID is already registered is ignored, even
      if its other fields differ; otherwise it goes last. */
  function Registrar(ms: seq<Modulo>, m: Modulo): (r: seq<Modulo>)
    ensures Unique(ms, Id) ==> Unique(r, Id)
    ensures Has(r, Id, m.id)
    ensures forall x :: x in ms ==> x in r
    ensures forall x :: x in r ==> x in ms || x == m
    ensures Has(ms, Id, m.id) <==> r == ms
  {
    if Has(ms, Id, m.id) then ms
    else
      assert (ms + [m])[|ms|] == m;
      ms + [m]
  }

  /** removerModulo: every module with the ID goes, the rest keep their order. */
  function Remover(ms: seq<Modulo>, id: string): (r: seq<Modulo>)
    ensures !Has(r, Id, id)
    ensures forall x :: x in r <==> x in ms && x.id != id
  {
    RemoveAll(ms, Id, id)
  }

  /** reset: the empty registry. */
  function Reset(): (r: seq<Modulo>)
    ensures forall id: string :: !Has(r, Id, id)
  {
    []
  }

  /** Registering the same module twice registers it once. */
  lemma RegistrarIdempotent(ms: seq<Modulo>, m: Modulo)
    ensures Registrar(Registrar(ms, m), m) == Registrar(ms, m)
  {
  }

  /** Registering a new module and removing it again gives back the registry. */
  lemma {:induction false} RemoverRegistrar(ms: seq<Modulo>, m: Modulo)
    requires !Has(ms, Id, m.id)
    ensures Remover(Registrar(ms, m), m.id) == ms
  {
    RemoveAllAppend(ms, [m], Id, m.id);
    assert RemoveAll([m], Id, m.id) == [];
  }

  /** Registration order decides which of two modules with one ID survives: the
      first. */
  lemma FirstRegistrationWins(ms: seq<Modulo>, a: Modulo, b: Modulo)
    requires !Has(ms, Id, a.id) && a.id == b.id
    ensures Registrar(Registrar(ms, a), b) == ms + [a]
  {
    assert (ms + [a])[|ms|] == a;
  }
}

=== FILE: objetivos.dfy ===
/** The Go handler of goals (`ObjetivosHandler`): a flat list of goals. */
module Objetivos {
  import opened Seqs
  import opened GoFiles
  import opened Js

  /** `Progresso` is a float64 that is only stored, never computed with. */
  datatype Objetivo = Objetivo(
    id: string, titulo: string, prazo: string, progresso: Float,
    concluido: bool, createdAt: string)

  function Id(o: Objetivo): string
  {
    o.id
  }

  /** AdicionarObjetivo's list step. */
  function Adicionar(os: seq<Objetivo>, o: Objetivo): (r: seq<Objetivo>)
    ensures |r| == |os| + 1
    ensures r[..|os|] == os && r[|os|] == o
  {
    os + [o]
  }

  /** AtualizarObjetivo's list step. */
  function Atualizar(os: seq<Objetivo>, o: Objetivo): (r: seq<Objetivo>)
    ensures |r| == |os|
    ensures forall i :: IsFirstMatch(os, Id, o.id, i) ==> r == os[i := o]
    ensures !Has(os, Id, o.id) ==> r == os
  {
    ReplaceFirst(os, Id, o)
  }

  /** DeletarObjetivo's list step. */
  function Deletar(os: seq<Objetivo>, id: string): (r: seq<Objetivo>)
    ensures !Has(r, Id, id)
    ensures forall j :: 0 <= j < |os| && os[j].id != id ==> os[j] in r
    ensures !Has(os, Id, id) ==> r == os
  {
    RemoveAll(os, Id, id)
  }

  function AdicionarObjetivo(f: File<Slice<Objetivo>>, o: Objetivo, written: bool): (r: Handled<Slice<Objetivo>>)
    ensures r.ok <==> LoadList(f).ok && written
    ensures !r.ok ==> r.file == f
    ensures r.ok ==> LoadList(r.file).value == Adicionar(LoadList(f).value, o)
  {
    Mutate(f, os => Items(Adicionar(os, o)), written)
  }

  function AtualizarObjetivo(f: File<Slice<Objetivo>>, o: Objetivo, written: bool): (r: Handled<Slice<Objetivo>>)
    ensures r.ok <==> LoadList(f).ok && written
    ensures !r.ok ==> r.file == f
    ensures r.ok ==> LoadList(r.file).value == Atualizar(LoadList(f).value, o)
  {
    Mutate(f, os => Items(Atualizar(os, o)), written)
  }

  /** Unlike the other handlers the filtered slice starts as `[]Objetivo{}`, so the
      saved list is never `null`. */
  function DeletarObjetivo(f: File<Slice<Objetivo>>, id: string, written: bool): (r: Handled<Slice<Objetivo>>)
    ensures r.ok <==> LoadList(f).ok && written
    ensures !r.ok ==> r.file == f
    ensures r.ok ==> r.file.Holds? && r.file.content.Items?
    ensures r.ok ==> LoadList(r.file).value == Deletar(LoadList(f).value, id)
  {
    Mutate(f, os => Items(Deletar(os, id)), written)
  }
}

=== FILE: objetivos_service.dfy ===
/** The TypeScript service of goals (`services/objetivos.ts`), key
    `objetivos_data`. Every loaded record goes through `converterParaObjetivo`,
    and after a successful bridge mutation the list is fetched again and
    mirrored. */
module ObjetivosService {
  import opened Common
  import opened Js
  import opened Seqs
  import opened Dual

  /** A goal as a JavaScript object: after JSON any field may hold any value. */
  datatype ObjetivoJs = ObjetivoJs(
    id: Prim, titulo: Prim, prazo: Prim, progresso: Prim, concluido: Prim, createdAt: Prim)

  /** An element of a loaded array: an object, or another value (`null`, a
      number, a string ...) on which `data?.field` reads `undefined`. */
  datatype Raw = Rec(o: ObjetivoJs) | Scalar(p: Prim)

  function Id(o: ObjetivoJs): Prim
  {
    o.id
  }

  const Blank := ObjetivoJs(Undefined, Undefined, Undefined, Undefined, Undefined, Undefined)

  /** The shape `converterParaObjetivo` produces: text fields truthy or "",
      a number, a boolean and a truthy creation time. */
  predicate Normal(o: ObjetivoJs)
  {
    (Truthy(o.id) || o.id == Str("")) && (Truthy(o.titulo) || o.titulo == Str(""))
    && (Truthy(o.prazo) || o.prazo == Str("")) && o.progresso.Num? && o.concluido.Bool?
    && Truthy(o.createdAt)
  }

  /** converterParaObjetivo, with `now` standing for `new Date().toISOString()`. */
  function Converter(raw: Raw, now: string): (r: ObjetivoJs)
    ensures now != "" ==> Normal(r)
    ensures raw.Rec? && Normal(raw.o) ==> r == raw.o
    ensures raw.Rec? && Truthy(raw.o.id) ==> r.id == raw.o.id
    ensures raw.Scalar? ==> r.id == Str("") && r.concluido == Bool(false) && r.progresso == Num(Zero)
  {
    var d := if raw.Rec? then raw.o else Blank;
    ObjetivoJs(
      Or(d.id, Str("")), Or(d.titulo, Str("")), Or(d.prazo, Str("")),
      if d.progresso.Num? then d.progresso else Num(Zero),
      Bool(Truthy(d.concluido)),
      Or(d.createdAt, Str(now)))
  }

  /** Converting twice is converting once, whatever the second clock reading. */
  lemma ConverterIdempotent(raw: Raw, now: string, later: string)
    requires now != ""
    ensures Converter(Rec(Converter(raw, now)), later) == Converter(raw, now)
  {
  }

  function Recs(os: seq<ObjetivoJs>): (r: seq<Raw>)
    ensures |r| == |os| && forall i :: 0 <= i < |os| ==> r[i] == Rec(os[i])
  {
    seq(|os|, i requires 0 <= i < |os| => Rec(os[i]))
  }

  /** `lista.map(converterParaObjetivo)` */
  function ConvertAll(xs: seq<Raw>, now: string): (r: seq<ObjetivoJs>)
    ensures |r| == |xs| && forall i :: 0 <= i < |xs| ==> r[i] == Converter(xs[i], now)
  {
    seq(|xs|, i requires 0 <= i < |xs| => Converter(xs[i], now))
  }

  /** Normal records pass through the mapping unchanged. */
  lemma ConvertNormal(os: seq<ObjetivoJs>, now: string)
    requires forall i :: 0 <= i < |os| ==> Normal(os[i])
    ensures ConvertAll(Recs(os), now) == os
  {
  }

  type Slot = Dual.Slot<Payload<Raw>>
  type Outcome = Run<(), Payload<Raw>>

  /** `localStorage.setItem(key, JSON.stringify(v))`: `JSON.stringify(undefined)`
      is `undefined`, stored as the text "undefined", which does not parse. */
  function Stored(v: Payload<Raw>): (s: Slot)
    ensures s.Garbage? <==> v == Other(Undefined)
    ensures s.Json? ==> s.value == v
  {
    if v == Other(Undefined) then Garbage else Json(v)
  }

  /** The goals the stored key yields; unparsable text is caught. */
  function FromLocal(slot: Slot, now: string): (r: seq<ObjetivoJs>)
    ensures slot.Json? && slot.value.Arr? ==> r == ConvertAll(slot.value.items, now)
    ensures !(slot.Json? && slot.value.Arr?) ==> r == []
  {
    if slot.Json? && slot.value.Arr? then ConvertAll(slot.value.items, now) else []
  }

  /** CarregarObjetivos: any bridge answer is accepted (a non-array becomes the
      empty list), converted and mirrored; without the bridge, or when it fails,
      the stored array is converted. Never rejects. */
  function Carregar(available: bool, reply: Reply<Payload<Raw>>, slot: Slot, now: string): (r: Run<seq<ObjetivoJs>, Payload<Raw>>)
    ensures r.result.Ok?
    ensures now != "" ==> forall i :: 0 <= i < |r.result.value| ==> Normal(r.result.value[i])
    ensures available && reply.Answer? ==>
      r.slot == Json(Arr(Recs(r.result.value)))
      && r.result.value == (if reply.value.Arr? then ConvertAll(reply.value.items, now) else [])
    ensures !(available && reply.Answer?) ==> r.slot == slot && r.result.value == FromLocal(slot, now)
    ensures CallHost("CarregarObjetivos") in r.trace <==> available
  {
    if available && reply.Answer? then
      var lista := if reply.value.Arr? then ConvertAll(reply.value.items, now) else [];
      Run(Ok(lista), Json(Arr(Recs(lista))), [CallHost("CarregarObjetivos"), WriteLocal])
    else
      Run(Ok(FromLocal(slot, now)), slot, HostCall(available, "CarregarObjetivos"))
  }

  /** The mirror a bridge load writes reads back offline as the same list,
      whatever the clock says then. */
  lemma ReloadOffline(v: Payload<Raw>, slot: Slot, now: string, later: Reply<Payload<Raw>>, laterNow: string)
    requires now != ""
    ensures Carregar(false, later, Carregar(true, Answer(v), slot, now).slot, laterNow).result
         == Carregar(true, Answer(v), slot, now).result
  {
    ConvertNormal(Carregar(true, Answer(v), slot, now).result.value, laterNow);
  }

  function Loaded(available: bool, reply: Reply<Payload<Raw>>, slot: Slot, now: string): seq<ObjetivoJs>
  {
    Carregar(available, reply, slot, now).result.value
  }

  /** The fallback shared by the mutations: load, edit, save (local first). */
  function Fallback(
    available: bool, prefix: seq<Step>, reply: Reply<Payload<Raw>>, slot: Slot, now: string,
    edit: seq<ObjetivoJs> -> seq<Raw>): (r: Outcome)
    ensures r.result.Ok? && r.slot == Json(Arr(edit(Loaded(available, reply, slot, now))))
    ensures CallHost("SalvarObjetivos") in r.trace <==> available || CallHost("SalvarObjetivos") in prefix
  {
    var loaded := Carregar(available, reply, slot, now);
    var saved := SaveList(edit(loaded.result.value), available, "SalvarObjetivos");
    Run(Ok(()), saved.slot, prefix + loaded.trace + saved.trace)
  }

  /** The steps of a bridge mutation followed by the refetch: the refetch is
      only attempted after the mutation succeeded. */
  function BridgeSteps(name: string, mutOk: bool): seq<Step>
  {
    if mutOk then [CallHost(name), CallHost("CarregarObjetivos")] else [CallHost(name)]
  }

  /** AdicionarObjetivo as written: when the refetch after a successful bridge add
      fails, the catch falls back and appends the goal again locally, then saves
      that list to the bridge as well. */
  function AdicionarAsWritten(
    available: bool, addOk: bool, refetch: Reply<Payload<Raw>>,
    reply: Reply<Payload<Raw>>, slot: Slot, o: ObjetivoJs, now: string): (r: Outcome)
    ensures r.result.Ok?
    ensures available && addOk && refetch.Answer? ==> r.slot == Stored(refetch.value)
    ensures !(available && addOk && refetch.Answer?) ==>
      r.slot == Json(Arr(Recs(Loaded(available, reply, slot, now)) + [Rec(o)]))
  {
    if available && addOk && refetch.Answer? then
      Run(Ok(()), Stored(refetch.value), BridgeSteps("AdicionarObjetivo", true) + [WriteLocal])
    else
      var prefix := if available then BridgeSteps("AdicionarObjetivo", addOk) else [];
      Fallback(available, prefix, reply, slot, now, os => Recs(os) + [Rec(o)])
  }

  /** The bridge accepted the goal and already lists it; the refetch fails, the
      fallback's load succeeds, and the goal ends up twice in the mirror and in
      the list handed to SalvarObjetivos. */
  lemma AddedTwice()
    ensures var o := ObjetivoJs(Str("1"), Str("t"), Str(""), Num(Zero), Bool(false), Str("2024-01-01T00:00:00.000Z"));
      var r := AdicionarAsWritten(true, true, Fail, Answer(Arr([Rec(o)])), Absent, o, "2024-01-02T00:00:00.000Z");
      r.slot == Json(Arr([Rec(o), Rec(o)])) && CallHost("SalvarObjetivos") in r.trace
  {
    var o := ObjetivoJs(Str("1"), Str("t"), Str(""), Num(Zero), Bool(false), Str("2024-01-01T00:00:00.000Z"));
    var now := "2024-01-02T00:00:00.000Z";
    assert Normal(o);
    ConvertNormal([o], now);
    assert Loaded(true, Answer(Arr([Rec(o)])), Absent, now) == [o];
    assert Recs([o]) + [Rec(o)] == [Rec(o), Rec(o)];
  }

  /** AdicionarObjetivo with the refetch kept apart from the add: once the bridge
      accepted the goal, a failed refetch leaves the key alone instead of adding
      the goal a second time. */
  function AdicionarObjetivo(
    available: bool, addOk: bool, refetch: Reply<Payload<Raw>>,
    reply: Reply<Payload<Raw>>, slot: Slot, o: ObjetivoJs, now: string): (r: Outcome)
    ensures r.result.Ok?
    ensures available && addOk ==>
      CallHost("SalvarObjetivos") !in r.trace
      && r.slot == (if refetch.Answer? then Stored(refetch.value) else slot)
    ensures !(available && addOk) ==>
      r == AdicionarAsWritten(available, addOk, refetch, reply, slot, o, now)
  {
    if available && addOk then
      match refetch
      case Answer(v) => Run(Ok(()), Stored(v), BridgeSteps("AdicionarObjetivo", true) + [WriteLocal])
      case Fail => Run(Ok(()), slot, BridgeSteps("AdicionarObjetivo", true))
    else AdicionarAsWritten(available, addOk, refetch, reply, slot, o, now)
  }

  /** DeletarObjetivo: bridge delete and refetch, or the fallback's filter. */
  function DeletarObjetivo(
    available: bool, delOk: bool, refetch: Reply<Payload<Raw>>,
    reply: Reply<Payload<Raw>>, slot: Slot, id: string, now: string): (r: Outcome)
    ensures r.result.Ok?
    ensures available && delOk && refetch.Answer? ==> r.slot == Stored(refetch.value)
    ensures !(available && delOk && refetch.Answer?) ==>
      r.slot == Json(Arr(Recs(RemoveAll(Loaded(available, reply, slot, now), Id, Str(id)))))
  {
    if available && delOk && refetch.Answer? then
      Run(Ok(()), Stored(refetch.value), BridgeSteps("DeletarObjetivo", true) + [WriteLocal])
    else
      var prefix := if available then BridgeSteps("DeletarObjetivo", delOk) else [];
      Fallback(available, prefix, reply, slot, now, os => Recs(RemoveAll(os, Id, Str(id))))
  }

  /** AtualizarObjetivo: the fallback replaces the first goal with the ID and
      saves even when none has it. */
  function AtualizarObjetivo(
    available: bool, updOk: bool, refetch: Reply<Payload<Raw>>,
    reply: Reply<Payload<Raw>>, slot: Slot, o: ObjetivoJs, now: string): (r: Outcome)
    requires o.id.Str?
    ensures r.result.Ok?
    ensures available && updOk && refetch.Answer? ==> r.slot == Stored(refetch.value)
    ensures !(available && updOk && refetch.Answer?) ==>
      r.slot == Json(Arr(Recs(ReplaceFirst(Loaded(available, reply, slot, now), Id, o))))
  {
    if available && updOk && refetch.Answer? then
      Run(Ok(()), Stored(refetch.value), BridgeSteps("AtualizarObjetivo", true) + [WriteLocal])
    else
      var prefix := if available then BridgeSteps("AtualizarObjetivo", updOk) else [];
      Fallback(available, prefix, reply, slot, now, os => Recs(ReplaceFirst(os, Id, o)))
  }

  /** Offline, an added goal is read back after the goals read before. */
  lemma OfflineAddReads(reply: Reply<Payload<Raw>>, slot: Slot, o: ObjetivoJs, now: string)
    requires now != "" && Normal(o)
    ensures FromLocal(AdicionarObjetivo(false, false, Fail, reply, slot, o, now).slot, now) == FromLocal(slot, now) + [o]
  {
    var os := FromLocal(slot, now);
    assert Recs(os) + [Rec(o)] == Recs(os + [o]);
    ConvertNormal(os + [o], now);
  }

  /** Offline, a goal added and then deleted by its fresh ID leaves the list as
      loaded. */
  lemma {:induction false} OfflineAddThenDelete(reply: Reply<Payload<Raw>>, slot: Slot, o: ObjetivoJs, now: string)
    requires now != "" && o.id.Str? && Normal(o)
    requires !Has(FromLocal(slot, now), Id, o.id)
    ensures var added := AdicionarObjetivo(false, false, Fail, reply, slot, o, now).slot;
      FromLocal(DeletarObjetivo(false, false, Fail, reply, added, o.id.s, now).slot, now) == FromLocal(slot, now)
  {
    var os := FromLocal(slot, now);
    var added := AdicionarObjetivo(false, false, Fail, reply, slot, o, now).slot;
    OfflineAddReads(reply, slot, o, now);
    RemoveAllAppend(os, [o], Id, o.id);
    assert RemoveAll([o], Id, o.id) == [];
    assert RemoveAll(os + [o], Id, o.id) == os;
    ConvertNormal(os, now);
  }
}

=== FILE: passos.dfy ===
/** The Go handler of the steps list (`PassosHandler`): a list of steps whose
    `Ordem` field numbers them 1, 2, …, n in list order. */
module Passos {
  import opened Common
  import opened Seqs
  import opened GoFiles

  datatype Passo = Passo(id: string, descricao: string, concluido: bool, ordem: int, createdAt: string)

  function Id(p: Passo): string
  {
    p.id
  }

  /** Every step's `Ordem` is its 1-based position. */
  predicate Dense(ps: seq<Passo>)
  {
    forall i :: 0 <= i < |ps| ==> ps[i].ordem == i + 1
  }

  /** A step with its position number erased: what reordering permutes. */
  function Unnumbered(p: Passo): Passo
  {
    p.(ordem := 0)
  }

  function Forget(ps: seq<Passo>): seq<Passo>
  {
    seq(|ps|, i requires 0 <= i < |ps| => Unnumbered(ps[i]))
  }

  /** The `for i := range … { …Ordem = i + 1 }` loops. */
  function Renumber(ps: seq<Passo>): (r: seq<Passo>)
    ensures |r| == |ps|
    ensures Dense(r)
    ensures Forget(r) == Forget(ps)
  {
    seq(|ps|, i requires 0 <= i < |ps| => ps[i].(ordem := i + 1))
  }

  /** A dense list is its own renumbering. */
  lemma RenumberDense(ps: seq<Passo>)
    requires Dense(ps)
    ensures Renumber(ps) == ps
  {
  }

  /** AdicionarPasso's list step: the new step goes last with `Ordem = len + 1`. */
  function Adicionar(ps: seq<Passo>, p: Passo): (r: seq<Passo>)
    ensures |r| == |ps| + 1
    ensures r[..|ps|] == ps
    ensures Unnumbered(r[|ps|]) == Unnumbered(p) && r[|ps|].ordem == |ps| + 1
    ensures Dense(ps) ==> Dense(r)
  {
    ps + [p.(ordem := |ps| + 1)]
  }

  /** AtualizarPasso's list step: the first step with the same ID becomes the
      caller's record, `Ordem` included. */
  function Atualizar(ps: seq<Passo>, p: Passo): (r: seq<Passo>)
    ensures |r| == |ps|
    ensures forall i :: IsFirstMatch(ps, Id, p.id, i) ==> r == ps[i := p]
    ensures !Has(ps, Id, p.id) ==> r == ps
  {
    ReplaceFirst(ps, Id, p)
  }

  /** DeletarPasso's list step: drop every step with the ID, then renumber. */
  function Deletar(ps: seq<Passo>, id: string): (r: seq<Passo>)
    ensures Dense(r)
    ensures !Has(r, Id, id)
    ensures Forget(r) == Forget(RemoveAll(ps, Id, id))
    ensures !Has(ps, Id, id) ==> Forget(r) == Forget(ps)
  {
    var kept := RemoveAll(ps, Id, id);
    var r := Renumber(kept);
    assert !Has(r, Id, id) by {
      forall j | 0 <= j < |r| ensures r[j].id != id {
        assert Unnumbered(r[j]) == Forget(r)[j] == Forget(kept)[j] == Unnumbered(kept[j]);
      }
    }
    r
  }

  /** The index MoverPasso works on: the first match, or Go's zero value 0 when
      no step has the ID. */
  function GoIndex(ps: seq<Passo>, id: string): (idx: nat)
    ensures Has(ps, Id, id) ==> IsFirstMatch(ps, Id, id, idx)
    ensures !Has(ps, Id, id) ==> idx == 0
  {
    match FirstIndex(ps, Id, id)
    case Some(i) => i
    case None => 0
  }

  /** The exchange MoverPasso performs before renumbering: with the previous
      step for "cima" when not first, with the next one for "baixo" when not last. */
  function Swapped(ps: seq<Passo>, id: string, direcao: string): (r: seq<Passo>)
    ensures |r| == |ps|
    ensures multiset(r) == multiset(ps)
    ensures forall i :: IsFirstMatch(ps, Id, id, i) && direcao == "cima" && i > 0 ==>
              r[i - 1] == ps[i] && r[i] == ps[i - 1]
              && forall k :: 0 <= k < |ps| && k != i - 1 && k != i ==> r[k] == ps[k]
    ensures forall i :: IsFirstMatch(ps, Id, id, i) && direcao == "baixo" && i < |ps| - 1 ==>
              r[i] == ps[i + 1] && r[i + 1] == ps[i]
              && forall k :: 0 <= k < |ps| && k != i && k != i + 1 ==> r[k] == ps[k]
    ensures forall i ::
              IsFirstMatch(ps, Id, id, i) && !(direcao == "cima" && i > 0) && !(direcao == "baixo" && i < |ps| - 1)
              ==> r == ps
  {
    var idx := GoIndex(ps, id);
    if direcao == "cima" && idx > 0 && idx < |ps| then Swap(ps, idx - 1, idx)
    else if direcao == "baixo" && idx < |ps| - 1 then Swap(ps, idx, idx + 1)
    else ps
  }

  /** Erasing positions commutes with the exchange. */
  lemma ForgetSwap(ps: seq<Passo>, i: nat, j: nat)
    requires i < |ps| && j < |ps|
    ensures Forget(Swap(ps, i, j)) == Swap(Forget(ps), i, j)
  {
  }

  /** Up to position numbers, the exchange is a permutation. */
  lemma SwappedPermutes(ps: seq<Passo>, id: string, direcao: string)
    ensures multiset(Forget(Swapped(ps, id, direcao))) == multiset(Forget(ps))
  {
    var idx := GoIndex(ps, id);
    if direcao == "cima" && idx > 0 && idx < |ps| {
      ForgetSwap(ps, idx - 1, idx);
    } else if direcao == "baixo" && idx < |ps| - 1 {
      ForgetSwap(ps, idx, idx + 1);
    }
  }

  /** MoverPasso's list step. */
  function Mover(ps: seq<Passo>, id: string, direcao: string): (r: seq<Passo>)
    ensures |r| == |ps|
    ensures Dense(r)
    ensures multiset(Forget(r)) == multiset(Forget(ps))
    ensures forall i :: IsFirstMatch(ps, Id, id, i) && direcao == "cima" && i > 0 ==>
              Forget(r) == Forget(Swap(ps, i - 1, i))
    ensures forall i :: IsFirstMatch(ps, Id, id, i) && direcao == "baixo" && i < |ps| - 1 ==>
              Forget(r) == Forget(Swap(ps, i, i + 1))
    ensures forall i ::
              IsFirstMatch(ps, Id, id, i) && !(direcao == "cima" && i > 0) && !(direcao == "baixo" && i < |ps| - 1)
              ==> Forget(r) == Forget(ps)
  {
    var s := Swapped(ps, id, direcao);
    SwappedPermutes(ps, id, direcao);
    Renumber(s)
  }

  /** ToggleConcluido's list step: flip `Concluido` of the first step with the ID. */
  function Toggle(ps: seq<Passo>, id: string): (r: seq<Passo>)
    ensures |r| == |ps|
    ensures forall i :: IsFirstMatch(ps, Id, id, i) ==>
              r == ps[i := ps[i].(concluido := !ps[i].concluido)]
    ensures !Has(ps, Id, id) ==> r == ps
  {
    match FirstIndex(ps, Id, id)
    case None => ps
    case Some(i) => ps[i := ps[i].(concluido := !ps[i].concluido)]
  }

  /** Moving the first step up, or the last step down, exchanges nothing: only
      the numbering is rewritten (and a dense list comes back unchanged). */
  lemma MoverBoundary(ps: seq<Passo>, id: string)
    requires |ps| > 0
    ensures IsFirstMatch(ps, Id, id, 0) ==> Mover(ps, id, "cima") == Renumber(ps)
    ensures IsFirstMatch(ps, Id, id, |ps| - 1) ==> Mover(ps, id, "baixo") == Renumber(ps)
    ensures Dense(ps) ==> Renumber(ps) == ps
  {
    if IsFirstMatch(ps, Id, id, 0) {
      assert GoIndex(ps, id) == 0;
    }
    if IsFirstMatch(ps, Id, id, |ps| - 1) {
      assert GoIndex(ps, id) == |ps| - 1;
    }
  }

  /** Moving a step up and then the same step down restores the original order. */
  lemma MoverUpThenDown(ps: seq<Passo>, id: string, i: nat)
    requires IsFirstMatch(ps, Id, id, i) && i > 0
    ensures Mover(Mover(ps, id, "cima"), id, "baixo") == Renumber(ps)
  {
    assert GoIndex(ps, id) == i;
    var up := Swap(ps, i - 1, i);
    var a := Mover(ps, id, "cima");
    assert a == Renumber(up);
    assert IsFirstMatch(a, Id, id, i - 1) by {
      assert Forget(a)[i - 1] == Forget(up)[i - 1];
      forall j | 0 <= j < i - 1 ensures a[j].id != id {
        assert Forget(a)[j] == Forget(up)[j];
      }
    }
    assert GoIndex(a, id) == i - 1;
    var down := Swap(a, i - 1, i);
    assert Mover(a, id, "baixo") == Renumber(down);
    assert Forget(down) == Forget(ps) by {
      forall j | 0 <= j < |ps| ensures Forget(down)[j] == Forget(ps)[j] {
        assert Forget(a)[j] == Forget(up)[j];
        if j == i - 1 {
          assert Forget(down)[j] == Forget(a)[i] == Forget(up)[i];
        } else if j == i {
          assert Forget(down)[j] == Forget(a)[i - 1] == Forget(up)[i - 1];
        }
      }
    }
    RenumberForget(down, ps);
  }

  /** Two lists equal up to numbering renumber to the same list. */
  lemma RenumberForget(a: seq<Passo>, b: seq<Passo>)
    requires Forget(a) == Forget(b)
    ensures Renumber(a) == Renumber(b)
  {
    assert |a| == |Forget(a)| == |Forget(b)| == |b|;
    forall j | 0 <= j < |a| ensures Renumber(a)[j] == Renumber(b)[j] {
      assert Forget(a)[j] == Forget(b)[j];
    }
  }

  /** With an ID no step has, the index stays at Go's zero value: "cima" only
      renumbers, while "baixo" exchanges the first two steps. */
  lemma MoverUnknown(ps: seq<Passo>, id: string)
    requires !Has(ps, Id, id)
    ensures Mover(ps, id, "cima") == Renumber(ps)
    ensures |ps| >= 2 ==> Mover(ps, id, "baixo") == Renumber([ps[1], ps[0]] + ps[2..])
  {
    assert GoIndex(ps, id) == 0;
    if |ps| >= 2 {
      assert Swap(ps, 0, 1) == [ps[1], ps[0]] + ps[2..];
    }
  }

  /** Toggling keeps the numbering and every identifier, and toggling twice is the
      identity. */
  lemma ToggleTwice(ps: seq<Passo>, id: string)
    ensures Dense(ps) ==> Dense(Toggle(ps, id))
    ensures Toggle(Toggle(ps, id), id) == ps
  {
    match FirstIndex(ps, Id, id)
    case None =>
    case Some(i) =>
      var t := Toggle(ps, id);
      assert t == ps[i := ps[i].(concluido := !ps[i].concluido)];
      assert IsFirstMatch(t, Id, id, i);
  }

  /** The list operations that keep `Ordem` dense by construction. */
  datatype Op = Add(p: Passo) | Delete(id: string) | Move(id: string, direcao: string) | Flip(id: string)

  function Apply(ps: seq<Passo>, op: Op): seq<Passo>
  {
    match op
    case Add(p) => Adicionar(ps, p)
    case Delete(id) => Deletar(ps, id)
    case Move(id, d) => Mover(ps, id, d)
    case Flip(id) => Toggle(ps, id)
  }

  function ApplyAll(ps: seq<Passo>, ops: seq<Op>): seq<Passo>
    decreases |ops|
  {
    if |ops| == 0 then ps else ApplyAll(Apply(ps, ops[0]), ops[1..])
  }

  /** After any sequence of add, delete, move and toggle operations, `Ordem` is
      still exactly 1..n in list order. */
  lemma {:induction false} OpsKeepDense(ps: seq<Passo>, ops: seq<Op>)
    requires Dense(ps)
    ensures Dense(ApplyAll(ps, ops))
    decreases |ops|
  {
    if |ops| > 0 {
      if ops[0].Flip? {
        ToggleTwice(ps, ops[0].id);
      }
      OpsKeepDense(Apply(ps, ops[0]), ops[1..]);
    }
  }

  // The handler methods: load the data file, apply the list step, save.

  function AdicionarPasso(f: File<Slice<Passo>>, p: Passo, written: bool): (r: Handled<Slice<Passo>>)
    ensures r.ok <==> LoadList(f).ok && written
    ensures !r.ok ==> r.file == f
    ensures r.ok ==> LoadList(r.file).value == Adicionar(LoadList(f).value, p)
  {
    Mutate(f, ps => Items(Adicionar(ps, p)), written)
  }

  function AtualizarPasso(f: File<Slice<Passo>>, p: Passo, written: bool): (r: Handled<Slice<Passo>>)
    ensures r.ok <==> LoadList(f).ok && written
    ensures !r.ok ==> r.file == f
    ensures r.ok ==> LoadList(r.file).value == Atualizar(LoadList(f).value, p)
  {
    Mutate(f, ps => Items(Atualizar(ps, p)), written)
  }

  /** The filtered slice starts nil, so deleting the last step saves `null`. */
  function DeletarPasso(f: File<Slice<Passo>>, id: string, written: bool): (r: Handled<Slice<Passo>>)
    ensures r.ok <==> LoadList(f).ok && written
    ensures !r.ok ==> r.file == f
    ensures r.ok ==> LoadList(r.file).value == Deletar(LoadList(f).value, id)
    ensures r.ok && |Deletar(LoadList(f).value, id)| == 0 ==> r.file == Holds(Nil)
  {
    Mutate(f, ps => Collect(Deletar(ps, id)), written)
  }

  function MoverPasso(f: File<Slice<Passo>>, id: string, direcao: string, written: bool): (r: Handled<Slice<Passo>>)
    ensures r.ok <==> LoadList(f).ok && written
    ensures !r.ok ==> r.file == f
    ensures r.ok ==> LoadList(r.file).value == Mover(LoadList(f).value, id, direcao)
  {
    Mutate(f, ps => Items(Mover(ps, id, direcao)), written)
  }

  function ToggleConcluido(f: File<Slice<Passo>>, id: string, written: bool): (r: Handled<Slice<Passo>>)
    ensures r.ok <==> LoadList(f).ok && written
    ensures !r.ok ==> r.file == f
    ensures r.ok ==> LoadList(r.file).value == Toggle(LoadList(f).value, id)
  {
    Mutate(f, ps => Items(Toggle(ps, id)), written)
  }
}

=== FILE: passos_service.dfy ===
/** The TypeScript service of the step list (`services/passos.ts`), key
    `passos_data`. Its fallbacks recompute in the page what the Go handler
    computes, and the lemmas below say how far the two agree. */
module PassosService {
  import opened Common
  import opened Seqs
  import opened Dual
  import Passos

  type Passo = Passos.Passo
  type Slot = Dual.Slot<Payload<Passo>>
  type Outcome = Run<(), Payload<Passo>>

  function Carregar(available: bool, reply: Reply<Payload<Passo>>, slot: Slot): Run<seq<Passo>, Payload<Passo>>
  {
    LoadChecked(available, "CarregarPassos", reply, slot)
  }

  /** The list a fallback starts from. */
  function Loaded(available: bool, reply: Reply<Payload<Passo>>, slot: Slot): seq<Passo>
  {
    Carregar(available, reply, slot).result.value
  }

  function Salvar(ps: seq<Passo>, available: bool): Outcome
  {
    SaveList(ps, available, "SalvarPassos")
  }

  /** AdicionarPasso: the fallback numbers the step after the last one and
      appends it, as the Go handler does. */
  function AdicionarPasso(available: bool, hostOk: bool, reply: Reply<Payload<Passo>>, slot: Slot, p: Passo): (r: Outcome)
    ensures r.result.Ok?
    ensures available && hostOk ==> r.slot == slot && r.trace == [CallHost("AdicionarPasso")]
    ensures !(available && hostOk) ==>
      r.slot == Json(Arr(Passos.Adicionar(Loaded(available, reply, slot), p)))
  {
    Mutation(available, hostOk, "AdicionarPasso", "CarregarPassos", "SalvarPassos", reply, slot,
      ps => Write(Passos.Adicionar(ps, p)))
  }

  /** findIndex, then replace. */
  function UpdateEdit(ps: seq<Passo>, p: Passo): (e: Edit<Passo>)
    ensures e.Keep? <==> !Has(ps, Passos.Id, p.id)
    ensures e.Write? ==> e.xs == Passos.Atualizar(ps, p)
  {
    match FirstIndex(ps, Passos.Id, p.id)
    case None => Keep
    case Some(i) => Write(ps[i := p])
  }

  /** AtualizarPasso: the fallback saves only when a step has the ID. */
  function AtualizarPasso(available: bool, hostOk: bool, reply: Reply<Payload<Passo>>, slot: Slot, p: Passo): (r: Outcome)
    ensures r.result.Ok?
    ensures available && hostOk ==> r.slot == slot
    ensures !(available && hostOk) && Has(Loaded(available, reply, slot), Passos.Id, p.id) ==>
      r.slot == Json(Arr(Passos.Atualizar(Loaded(available, reply, slot), p)))
    ensures !(available && hostOk) && !Has(Loaded(available, reply, slot), Passos.Id, p.id) ==>
      r.slot == Carregar(available, reply, slot).slot
  {
    Mutation(available, hostOk, "AtualizarPasso", "CarregarPassos", "SalvarPassos", reply, slot,
      ps => UpdateEdit(ps, p))
  }

  /** DeletarPasso: filter, renumber from 1, save. */
  function DeletarPasso(available: bool, hostOk: bool, reply: Reply<Payload<Passo>>, slot: Slot, id: string): (r: Outcome)
    ensures r.result.Ok?
    ensures available && hostOk ==> r.slot == slot
    ensures !(available && hostOk) ==>
      r.slot == Json(Arr(Passos.Deletar(Loaded(available, reply, slot), id)))
  {
    Mutation(available, hostOk, "DeletarPasso", "CarregarPassos", "SalvarPassos", reply, slot,
      ps => Write(Passos.Renumber(RemoveAll(ps, Passos.Id, id))))
  }

  /** The fallback of MoverPasso. `findIndex` gives -1 for an unknown ID; with
      "baixo" and a non-empty list `-1 < length - 1` holds, the exchange writes
      `undefined` into slot 0 and the renumbering then throws on it. */
  function MoverEdit(ps: seq<Passo>, id: string, direcao: string): (e: Edit<Passo>)
    ensures !e.Keep?
    ensures e.Crash? <==> !Has(ps, Passos.Id, id) && direcao == "baixo" && |ps| > 0
    ensures e.Crash? ==> e.failure == TypeError
  {
    match FirstIndex(ps, Passos.Id, id)
    case None =>
      if direcao == "baixo" && |ps| > 0 then Crash(TypeError) else Write(Passos.Renumber(ps))
    case Some(idx) =>
      if direcao == "cima" && idx > 0 then Write(Passos.Renumber(Swap(ps, idx - 1, idx)))
      else if direcao == "baixo" && idx < |ps| - 1 then Write(Passos.Renumber(Swap(ps, idx, idx + 1)))
      else Write(Passos.Renumber(ps))
  }

  /** For a known ID, and for an unknown one unless moving down, the fallback
      computes what the Go handler computes. */
  lemma MoverAgrees(ps: seq<Passo>, id: string, direcao: string)
    requires Has(ps, Passos.Id, id) || direcao != "baixo" || |ps| == 0
    ensures MoverEdit(ps, id, direcao) == Write(Passos.Mover(ps, id, direcao))
  {
    if !Has(ps, Passos.Id, id) {
      assert Passos.GoIndex(ps, id) == 0;
    }
  }

  /** MoverPasso: rejects with a TypeError, after the load and before any save,
      exactly for an unknown ID moved down in a non-empty list, where the Go
      handler instead exchanges the first two steps. */
  function MoverPasso(available: bool, hostOk: bool, reply: Reply<Payload<Passo>>, slot: Slot, id: string, direcao: string): (r: Outcome)
    ensures available && hostOk ==> r.result.Ok? && r.slot == slot
    ensures !(available && hostOk) ==>
      var ps := Loaded(available, reply, slot);
      (r.result.Err? <==> !Has(ps, Passos.Id, id) && direcao == "baixo" && |ps| > 0)
      && (r.result.Err? ==> r.result.failure == TypeError && r.slot == Carregar(available, reply, slot).slot)
      && (r.result.Ok? ==> r.slot == Json(Arr(Passos.Mover(ps, id, direcao))))
  {
    FallbackMoverAgrees(Loaded(available, reply, slot), id, direcao);
    Mutation(available, hostOk, "MoverPasso", "CarregarPassos", "SalvarPassos", reply, slot,
      ps => MoverEdit(ps, id, direcao))
  }

  lemma FallbackMoverAgrees(ps: seq<Passo>, id: string, direcao: string)
    ensures !(!Has(ps, Passos.Id, id) && direcao == "baixo" && |ps| > 0) ==>
      MoverEdit(ps, id, direcao) == Write(Passos.Mover(ps, id, direcao))
  {
    if !(!Has(ps, Passos.Id, id) && direcao == "baixo" && |ps| > 0) {
      MoverAgrees(ps, id, direcao);
    }
  }

  /** find, then flip `concluido` in place. */
  function ToggleEdit(ps: seq<Passo>, id: string): (e: Edit<Passo>)
    ensures e.Keep? <==> !Has(ps, Passos.Id, id)
    ensures e.Write? ==> e.xs == Passos.Toggle(ps, id)
  {
    match FirstIndex(ps, Passos.Id, id)
    case None => Keep
    case Some(i) => Write(ps[i := ps[i].(concluido := !ps[i].concluido)])
  }

  /** ToggleConcluido: the fallback saves only when a step has the ID. */
  function ToggleConcluido(available: bool, hostOk: bool, reply: Reply<Payload<Passo>>, slot: Slot, id: string): (r: Outcome)
    ensures r.result.Ok?
    ensures available && hostOk ==> r.slot == slot
    ensures !(available && hostOk) && Has(Loaded(available, reply, slot), Passos.Id, id) ==>
      r.slot == Json(Arr(Passos.Toggle(Loaded(available, reply, slot), id)))
    ensures !(available && hostOk) && !Has(Loaded(available, reply, slot), Passos.Id, id) ==>
      r.slot == Carregar(available, reply, slot).slot
  {
    Mutation(available, hostOk, "ToggleConcluido", "CarregarPassos", "SalvarPassos", reply, slot,
      ps => ToggleEdit(ps, id))
  }
}

=== FILE: planejamento.dfy ===
/** The Go handler of the kanban board (`PlanejamentoHandler`): three columns of
    tasks, selected by the status strings "objetivo", "fazendo" and "feito". */
module Planejamento {
  import opened Common
  import opened Seqs
  import opened GoFiles

  datatype Tarefa = Tarefa(id: string, titulo: string, descricao: string, status: string, createdAt: string)

  function Id(t: Tarefa): string
  {
    t.id
  }

  datatype Coluna = Objetivo | Fazendo | Feito

  function Nome(c: Coluna): string
  {
    match c
    case Objetivo => "objetivo"
    case Fazendo => "fazendo"
    case Feito => "feito"
  }

  /** The `switch status` every handler method starts with; None is the case no
      branch matches. */
  function ColunaDe(status: string): (r: Option<Coluna>)
    ensures r.Some? ==> Nome(r.value) == status
    ensures r.None? <==> forall c: Coluna :: Nome(c) != status
  {
    if status == "objetivo" then Some(Objetivo)
    else if status == "fazendo" then Some(Fazendo)
    else if status == "feito" then Some(Feito)
    else None
  }

  lemma ColunaDeNome(c: Coluna)
    ensures ColunaDe(Nome(c)) == Some(c)
  {
  }

  datatype Quadro = Quadro(objetivo: Slice<Tarefa>, fazendo: Slice<Tarefa>, feito: Slice<Tarefa>)

  function Get(q: Quadro, c: Coluna): Slice<Tarefa>
  {
    match c
    case Objetivo => q.objetivo
    case Fazendo => q.fazendo
    case Feito => q.feito
  }

  function Put(q: Quadro, c: Coluna, s: Slice<Tarefa>): (r: Quadro)
    ensures Get(r, c) == s
    ensures forall d :: d != c ==> Get(r, d) == Get(q, d)
  {
    match c
    case Objetivo => q.(objetivo := s)
    case Fazendo => q.(fazendo := s)
    case Feito => q.(feito := s)
  }

  /** Replacing one column changes the total by the difference in its size. */
  lemma TotalPut(q: Quadro, c: Coluna, s: Slice<Tarefa>)
    ensures Total(Put(q, c, s)) == Total(q) - |Tasks(q, c)| + |Elems(s)|
  {
  }

  /** Tasks of one column. */
  function Tasks(q: Quadro, c: Coluna): seq<Tarefa>
  {
    Elems(Get(q, c))
  }

  /** Number of tasks on the whole board. */
  function Total(q: Quadro): nat
  {
    |Tasks(q, Objetivo)| + |Tasks(q, Fazendo)| + |Tasks(q, Feito)|
  }

  predicate NonNil(q: Quadro)
  {
    forall c :: !Get(q, c).Nil?
  }

  /** quadroVazio. */
  const Vazio: Quadro := Quadro(Items([]), Items([]), Items([]))

  /** garantirColunas: a nil column becomes an empty one, others stay. */
  function GarantirColunas(q: Quadro): (r: Quadro)
    ensures NonNil(r)
    ensures forall c :: Tasks(r, c) == Tasks(q, c)
    ensures forall c :: !Get(q, c).Nil? ==> Get(r, c) == Get(q, c)
  {
    Quadro(
      if q.objetivo.Nil? then Items([]) else q.objetivo,
      if q.fazendo.Nil? then Items([]) else q.fazendo,
      if q.feito.Nil? then Items([]) else q.feito)
  }

  lemma GarantirColunasIdempotent(q: Quadro)
    ensures GarantirColunas(GarantirColunas(q)) == GarantirColunas(q)
    ensures NonNil(q) ==> GarantirColunas(q) == q
  {
    if NonNil(q) {
      assert !Get(q, Objetivo).Nil? && !Get(q, Fazendo).Nil? && !Get(q, Feito).Nil?;
    }
  }

  /** AdicionarTarefa's board step: append to the column named by the task's
      status; an unknown status matches no case and changes nothing. */
  function Adicionar(q: Quadro, t: Tarefa): (r: Quadro)
    ensures ColunaDe(t.status).None? ==> r == q
    ensures forall c :: Nome(c) == t.status ==> Tasks(r, c) == Tasks(q, c) + [t]
    ensures forall c :: Nome(c) != t.status ==> Get(r, c) == Get(q, c)
  {
    match ColunaDe(t.status)
    case None => q
    case Some(c) => Put(q, c, Items(Tasks(q, c) + [t]))
  }

  /** MoverTarefa's board step. None when the origin column has no task with the
      ID: the handler then returns without saving. Otherwise the first match leaves
      the origin, gets `Status = destino` and is appended to the destination; an
      unknown destination matches no case, so the task is dropped. An unknown origin
      dereferences a nil pointer in the handler and is excluded. */
  function Mover(q: Quadro, id: string, origem: string, destino: string): (r: Option<Quadro>)
    requires ColunaDe(origem).Some?
    ensures r.None? <==> !Has(Tasks(q, ColunaDe(origem).value), Id, id)
    ensures r.Some? && ColunaDe(destino).Some? ==> Total(r.value) == Total(q)
    ensures r.Some? && ColunaDe(destino).None? ==> Total(r.value) == Total(q) - 1
    ensures r.Some? ==> forall c :: Nome(c) != origem && Nome(c) != destino ==> Get(r.value, c) == Get(q, c)
    ensures ColunaDe(destino).None? ==>
              var src := Tasks(q, ColunaDe(origem).value);
              forall i :: IsFirstMatch(src, Id, id, i) ==>
                r.Some? && Tasks(r.value, ColunaDe(origem).value) == src[..i] + src[i + 1..]
  {
    var o := ColunaDe(origem).value;
    var src := Tasks(q, o);
    match FirstIndex(src, Id, id)
    case None => None
    case Some(i) =>
      var moved := src[i].(status := destino);
      var q1 := Put(q, o, Items(src[..i] + src[i + 1..]));
      match ColunaDe(destino)
      case None => Some(q1)
      case Some(d) => Some(Put(q1, d, Items(Tasks(q1, d) + [moved])))
  }

  /** DeletarTarefa's board step: filter the named column. The filtered slice
      starts nil, so emptying a column leaves it nil until the save fixes it. */
  function Deletar(q: Quadro, id: string, status: string): (r: Quadro)
    requires ColunaDe(status).Some?
    ensures forall c :: Nome(c) == status ==> Tasks(r, c) == RemoveAll(Tasks(q, c), Id, id)
    ensures forall c :: Nome(c) != status ==> Get(r, c) == Get(q, c)
  {
    var c := ColunaDe(status).value;
    Put(q, c, Collect(RemoveAll(Tasks(q, c), Id, id)))
  }

  /** AtualizarTarefa's board step: the first match in the named column becomes the
      caller's record; its status is not forced to the column. */
  function Atualizar(q: Quadro, t: Tarefa, status: string): (r: Quadro)
    requires ColunaDe(status).Some?
    ensures forall c :: Nome(c) == status ==> Tasks(r, c) == ReplaceFirst(Tasks(q, c), Id, t)
    ensures forall c :: Nome(c) != status ==> Get(r, c) == Get(q, c)
  {
    var c := ColunaDe(status).value;
    Put(q, c, Items(ReplaceFirst(Tasks(q, c), Id, t)))
  }

  /** Where a found task ends up: removed from its position in the origin and
      appended, with the destination as status, at the end of the destination —
      which is the origin itself when both are the same column. */
  lemma MoverMoves(q: Quadro, id: string, o: Coluna, d: Coluna, i: nat)
    requires IsFirstMatch(Tasks(q, o), Id, id, i)
    ensures var src := Tasks(q, o);
            var moved := src[i].(status := Nome(d));
            Mover(q, id, Nome(o), Nome(d)).Some? &&
            var r := Mover(q, id, Nome(o), Nome(d)).value;
            && (o != d ==> Tasks(r, o) == src[..i] + src[i + 1..] && Tasks(r, d) == Tasks(q, d) + [moved])
            && (o == d ==> Tasks(r, o) == src[..i] + src[i + 1..] + [moved])
  {
    ColunaDeNome(o);
    ColunaDeNome(d);
    assert FirstIndex(Tasks(q, o), Id, id) == Some(i);
  }

  /** CarregarQuadro: a missing file is the empty board; a decoded board gets its
      nil columns filled. On a read or decode error the handler returns an error,
      and every caller discards the board that comes with it. */
  function CarregarQuadro(f: File<Quadro>): (r: Loaded<Quadro>)
    ensures NonNil(r.value)
    ensures r.ok <==> f.Missing? || f.Holds?
    ensures f.Holds? ==> forall c :: Tasks(r.value, c) == Tasks(f.content, c)
    ensures !f.Holds? ==> r.value == Vazio
  {
    match f
    case Missing => Loaded(Vazio, true)
    case Holds(q) => Loaded(GarantirColunas(q), true)
    case _ => Loaded(Vazio, false)
  }

  /** SalvarQuadro: columns are made non-nil before writing. `written` says
      whether `json.MarshalIndent` and `os.WriteFile` succeeded; a failed write
      is returned as the error and the file is left as it was. */
  function SalvarQuadro(f: File<Quadro>, q: Quadro, written: bool): (r: Handled<Quadro>)
    ensures r.ok <==> written
    ensures !r.ok ==> r.file == f
    ensures r.ok ==> r.file.Holds? && NonNil(r.file.content)
    ensures r.ok ==> forall c :: Tasks(r.file.content, c) == Tasks(q, c)
  {
    if written then Handled(Holds(GarantirColunas(q)), true) else Handled(f, false)
  }

  /** A saved board reads back with the same tasks in every column. */
  lemma LoadAfterSaveQuadro(f: File<Quadro>, q: Quadro)
    ensures CarregarQuadro(SalvarQuadro(f, q, true).file).ok
    ensures forall c :: Tasks(CarregarQuadro(SalvarQuadro(f, q, true).file).value, c) == Tasks(q, c)
  {
  }

  function AdicionarTarefa(f: File<Quadro>, t: Tarefa, written: bool): (r: Handled<Quadro>)
    ensures r.ok <==> CarregarQuadro(f).ok && written
    ensures !r.ok ==> r.file == f
    ensures r.ok ==> r.file.Holds? && NonNil(r.file.content)
    ensures r.ok ==> forall c :: Tasks(r.file.content, c) == Tasks(Adicionar(CarregarQuadro(f).value, t), c)
  {
    var loaded := CarregarQuadro(f);
    if !loaded.ok then Handled(f, false) else SalvarQuadro(f, Adicionar(loaded.value, t), written)
  }

  /** A task not found in the origin column leaves the file untouched and
      reports success without saving, so only a found task can meet a failed
      write. */
  function MoverTarefa(f: File<Quadro>, id: string, origem: string, destino: string, written: bool): (r: Handled<Quadro>)
    requires CarregarQuadro(f).ok ==> ColunaDe(origem).Some?
    ensures r.ok <==> CarregarQuadro(f).ok && (written || Mover(CarregarQuadro(f).value, id, origem, destino).None?)
    ensures !r.ok ==> r.file == f
    ensures r.ok && Mover(CarregarQuadro(f).value, id, origem, destino).None? ==> r.file == f
    ensures r.ok && Mover(CarregarQuadro(f).value, id, origem, destino).Some? ==>
              r.file.Holds? && NonNil(r.file.content)
              && forall c :: Tasks(r.file.content, c) == Tasks(Mover(CarregarQuadro(f).value, id, origem, destino).value, c)
  {
    var loaded := CarregarQuadro(f);
    if !loaded.ok then Handled(f, false)
    else
      match Mover(loaded.value, id, origem, destino)
      case None => Handled(f, true)
      case Some(q) => SalvarQuadro(f, q, written)
  }

  /** The saved board has no nil column even when the filter emptied one. */
  function DeletarTarefa(f: File<Quadro>, id: string, status: string, written: bool): (r: Handled<Quadro>)
    requires CarregarQuadro(f).ok ==> ColunaDe(status).Some?
    ensures r.ok <==> CarregarQuadro(f).ok && written
    ensures !r.ok ==> r.file == f
    ensures r.ok ==> r.file.Holds? && NonNil(r.file.content)
    ensures r.ok ==> forall c :: Tasks(r.file.content, c) == Tasks(Deletar(CarregarQuadro(f).value, id, status), c)
  {
    var loaded := CarregarQuadro(f);
    if !loaded.ok then Handled(f, false) else SalvarQuadro(f, Deletar(loaded.value, id, status), written)
  }

  function AtualizarTarefa(f: File<Quadro>, t: Tarefa, status: string, written: bool): (r: Handled<Quadro>)
    requires CarregarQuadro(f).ok ==> ColunaDe(status).Some?
    ensures r.ok <==> CarregarQuadro(f).ok && written
    ensures !r.ok ==> r.file == f
    ensures r.ok ==> r.file.Holds? && NonNil(r.file.content)
    ensures r.ok ==> forall c :: Tasks(r.file.content, c) == Tasks(Atualizar(CarregarQuadro(f).value, t, status), c)
  {
    var loaded := CarregarQuadro(f);
    if !loaded.ok then Handled(f, false) else SalvarQuadro(f, Atualizar(loaded.value, t, status), written)
  }
}

=== FILE: planejamento_service.dfy ===
/** The TypeScript service of the kanban board (`services/planejamento.ts`), key
    `planejamento_data`. Loaded tasks go through `converterParaTarefa`; the
    fallbacks recompute the Go handler's board steps, and the lemmas at the end
    say how far the two agree. */
module PlanejamentoService {
  import opened Common
  import opened Js
  import opened Seqs
  import opened Dual
  import Planejamento
  import GoFiles

  type Coluna = Planejamento.Coluna

  /** A task as a JavaScript object: after JSON any field may hold any value. */
  datatype TarefaJs = TarefaJs(id: Prim, titulo: Prim, descricao: Prim, status: Prim, createdAt: Prim)

  /** An element of a loaded column: an object, or another value whose every
      property reads `undefined`. */
  datatype Raw = Rec(t: TarefaJs) | Scalar(p: Prim)

  function Id(t: TarefaJs): Prim
  {
    t.id
  }

  const Blank := TarefaJs(Undefined, Undefined, Undefined, Undefined, Undefined)

  /** `status` is one of the three column names. */
  predicate ValidStatus(p: Prim)
  {
    p == Str("objetivo") || p == Str("fazendo") || p == Str("feito")
  }

  /** The shape `converterParaTarefa` produces. */
  predicate Normal(t: TarefaJs)
  {
    (Truthy(t.id) || t.id == Str("")) && (Truthy(t.titulo) || t.titulo == Str(""))
    && (Truthy(t.descricao) || t.descricao == Str("")) && ValidStatus(t.status)
    && Truthy(t.createdAt)
  }

  /** converterParaTarefa, with `now` standing for `new Date().toISOString()`: an
      unknown status becomes "objetivo". */
  function Converter(raw: Raw, now: string): (r: TarefaJs)
    ensures now != "" ==> Normal(r)
    ensures raw.Rec? && Normal(raw.t) ==> r == raw.t
    ensures raw.Rec? && ValidStatus(raw.t.status) ==> r.status == raw.t.status
    ensures !(raw.Rec? && ValidStatus(raw.t.status)) ==> r.status == Str("objetivo")
  {
    var d := if raw.Rec? then raw.t else Blank;
    TarefaJs(
      Or(d.id, Str("")), Or(d.titulo, Str("")), Or(d.descricao, Str("")),
      if ValidStatus(d.status) then d.status else Str("objetivo"),
      Or(d.createdAt, Str(now)))
  }

  /** Converting twice is converting once, whatever the second clock reading. */
  lemma ConverterIdempotent(raw: Raw, now: string, later: string)
    requires now != ""
    ensures Converter(Rec(Converter(raw, now)), later) == Converter(raw, now)
  {
  }

  function Recs(ts: seq<TarefaJs>): (r: seq<Raw>)
    ensures |r| == |ts| && forall i :: 0 <= i < |ts| ==> r[i] == Rec(ts[i])
  {
    seq(|ts|, i requires 0 <= i < |ts| => Rec(ts[i]))
  }

  function ConvertAll(xs: seq<Raw>, now: string): (r: seq<TarefaJs>)
    ensures |r| == |xs| && forall i :: 0 <= i < |xs| ==> r[i] == Converter(xs[i], now)
  {
    seq(|xs|, i requires 0 <= i < |xs| => Converter(xs[i], now))
  }

  predicate AllNormal(ts: seq<TarefaJs>)
  {
    forall i :: 0 <= i < |ts| ==> Normal(ts[i])
  }

  lemma ConvertNormal(ts: seq<TarefaJs>, now: string)
    requires AllNormal(ts)
    ensures ConvertAll(Recs(ts), now) == ts
  {
  }

  /** The board held in memory: three arrays of tasks. */
  datatype Board = Board(objetivo: seq<TarefaJs>, fazendo: seq<TarefaJs>, feito: seq<TarefaJs>)

  const Vazio := Board([], [], [])

  function Col(b: Board, c: Coluna): seq<TarefaJs>
  {
    match c
    case Objetivo => b.objetivo
    case Fazendo => b.fazendo
    case Feito => b.feito
  }

  function WithCol(b: Board, c: Coluna, ts: seq<TarefaJs>): (r: Board)
    ensures Col(r, c) == ts
    ensures forall d :: d != c ==> Col(r, d) == Col(b, d)
  {
    match c
    case Objetivo => b.(objetivo := ts)
    case Fazendo => b.(fazendo := ts)
    case Feito => b.(feito := ts)
  }

  predicate NormalBoard(b: Board)
  {
    forall c :: AllNormal(Col(b, c))
  }

  /** A board value after JSON: an object whose three properties may hold
      anything, or another value. An array parses as an object whose three
      properties are `undefined`. */
  datatype Doc = Obj(objetivo: Payload<Raw>, fazendo: Payload<Raw>, feito: Payload<Raw>) | Plain(p: Prim)

  function Field(d: Doc, c: Coluna): Payload<Raw>
  {
    if d.Plain? then Other(Undefined)
    else match c
      case Objetivo => d.objetivo
      case Fazendo => d.fazendo
      case Feito => d.feito
  }

  /** `JSON.stringify` of an in-memory board. */
  function DocOf(b: Board): (d: Doc)
    ensures forall c :: Field(d, c) == Arr(Recs(Col(b, c)))
  {
    Obj(Arr(Recs(b.objetivo)), Arr(Recs(b.fazendo)), Arr(Recs(b.feito)))
  }

  /** `Array.isArray(q.col) ? q.col.map(converterParaTarefa) : []` for each
      column. */
  function Normalize(d: Doc, now: string): (b: Board)
    ensures forall c :: Field(d, c).Arr? ==> Col(b, c) == ConvertAll(Field(d, c).items, now)
    ensures forall c :: !Field(d, c).Arr? ==> Col(b, c) == []
    ensures now != "" ==> NormalBoard(b)
  {
    var col := (p: Payload<Raw>) => if p.Arr? then ConvertAll(p.items, now) else [];
    Board(col(Field(d, Planejamento.Objetivo)), col(Field(d, Planejamento.Fazendo)), col(Field(d, Planejamento.Feito)))
  }

  /** A normal board survives being written and normalised again. */
  lemma NormalizeDocOf(b: Board, now: string)
    requires NormalBoard(b)
    ensures Normalize(DocOf(b), now) == b
  {
    forall c: Coluna
      ensures Col(Normalize(DocOf(b), now), c) == Col(b, c)
    {
      ConvertNormal(Col(b, c), now);
    }
    assert Col(Normalize(DocOf(b), now), Planejamento.Objetivo) == b.objetivo;
    assert Col(Normalize(DocOf(b), now), Planejamento.Fazendo) == b.fazendo;
    assert Col(Normalize(DocOf(b), now), Planejamento.Feito) == b.feito;
  }

  /** `quadro && typeof quadro === 'object'`. */
  predicate IsObject(d: Doc)
  {
    d.Obj? || d.p.Compound?
  }

  type Slot = Dual.Slot<Doc>
  type Outcome = Run<(), Doc>

  /** The local read: text that does not parse, and `null` (whose property
      access throws), are caught and give the empty board, as does a missing
      key; any other value is normalised. */
  function FromLocal(slot: Slot, now: string): (b: Board)
    ensures slot.Json? ==> b == Normalize(slot.value, now)
    ensures !slot.Json? ==> b == Vazio
  {
    if slot.Json? then Normalize(slot.value, now) else Vazio
  }

  /** CarregarQuadro: a bridge answer that is an object is normalised and
      mirrored; anything else, or a failure, falls back to the key. Never
      rejects. */
  function Carregar(available: bool, reply: Reply<Doc>, slot: Slot, now: string): (r: Run<Board, Doc>)
    ensures r.result.Ok?
    ensures now != "" ==> NormalBoard(r.result.value)
    ensures CallHost("CarregarQuadro") in r.trace <==> available
    ensures available && reply.Answer? && IsObject(reply.value) ==>
      r.result.value == Normalize(reply.value, now) && r.slot == Json(DocOf(r.result.value))
    ensures !(available && reply.Answer? && IsObject(reply.value)) ==>
      r.slot == slot && r.result.value == FromLocal(slot, now) && WriteLocal !in r.trace
  {
    if available && reply.Answer? && IsObject(reply.value) then
      var b := Normalize(reply.value, now);
      Run(Ok(b), Json(DocOf(b)), [CallHost("CarregarQuadro"), WriteLocal])
    else
      Run(Ok(FromLocal(slot, now)), slot, HostCall(available, "CarregarQuadro"))
  }

  /** The mirror a bridge load writes reads back offline as the same board. */
  lemma ReloadOffline(d: Doc, slot: Slot, now: string, later: Reply<Doc>, laterNow: string)
    requires now != "" && IsObject(d)
    ensures Carregar(false, later, Carregar(true, Answer(d), slot, now).slot, laterNow).result
         == Carregar(true, Answer(d), slot, now).result
  {
    NormalizeDocOf(Normalize(d, now), laterNow);
  }

  /** SalvarQuadro: the key first, then the bridge; a bridge error is swallowed. */
  function SalvarQuadro(b: Board, available: bool): (r: Outcome)
    ensures r.result.Ok? && r.slot == Json(DocOf(b))
    ensures |r.trace| > 0 && r.trace[0] == WriteLocal
    ensures CallHost("SalvarQuadro") in r.trace <==> available
  {
    Run(Ok(()), Json(DocOf(b)), [WriteLocal] + HostCall(available, "SalvarQuadro"))
  }

  /** A saved normal board is what the next offline load returns. */
  lemma LoadAfterSave(b: Board, available: bool, later: Reply<Doc>, now: string)
    requires NormalBoard(b)
    ensures Carregar(false, later, SalvarQuadro(b, available).slot, now).result == Ok(b)
  {
    NormalizeDocOf(b, now);
  }

  function Loaded(available: bool, reply: Reply<Doc>, slot: Slot, now: string): Board
  {
    Carregar(available, reply, slot, now).result.value
  }

  /** What a fallback does with the loaded board. */
  datatype BoardEdit = Unchanged | Save(board: Board) | Throw(failure: Failure)

  /** `quadro[key]` for a key that names a column; any other key yields
      `undefined` or an inherited member, and the array call on it throws. */
  function ColunaOf(key: Prim): (r: Option<Coluna>)
    ensures r.Some? <==> ValidStatus(key)
    ensures r.Some? ==> key == Str(Planejamento.Nome(r.value))
  {
    if key.Str? then Planejamento.ColunaDe(key.s) else None
  }

  /** The shape of every board mutation: call the bridge; when it succeeds,
      return; otherwise load, edit and save. */
  function Mutation(
    available: bool, hostOk: bool, host: string, reply: Reply<Doc>, slot: Slot, now: string,
    edit: Board -> BoardEdit): (r: Outcome)
    requires host != "SalvarQuadro"
    ensures available && hostOk ==> r == Run(Ok(()), slot, [CallHost(host)])
    ensures !(available && hostOk) ==>
      var loaded := Carregar(available, reply, slot, now);
      match edit(loaded.result.value)
      case Unchanged => (r.result.Ok? && r.slot == loaded.slot)
      case Save(b) => (r.result.Ok? && r.slot == Json(DocOf(b))
        && (CallHost("SalvarQuadro") in r.trace <==> available))
      case Throw(f) => (r.result == Err(f) && r.slot == loaded.slot
        && CallHost("SalvarQuadro") !in r.trace)
  {
    if available && hostOk then Run(Ok(()), slot, [CallHost(host)])
    else
      var loaded := Carregar(available, reply, slot, now);
      var before := HostCall(available, host) + loaded.trace;
      match edit(loaded.result.value)
      case Unchanged => Run(Ok(()), loaded.slot, before)
      case Save(b) =>
        var saved := SalvarQuadro(b, available);
        Run(Ok(()), saved.slot, before + saved.trace)
      case Throw(f) => Run(Err(f), loaded.slot, before)
  }

  /** `quadro[tarefa.status].push(tarefa)` */
  function AddEdit(b: Board, t: TarefaJs): (e: BoardEdit)
    ensures e.Throw? <==> !ValidStatus(t.status)
    ensures e.Throw? ==> e.failure == TypeError
    ensures e.Save? ==> var c := ColunaOf(t.status).value;
      Col(e.board, c) == Col(b, c) + [t] && forall d :: d != c ==> Col(e.board, d) == Col(b, d)
  {
    match ColunaOf(t.status)
    case None => Throw(TypeError)
    case Some(c) => Save(WithCol(b, c, Col(b, c) + [t]))
  }

  /** The fallback of MoverTarefa: an unknown origin throws before anything; a
      task not in the origin changes nothing; an unknown destination throws
      after the task left the origin, so nothing is saved. */
  function MoveEdit(b: Board, id: string, origem: string, destino: string): (e: BoardEdit)
    ensures Planejamento.ColunaDe(origem).None? ==> e == Throw(TypeError)
    ensures Planejamento.ColunaDe(origem).Some? ==>
      var o := Planejamento.ColunaDe(origem).value;
      (e.Unchanged? <==> !Has(Col(b, o), Id, Str(id)))
      && (Has(Col(b, o), Id, Str(id)) && Planejamento.ColunaDe(destino).None? ==> e == Throw(TypeError))
      && (e.Save? ==> |Col(e.board, o)| + 1 == |Col(b, o)| || origem == destino)
  {
    match Planejamento.ColunaDe(origem)
    case None => Throw(TypeError)
    case Some(o) =>
      var src := Col(b, o);
      match FirstIndex(src, Id, Str(id))
      case None => Unchanged
      case Some(i) =>
        var b1 := WithCol(b, o, src[..i] + src[i + 1..]);
        match Planejamento.ColunaDe(destino)
        case None => Throw(TypeError)
        case Some(d) =>
          Planejamento.ColunaDeNome(o);
          Save(WithCol(b1, d, Col(b1, d) + [src[i].(status := Str(destino))]))
  }

  /** `quadro[status] = quadro[status].filter(t => t.id !== id)` */
  function DeleteEdit(b: Board, id: string, status: string): (e: BoardEdit)
    ensures e.Throw? <==> Planejamento.ColunaDe(status).None?
    ensures !e.Unchanged?
    ensures e.Save? ==> var c := Planejamento.ColunaDe(status).value;
      Col(e.board, c) == RemoveAll(Col(b, c), Id, Str(id)) && forall d :: d != c ==> Col(e.board, d) == Col(b, d)
  {
    match Planejamento.ColunaDe(status)
    case None => Throw(TypeError)
    case Some(c) => Save(WithCol(b, c, RemoveAll(Col(b, c), Id, Str(id))))
  }

  /** findIndex in the named column, then replace. */
  function UpdateEdit(b: Board, t: TarefaJs, status: string): (e: BoardEdit)
    ensures e.Throw? <==> Planejamento.ColunaDe(status).None?
    ensures Planejamento.ColunaDe(status).Some? ==>
      var c := Planejamento.ColunaDe(status).value;
      (e.Unchanged? <==> !Has(Col(b, c), Id, t.id))
      && (e.Save? ==> Col(e.board, c) == ReplaceFirst(Col(b, c), Id, t) && forall d :: d != c ==> Col(e.board, d) == Col(b, d))
  {
    match Planejamento.ColunaDe(status)
    case None => Throw(TypeError)
    case Some(c) =>
      match FirstIndex(Col(b, c), Id, t.id)
      case None => Unchanged
      case Some(i) => Save(WithCol(b, c, Col(b, c)[i := t]))
  }

  function AdicionarTarefa(available: bool, hostOk: bool, reply: Reply<Doc>, slot: Slot, t: TarefaJs, now: string): (r: Outcome)
    ensures available && hostOk ==> r.result.Ok? && r.slot == slot
    ensures !(available && hostOk) ==> (r.result.Err? <==> !ValidStatus(t.status))
    ensures !(available && hostOk) && ValidStatus(t.status) ==>
      r.slot == Json(DocOf(AddEdit(Loaded(available, reply, slot, now), t).board))
  {
    Mutation(available, hostOk, "AdicionarTarefa", reply, slot, now, b => AddEdit(b, t))
  }

  function MoverTarefa(available: bool, hostOk: bool, reply: Reply<Doc>, slot: Slot, id: string, origem: string, destino: string, now: string): (r: Outcome)
    ensures available && hostOk ==> r.result.Ok? && r.slot == slot
    ensures !(available && hostOk) ==>
      var e := MoveEdit(Loaded(available, reply, slot, now), id, origem, destino);
      (r.result.Err? <==> e.Throw?)
      && (e.Save? ==> r.slot == Json(DocOf(e.board)))
      && (!e.Save? ==> r.slot == Carregar(available, reply, slot, now).slot)
  {
    Mutation(available, hostOk, "MoverTarefa", reply, slot, now, b => MoveEdit(b, id, origem, destino))
  }

  function DeletarTarefa(available: bool, hostOk: bool, reply: Reply<Doc>, slot: Slot, id: string, status: string, now: string): (r: Outcome)
    ensures available && hostOk ==> r.result.Ok? && r.slot == slot
    ensures !(available && hostOk) ==> (r.result.Err? <==> Planejamento.ColunaDe(status).None?)
    ensures !(available && hostOk) && Planejamento.ColunaDe(status).Some? ==>
      r.slot == Json(DocOf(DeleteEdit(Loaded(available, reply, slot, now), id, status).board))
  {
    Mutation(available, hostOk, "DeletarTarefa", reply, slot, now, b => DeleteEdit(b, id, status))
  }

  function AtualizarTarefa(available: bool, hostOk: bool, reply: Reply<Doc>, slot: Slot, t: TarefaJs, status: string, now: string): (r: Outcome)
    requires t.id.Str?
    ensures available && hostOk ==> r.result.Ok? && r.slot == slot
    ensures !(available && hostOk) ==>
      var e := UpdateEdit(Loaded(available, reply, slot, now), t, status);
      (r.result.Err? <==> Planejamento.ColunaDe(status).None?)
      && (e.Save? ==> r.slot == Json(DocOf(e.board)))
      && (!e.Save? ==> r.slot == Carregar(available, reply, slot, now).slot)
  {
    Mutation(available, hostOk, "AtualizarTarefa", reply, slot, now, b => UpdateEdit(b, t, status))
  }

  // ---- agreement with the Go handler's board steps ----

  /** A Go task as the page sees it after JSON. */
  function Lift(t: Planejamento.Tarefa): (r: TarefaJs)
    ensures r.id == Str(t.id) && r.status == Str(t.status)
  {
    TarefaJs(Str(t.id), Str(t.titulo), Str(t.descricao), Str(t.status), Str(t.createdAt))
  }

  function Lifts(ts: seq<Planejamento.Tarefa>): (r: seq<TarefaJs>)
    ensures |r| == |ts| && forall i :: 0 <= i < |ts| ==> r[i] == Lift(ts[i])
  {
    seq(|ts|, i requires 0 <= i < |ts| => Lift(ts[i]))
  }

  function LiftBoard(q: Planejamento.Quadro): (b: Board)
    ensures forall c :: Col(b, c) == Lifts(Planejamento.Tasks(q, c))
  {
    Board(Lifts(Planejamento.Tasks(q, Planejamento.Objetivo)), Lifts(Planejamento.Tasks(q, Planejamento.Fazendo)),
      Lifts(Planejamento.Tasks(q, Planejamento.Feito)))
  }

  /** Two boards with the same columns are the same board. */
  lemma BoardExt(a: Board, b: Board)
    requires forall c :: Col(a, c) == Col(b, c)
    ensures a == b
  {
    assert Col(a, Planejamento.Objetivo) == Col(b, Planejamento.Objetivo);
    assert Col(a, Planejamento.Fazendo) == Col(b, Planejamento.Fazendo);
    assert Col(a, Planejamento.Feito) == Col(b, Planejamento.Feito);
  }

  lemma LiftsAppend(a: seq<Planejamento.Tarefa>, b: seq<Planejamento.Tarefa>)
    ensures Lifts(a + b) == Lifts(a) + Lifts(b)
  {
  }

  /** IDs are compared as strings on both sides, so the searches agree. */
  lemma LiftsHas(ts: seq<Planejamento.Tarefa>, id: string)
    ensures Has(Lifts(ts), Id, Str(id)) <==> Has(ts, Planejamento.Id, id)
  {
    if Has(ts, Planejamento.Id, id) {
      var j :| 0 <= j < |ts| && Planejamento.Id(ts[j]) == id;
      assert Id(Lifts(ts)[j]) == Str(id);
    }
  }

  lemma LiftsFirstIndex(ts: seq<Planejamento.Tarefa>, id: string)
    ensures FirstIndex(Lifts(ts), Id, Str(id)) == FirstIndex(ts, Planejamento.Id, id)
  {
    LiftsHas(ts, id);
    match FirstIndex(ts, Planejamento.Id, id)
    case None =>
    case Some(i) =>
      assert IsFirstMatch(Lifts(ts), Id, Str(id), i);
      var k := FirstIndex(Lifts(ts), Id, Str(id)).value;
      FirstMatchUnique(Lifts(ts), Id, Str(id), i, k);
  }

  lemma {:induction false} LiftsRemoveAll(ts: seq<Planejamento.Tarefa>, id: string)
    ensures RemoveAll(Lifts(ts), Id, Str(id)) == Lifts(RemoveAll(ts, Planejamento.Id, id))
  {
    if |ts| > 0 {
      LiftsRemoveAll(ts[1..], id);
      LiftsRemoveAllCons(ts, id);
    }
  }

  /** One step of LiftsRemoveAll: the head is kept or dropped on both sides. */
  lemma LiftsRemoveAllCons(ts: seq<Planejamento.Tarefa>, id: string)
    requires |ts| > 0
    requires RemoveAll(Lifts(ts[1..]), Id, Str(id)) == Lifts(RemoveAll(ts[1..], Planejamento.Id, id))
    ensures RemoveAll(Lifts(ts), Id, Str(id)) == Lifts(RemoveAll(ts, Planejamento.Id, id))
  {
    var ls := Lifts(ts);
    var tail := RemoveAll(ts[1..], Planejamento.Id, id);
    assert ls[1..] == Lifts(ts[1..]);
    if ts[0].id == id {
      assert RemoveAll(ls, Id, Str(id)) == RemoveAll(ls[1..], Id, Str(id));
    } else {
      assert RemoveAll(ls, Id, Str(id)) == [ls[0]] + RemoveAll(ls[1..], Id, Str(id));
      assert RemoveAll(ts, Planejamento.Id, id) == [ts[0]] + tail;
      LiftsAppend([ts[0]], tail);
    }
  }

  lemma LiftsReplaceFirst(ts: seq<Planejamento.Tarefa>, t: Planejamento.Tarefa)
    ensures ReplaceFirst(Lifts(ts), Id, Lift(t)) == Lifts(ReplaceFirst(ts, Planejamento.Id, t))
  {
    LiftsFirstIndex(ts, t.id);
    LiftsHas(ts, t.id);
    match FirstIndex(ts, Planejamento.Id, t.id)
    case None =>
    case Some(i) =>
      assert Lifts(ts)[i := Lift(t)] == Lifts(ts[i := t]);
  }

  /** With a column name as status, adding offline appends where the handler
      appends. */
  lemma AddAgrees(q: Planejamento.Quadro, t: Planejamento.Tarefa)
    requires Planejamento.ColunaDe(t.status).Some?
    ensures AddEdit(LiftBoard(q), Lift(t)) == Save(LiftBoard(Planejamento.Adicionar(q, t)))
  {
    var c := Planejamento.ColunaDe(t.status).value;
    var e := AddEdit(LiftBoard(q), Lift(t));
    LiftsAppend(Planejamento.Tasks(q, c), [t]);
    forall d: Coluna
      ensures Col(e.board, d) == Col(LiftBoard(Planejamento.Adicionar(q, t)), d)
    {
    }
    BoardExt(e.board, LiftBoard(Planejamento.Adicionar(q, t)));
  }

  /** Deleting offline filters the column the handler filters. */
  lemma DeleteAgrees(q: Planejamento.Quadro, id: string, status: string)
    requires Planejamento.ColunaDe(status).Some?
    ensures DeleteEdit(LiftBoard(q), id, status) == Save(LiftBoard(Planejamento.Deletar(q, id, status)))
  {
    var c := Planejamento.ColunaDe(status).value;
    var e := DeleteEdit(LiftBoard(q), id, status);
    LiftsRemoveAll(Planejamento.Tasks(q, c), id);
    forall d: Coluna
      ensures Col(e.board, d) == Col(LiftBoard(Planejamento.Deletar(q, id, status)), d)
    {
    }
    BoardExt(e.board, LiftBoard(Planejamento.Deletar(q, id, status)));
  }

  /** Updating offline replaces the task the handler replaces; when none has the
      ID the fallback saves nothing, while the handler rewrites the same tasks. */
  lemma UpdateAgrees(q: Planejamento.Quadro, t: Planejamento.Tarefa, status: string)
    requires Planejamento.ColunaDe(status).Some?
    ensures var c := Planejamento.ColunaDe(status).value;
      && (Has(Planejamento.Tasks(q, c), Planejamento.Id, t.id) ==>
            UpdateEdit(LiftBoard(q), Lift(t), status) == Save(LiftBoard(Planejamento.Atualizar(q, t, status))))
      && (!Has(Planejamento.Tasks(q, c), Planejamento.Id, t.id) ==>
            UpdateEdit(LiftBoard(q), Lift(t), status) == Unchanged
            && LiftBoard(Planejamento.Atualizar(q, t, status)) == LiftBoard(q))
  {
    var c := Planejamento.ColunaDe(status).value;
    LiftsHas(Planejamento.Tasks(q, c), t.id);
    LiftsReplaceFirst(Planejamento.Tasks(q, c), t);
    LiftsFirstIndex(Planejamento.Tasks(q, c), t.id);
    var e := UpdateEdit(LiftBoard(q), Lift(t), status);
    if Has(Planejamento.Tasks(q, c), Planejamento.Id, t.id) {
      var i := FirstIndex(Planejamento.Tasks(q, c), Planejamento.Id, t.id).value;
      assert Col(LiftBoard(q), c)[i := Lift(t)] == ReplaceFirst(Col(LiftBoard(q), c), Id, Lift(t));
      forall d: Coluna
        ensures Col(e.board, d) == Col(LiftBoard(Planejamento.Atualizar(q, t, status)), d)
      {
      }
      BoardExt(e.board, LiftBoard(Planejamento.Atualizar(q, t, status)));
    } else {
      BoardExt(LiftBoard(Planejamento.Atualizar(q, t, status)), LiftBoard(q));
    }
  }

  /** Where the fallback puts a found task: the same place the handler does
      (compare Planejamento.MoverMoves). */
  lemma MoveEditMoves(b: Board, id: string, o: Coluna, d: Coluna, i: nat)
    requires IsFirstMatch(Col(b, o), Id, Str(id), i)
    ensures var src := Col(b, o);
            var moved := src[i].(status := Str(Planejamento.Nome(d)));
            MoveEdit(b, id, Planejamento.Nome(o), Planejamento.Nome(d)).Save? &&
            var r := MoveEdit(b, id, Planejamento.Nome(o), Planejamento.Nome(d)).board;
            && (o != d ==> Col(r, o) == src[..i] + src[i + 1..] && Col(r, d) == Col(b, d) + [moved])
            && (o == d ==> Col(r, o) == src[..i] + src[i + 1..] + [moved])
            && (forall c :: c != o && c != d ==> Col(r, c) == Col(b, c))
  {
    Planejamento.ColunaDeNome(o);
    Planejamento.ColunaDeNome(d);
    assert FirstIndex(Col(b, o), Id, Str(id)) == Some(i);
  }

  /** The boards of a move agree once their columns do: the origin loses
      position `i`, the destination gains the moved task at its end. */
  lemma SameMoveBoard(q: Planejamento.Quadro, r: Planejamento.Quadro, e: Board, o: Coluna, d: Coluna, i: nat, moved: Planejamento.Tarefa)
    requires i < |Planejamento.Tasks(q, o)|
    requires var src := Planejamento.Tasks(q, o);
      && (o != d ==> Planejamento.Tasks(r, o) == src[..i] + src[i + 1..] && Planejamento.Tasks(r, d) == Planejamento.Tasks(q, d) + [moved])
      && (o == d ==> Planejamento.Tasks(r, o) == src[..i] + src[i + 1..] + [moved])
      && (forall c :: c != o && c != d ==> Planejamento.Tasks(r, c) == Planejamento.Tasks(q, c))
    requires var src := Lifts(Planejamento.Tasks(q, o));
      && (o != d ==> Col(e, o) == src[..i] + src[i + 1..] && Col(e, d) == Lifts(Planejamento.Tasks(q, d)) + [Lift(moved)])
      && (o == d ==> Col(e, o) == src[..i] + src[i + 1..] + [Lift(moved)])
      && (forall c :: c != o && c != d ==> Col(e, c) == Lifts(Planejamento.Tasks(q, c)))
    ensures e == LiftBoard(r)
  {
    var src := Planejamento.Tasks(q, o);
    var rest := src[..i] + src[i + 1..];
    assert Lifts(rest) == Lifts(src)[..i] + Lifts(src)[i + 1..];
    forall c: Coluna
      ensures Col(e, c) == Col(LiftBoard(r), c)
    {
      if c == o && o == d {
        LiftsAppend(rest, [moved]);
      } else if c == d {
        LiftsAppend(Planejamento.Tasks(q, d), [moved]);
      }
    }
    BoardExt(e, LiftBoard(r));
  }

  /** A found task ends up in the same place on both sides. */
  lemma MoveAgreesFound(q: Planejamento.Quadro, id: string, o: Coluna, d: Coluna, i: nat)
    requires IsFirstMatch(Planejamento.Tasks(q, o), Planejamento.Id, id, i)
    ensures Planejamento.Mover(q, id, Planejamento.Nome(o), Planejamento.Nome(d)).Some?
    ensures MoveEdit(LiftBoard(q), id, Planejamento.Nome(o), Planejamento.Nome(d))
        == Save(LiftBoard(Planejamento.Mover(q, id, Planejamento.Nome(o), Planejamento.Nome(d)).value))
  {
    var src := Planejamento.Tasks(q, o);
    Planejamento.MoverMoves(q, id, o, d, i);
    assert IsFirstMatch(Col(LiftBoard(q), o), Id, Str(id), i);
    MoveEditMoves(LiftBoard(q), id, o, d, i);
    var e := MoveEdit(LiftBoard(q), id, Planejamento.Nome(o), Planejamento.Nome(d)).board;
    var r := Planejamento.Mover(q, id, Planejamento.Nome(o), Planejamento.Nome(d)).value;
    var moved := src[i].(status := Planejamento.Nome(d));
    assert Lift(moved) == Lifts(src)[i].(status := Str(Planejamento.Nome(d)));
    SameMoveBoard(q, r, e, o, d, i, moved);
  }

  /** With two column names, moving offline does what the handler does: nothing
      when the origin lacks the task, otherwise the same board. */
  lemma MoveAgrees(q: Planejamento.Quadro, id: string, o: Coluna, d: Coluna)
    ensures Planejamento.Mover(q, id, Planejamento.Nome(o), Planejamento.Nome(d)).None? ==>
      MoveEdit(LiftBoard(q), id, Planejamento.Nome(o), Planejamento.Nome(d)) == Unchanged
    ensures Planejamento.Mover(q, id, Planejamento.Nome(o), Planejamento.Nome(d)).Some? ==>
      MoveEdit(LiftBoard(q), id, Planejamento.Nome(o), Planejamento.Nome(d))
        == Save(LiftBoard(Planejamento.Mover(q, id, Planejamento.Nome(o), Planejamento.Nome(d)).value))
  {
    Planejamento.ColunaDeNome(o);
    var src := Planejamento.Tasks(q, o);
    LiftsFirstIndex(src, id);
    match FirstIndex(src, Planejamento.Id, id)
    case None =>
    case Some(i) => MoveAgreesFound(q, id, o, d, i);
  }

  /** For an unknown destination the two sides part: the fallback throws and
      saves nothing, while the handler drops the task from the board it saves. */
  lemma MoveUnknownDestination(q: Planejamento.Quadro, id: string, o: Coluna, destino: string)
    requires Planejamento.ColunaDe(destino).None?
    requires Has(Planejamento.Tasks(q, o), Planejamento.Id, id)
    ensures MoveEdit(LiftBoard(q), id, Planejamento.Nome(o), destino) == Throw(TypeError)
    ensures Planejamento.Total(Planejamento.Mover(q, id, Planejamento.Nome(o), destino).value) == Planejamento.Total(q) - 1
  {
    Planejamento.ColunaDeNome(o);
    LiftsHas(Planejamento.Tasks(q, o), id);
  }
}

=== FILE: seqs.dfy ===
/** Keyed operations on record lists, shared by every module: each record has an
    identifier obtained with `key`, and lookups are linear scans that stop
    at the first match, as in the Go `for … break` loops and JavaScript's
    `findIndex`/`find`/`filter`. */
module Seqs {
  import opened Common

  /** Some record of `s` has identifier `id`. */
  predicate Has<T, K(==)>(s: seq<T>, key: T -> K, id: K)
  {
    exists j :: 0 <= j < |s| && key(s[j]) == id
  }

  /** Position `i` holds the first record of `s` whose identifier is `id`. */
  predicate IsFirstMatch<T, K(==)>(s: seq<T>, key: T -> K, id: K, i: int)
  {
    && 0 <= i < |s|
    && key(s[i]) == id
    && forall j :: 0 <= j < i ==> key(s[j]) != id
  }

  lemma FirstMatchUnique<T, K>(s: seq<T>, key: T -> K, id: K, i: int, k: int)
    requires IsFirstMatch(s, key, id, i) && IsFirstMatch(s, key, id, k)
    ensures i == k
  {
  }

  /** Index of the first record with identifier `id` (`findIndex`, with None for -1). */
  function FirstIndex<T, K(==)>(s: seq<T>, key: T -> K, id: K): (r: Option<nat>)
    ensures r.Some? ==> IsFirstMatch(s, key, id, r.value)
    ensures r.None? <==> !Has(s, key, id)
  {
    if |s| == 0 then None
    else if key(s[0]) == id then Some(0)
    else
      match FirstIndex(s[1..], key, id)
      case None =>
        assert forall j :: 1 <= j < |s| ==> s[j] == s[1..][j - 1];
        None
      case Some(i) =>
        assert forall j :: 1 <= j <= i ==> s[j] == s[1..][j - 1];
        Some(i + 1)
  }

  /** Replace the first record whose identifier equals that of `x` by `x`; no change
      when there is none. */
  function ReplaceFirst<T, K(==)>(s: seq<T>, key: T -> K, x: T): (r: seq<T>)
    ensures |r| == |s|
    ensures forall i :: IsFirstMatch(s, key, key(x), i) ==> r == s[i := x]
    ensures !Has(s, key, key(x)) ==> r == s
  {
    if |s| == 0 then []
    else if key(s[0]) == key(x) then [x] + s[1..]
    else
      var rest := ReplaceFirst(s[1..], key, x);
      assert forall i :: IsFirstMatch(s, key, key(x), i) ==> IsFirstMatch(s[1..], key, key(x), i - 1);
      assert !Has(s, key, key(x)) ==> !Has(s[1..], key, key(x));
      [s[0]] + rest
  }

  /** Keep, in order, every record whose identifier differs from `id`
      (the Go filter loops and JavaScript's `filter(x => x.id !== id)`). */
  function RemoveAll<T, K(==)>(s: seq<T>, key: T -> K, id: K): (r: seq<T>)
    ensures |r| <= |s|
    ensures forall j :: 0 <= j < |r| ==> r[j] in s && key(r[j]) != id
    ensures !Has(r, key, id)
    ensures forall j :: 0 <= j < |s| && key(s[j]) != id ==> s[j] in r
    ensures !Has(s, key, id) ==> r == s
    ensures Has(s, key, id) ==> |r| < |s|
  {
    if |s| == 0 then []
    else
      var rest := RemoveAll(s[1..], key, id);
      assert !Has(s, key, id) ==> !Has(s[1..], key, id);
      assert s == [s[0]] + s[1..];
      if key(s[0]) == id then rest else [s[0]] + rest
  }

  /** The filter keeps survivors in order: a head with another identifier stays
      in front of the filtered rest, and a matching head is dropped. */
  lemma RemoveAllCons<T, K>(x: T, s: seq<T>, key: T -> K, id: K)
    ensures key(x) != id ==> RemoveAll([x] + s, key, id) == [x] + RemoveAll(s, key, id)
    ensures key(x) == id ==> RemoveAll([x] + s, key, id) == RemoveAll(s, key, id)
  {
    assert ([x] + s)[1..] == s;
  }

  /** Removal keeps the relative order of the survivors: it distributes over
      concatenation, so it behaves like a filter on each part separately. */
  lemma {:induction false} RemoveAllAppend<T, K>(a: seq<T>, b: seq<T>, key: T -> K, id: K)
    ensures RemoveAll(a + b, key, id) == RemoveAll(a, key, id) + RemoveAll(b, key, id)
  {
    if |a| == 0 {
      assert a + b == b;
    } else {
      assert (a + b)[1..] == a[1..] + b;
      RemoveAllAppend(a[1..], b, key, id);
    }
  }

  /** Removing twice is removing once. */
  lemma {:induction false} RemoveAllIdempotent<T, K>(s: seq<T>, key: T -> K, id: K)
    ensures RemoveAll(RemoveAll(s, key, id), key, id) == RemoveAll(s, key, id)
  {
  }

  /** Number of records with identifier `id`. */
  function Count<T, K(==)>(s: seq<T>, key: T -> K, id: K): nat
  {
    if |s| == 0 then 0 else (if key(s[0]) == id then 1 else 0) + Count(s[1..], key, id)
  }

  /** Removal drops exactly the records carrying the identifier. */
  lemma {:induction false} RemoveAllCount<T, K>(s: seq<T>, key: T -> K, id: K)
    ensures |RemoveAll(s, key, id)| == |s| - Count(s, key, id)
  {
    if |s| > 0 {
      RemoveAllCount(s[1..], key, id);
    }
  }

  /** Exchange positions `i` and `j`. */
  function Swap<T>(s: seq<T>, i: nat, j: nat): (r: seq<T>)
    requires i < |s| && j < |s|
    ensures |r| == |s|
    ensures r[i] == s[j] && r[j] == s[i]
    ensures forall k :: 0 <= k < |s| && k != i && k != j ==> r[k] == s[k]
    ensures multiset(r) == multiset(s)
  {
    s[i := s[j]][j := s[i]]
  }

  /** Identifiers of `s` are pairwise distinct. */
  predicate Unique<T, K(==)>(s: seq<T>, key: T -> K)
  {
    forall i, j :: 0 <= i < j < |s| ==> key(s[i]) != key(s[j])
  }
}

=== FILE: stamps.dfy ===
/** The backup timestamp: `time.Now()` formatted with Go's layout
    `2006-01-02_15-04-05`. Every field is written with a fixed number of digits,
    so string order of two formatted stamps is their chronological order, which
    is what pruning (sorting the names) and listing (sorting the dates) rely on. */
module Stamps {
  import opened Lex

  /** A wall-clock reading to the second, in local time. */
  datatype Stamp = Stamp(year: int, month: int, day: int, hour: int, minute: int, second: int)

  /** The readings the layout writes in fixed width: a four-digit year. Day
      validity per month is not needed for ordering and is not modelled. */
  predicate Valid(t: Stamp)
  {
    0 <= t.year <= 9999 && 1 <= t.month <= 12 && 1 <= t.day <= 31
    && 0 <= t.hour < 24 && 0 <= t.minute < 60 && 0 <= t.second < 60
  }

  /** Chronological order of two readings. */
  predicate Earlier(a: Stamp, b: Stamp)
  {
    if a.year != b.year then a.year < b.year
    else if a.month != b.month then a.month < b.month
    else if a.day != b.day then a.day < b.day
    else if a.hour != b.hour then a.hour < b.hour
    else if a.minute != b.minute then a.minute < b.minute
    else a.second < b.second
  }

  function Pow10(w: nat): nat
  {
    if w == 0 then 1 else 10 * Pow10(w - 1)
  }

  function Digit(d: int): char
    requires 0 <= d < 10
  {
    ('0' as int + d) as char
  }

  /** `n` in exactly `w` decimal digits, with leading zeros. */
  function Pad(n: nat, w: nat): (r: string)
    requires n < Pow10(w)
    ensures |r| == w
    ensures forall i :: 0 <= i < |r| ==> '0' <= r[i] <= '9'
  {
    if w == 0 then ""
    else
      assert n / 10 < Pow10(w - 1);
      Pad(n / 10, w - 1) + [Digit(n % 10)]
  }

  /** Fixed-width numerals compare like the numbers they write. */
  lemma {:induction false} PadOrder(a: nat, b: nat, w: nat)
    requires a < Pow10(w) && b < Pow10(w)
    ensures Below(Pad(a, w), Pad(b, w)) <==> a < b
    ensures Pad(a, w) == Pad(b, w) <==> a == b
    decreases w
  {
    if w > 0 {
      assert a / 10 < Pow10(w - 1) && b / 10 < Pow10(w - 1);
      PadOrder(a / 10, b / 10, w - 1);
      var pa, pb := Pad(a / 10, w - 1), Pad(b / 10, w - 1);
      var da, db := [Digit(a % 10)], [Digit(b % 10)];
      BelowConcat(pa, da, pb, db);
      assert Below(da, db) <==> a % 10 < b % 10 by {
        assert !Below(da[1..], db[1..]);
      }
      assert a == 10 * (a / 10) + a % 10 && b == 10 * (b / 10) + b % 10;
      if pa + da == pb + db {
        assert pa == (pa + da)[..w - 1] && pb == (pb + db)[..w - 1];
        assert da[0] == (pa + da)[w - 1] && db[0] == (pb + db)[w - 1];
      }
    }
  }

  /** Two equally long heads joined to tails compare head first. */
  lemma Triple(x1: string, x2: string, x3: string, y1: string, y2: string, y3: string, sep: string)
    requires |x1| == |y1| && |x2| == |y2| && |sep| == 1
    ensures Below(x1 + (sep + (x2 + (sep + x3))), y1 + (sep + (y2 + (sep + y3))))
        <==> Below(x1, y1) || (x1 == y1 && (Below(x2, y2) || (x2 == y2 && Below(x3, y3))))
    ensures x1 + (sep + (x2 + (sep + x3))) == y1 + (sep + (y2 + (sep + y3)))
        <==> x1 == y1 && x2 == y2 && x3 == y3
  {
    BelowIrreflexive(sep);
    BelowConcat(x1, sep + (x2 + (sep + x3)), y1, sep + (y2 + (sep + y3)));
    BelowConcat(sep, x2 + (sep + x3), sep, y2 + (sep + y3));
    BelowConcat(x2, sep + x3, y2, sep + y3);
    BelowConcat(sep, x3, sep, y3);
    var a, b := x1 + (sep + (x2 + (sep + x3))), y1 + (sep + (y2 + (sep + y3)));
    if a == b {
      var k1, k2 := |x1|, |x1| + 1 + |x2|;
      assert x1 == a[..k1] && y1 == b[..k1];
      assert x2 == a[k1 + 1..k2] && y2 == b[k1 + 1..k2];
      assert x3 == a[k2 + 1..] && y3 == b[k2 + 1..];
    }
  }

  /** `2006-01-02` */
  function DatePart(t: Stamp): (r: string)
    requires Valid(t)
    ensures |r| == 10
  {
    Pad(t.year, 4) + ("-" + (Pad(t.month, 2) + ("-" + Pad(t.day, 2))))
  }

  /** `15-04-05` */
  function ClockPart(t: Stamp): (r: string)
    requires Valid(t)
    ensures |r| == 8
  {
    Pad(t.hour, 2) + ("-" + (Pad(t.minute, 2) + ("-" + Pad(t.second, 2))))
  }

  /** The timestamp of a backup, as `Format("2006-01-02_15-04-05")` writes it. */
  function Format(t: Stamp): (r: string)
    requires Valid(t)
    ensures |r| == 19
    ensures r[4] == '-' && r[7] == '-' && r[10] == '_' && r[13] == '-' && r[16] == '-'
  {
    DatePart(t) + ("_" + ClockPart(t))
  }

  lemma DateOrder(a: Stamp, b: Stamp)
    requires Valid(a) && Valid(b)
    ensures Below(DatePart(a), DatePart(b)) <==>
      a.year < b.year || (a.year == b.year && (a.month < b.month || (a.month == b.month && a.day < b.day)))
    ensures DatePart(a) == DatePart(b) <==> a.year == b.year && a.month == b.month && a.day == b.day
  {
    PadOrder(a.year, b.year, 4);
    PadOrder(a.month, b.month, 2);
    PadOrder(a.day, b.day, 2);
    Triple(Pad(a.year, 4), Pad(a.month, 2), Pad(a.day, 2), Pad(b.year, 4), Pad(b.month, 2), Pad(b.day, 2), "-");
  }

  lemma ClockOrder(a: Stamp, b: Stamp)
    requires Valid(a) && Valid(b)
    ensures Below(ClockPart(a), ClockPart(b)) <==>
      a.hour < b.hour || (a.hour == b.hour && (a.minute < b.minute || (a.minute == b.minute && a.second < b.second)))
    ensures ClockPart(a) == ClockPart(b) <==> a.hour == b.hour && a.minute == b.minute && a.second == b.second
  {
    PadOrder(a.hour, b.hour, 2);
    PadOrder(a.minute, b.minute, 2);
    PadOrder(a.second, b.second, 2);
    Triple(Pad(a.hour, 2), Pad(a.minute, 2), Pad(a.second, 2), Pad(b.hour, 2), Pad(b.minute, 2), Pad(b.second, 2), "-");
  }

  /** String order of formatted stamps is chronological order, and formatting
      loses nothing. */
  lemma FormatOrder(a: Stamp, b: Stamp)
    requires Valid(a) && Valid(b)
    ensures Below(Format(a), Format(b)) <==> Earlier(a, b)
    ensures Format(a) == Format(b) <==> a == b
  {
    DateOrder(a, b);
    ClockOrder(a, b);
    BelowIrreflexive("_");
    BelowConcat(DatePart(a), "_" + ClockPart(a), DatePart(b), "_" + ClockPart(b));
    BelowConcat("_", ClockPart(a), "_", ClockPart(b));
    if Format(a) == Format(b) {
      assert DatePart(a) == Format(a)[..10] && DatePart(b) == Format(b)[..10];
      assert ClockPart(a) == Format(a)[11..] && ClockPart(b) == Format(b)[11..];
    }
  }
}
